=== FILE: README.md ===
# Problem-generation pipeline: a Dafny model

This project models the part of a study-tool repository that is more than framework wiring:

- **Generator scripts.** `scripts/generate_math_problemset.ts` and `scripts/generate_desmos_graph_problemset.ts` ask a language model for a batch of practice problems. They extract a JSON array from its noisy reply, validate every item against a fixed rule set and retry up to three times. The math script then verifies answers locally or in batches through the model. Both scripts store the rows in per-topic SQLite tables.
- **Recheck script.** `scripts/recheck_all_problems.ts` re-examines unverified rows in two phases: a local arithmetic check, then model verification.
- **Topic listing.** `server/api/topics.get.ts` merges the topics table with the discovered `problems_*` tables and resolves each topic to a table.
- **Notion migration.** `shared/migrate-functions.ts` migrates Notion pages into a problems table. It follows a cursor and upserts each batch in one transaction.
- **Sessions.** `server/api/lib/session.ts` creates, reads and destroys login sessions.

## How things are modelled

- **Modules.** There is one module per concern. Every value is an immutable datatype, and every operation is a pure function. The exceptions are six short methods: `MathMain.QueuePending`, `MathMain.Partition`, `MathMain.StoreGenerated`, `Recheck.Split`, `Recheck.LocalPass` and `Recheck.RecheckTopic`.
- **Insert loops.** Both generators insert rows one at a time, each in its own `try`. That loop is modelled once, as `Inserts.InsertEach`, a filter that keeps every row whose insert succeeds, in order and as often as it occurs.
- **Batch validation.** The two generators' validators repeat the same batch-level code around different per-item rules. That code is modelled once, as `BatchCheck`, and each script's validator supplies its own per-item check.
- **Strings and whitespace.** Strings are `seq<char>`. `Text.JsLength` gives the UTF-16 length that JavaScript's `.length` reports. `Text.Trim` removes exactly the ECMAScript white-space and line-terminator set.
- **Numbers.**
  - `JsNumber.Num` is `Finite(real) | PosInf | NegInf | NaN`.
  - `parseFloat`, `Number(...)` and the `-?\d+(?:\.\d+)?` token regex are written out as scanners over characters.
  - There is no float rounding.
  - `String(number)` stays symbolic (`Json.JsText.NumberText`).
- **External effects are parameters:**
  - the model call is `call: string -> Option<string>`, where `None` means the call threw;
  - `JSON.parse` is `parse: string -> Option<Json>`;
  - the `Function(...)` evaluation of a whitelisted expression is `eval: string -> Option<Num>`;
  - JavaScript `String()` of a non-string JSON value is `show: Json -> string`;
  - each SQL insert is a success predicate `insertOk`;
  - the Notion query is `query: Option<string> -> Option<Response>`;
  - bcrypt is `verify: (string, string) -> bool` and `hash: string -> string`;
  - the clock is a millisecond count, and random bytes are a `seq<byte>`.
- **Tables and schema.**
  - A table is a sequence of rows, or a map keyed by id when rows are upserted.
  - The schema is a map from table name to an ordered column list.
  - The topics table is a map from name to timestamps.

Where the code and its documentation disagree, the model follows the code:

- **Notion cursor loop.** The loop in `shared/migrate-functions.ts` stops on an empty-string `next_cursor` as well as on `null`, because it passes `next_cursor || undefined` on (`Migrate.NextCursor`).
- **Topic resolution.** In `server/api/topics.get.ts`, a graph topic `graph_s` resolves to `problems_s` when that table is listed before `problems_graph_s`, because the third candidate strips `graph_` (`Topics.GraphTopicMayTakeMathTable`).
- **Falsy table names.** An empty table name is falsy, so the search falls through to the next strategy.
- **Repeated search.** `server/api/topics.get.ts` runs its search twice. The second run gives the same table, so `Topics.Resolve` models it once.
- **Null verdicts.** In the batch verifiers, a `null` element in the verdict array makes `forEach` throw part-way. The verdicts already written stay in place, and the chunk then falls back to "unverified" (`BatchVerify.NullStopsApply`, `BatchVerify.MathNullKeepsEarlierWrites`).
- **Overriding verdicts.** In the math `main`, a model verdict whose `index` names a row that was verified locally still overwrites that row (`MathMain.VerdictOverridesLocal`).
- **Phrase step.** The phrase-pattern step of `extractCorrectNumericAnswer` can never return anything (`Reconcile.PhraseStepUnreachable`).
- **Fractional index.** The graph validator accepts a fractional `correct_index` (`GraphValidation.FractionalIndexAccepted`).

## Model

| member | source | states |
|---|---|---|
| Naming.Sanitize | scripts/generate_math_problemset.ts:31-33 | the cleaned topic is non-empty, uses only `a-z`, `0-9` and `_`, and neither starts nor ends with `_` |
| Naming.SanitizeIdempotent | scripts/generate_math_problemset.ts:31-33 | sanitizing an already sanitized topic changes nothing |
| Naming.CleanIsFixed | scripts/generate_desmos_graph_problemset.ts:29-31 | a name already in the clean alphabet without edge underscores is returned unchanged |
| Naming.CollapseKeepsNames | scripts/generate_math_problemset.ts:32 | collapsing disallowed runs leaves a string of allowed characters unchanged |
| Naming.MathTopic | scripts/generate_math_problemset.ts:31-33 | the math topic is a clean name |
| Naming.GraphTopic | scripts/generate_desmos_graph_problemset.ts:29-31 | the graph topic is a clean name |
| Naming.SanitizeFallback | scripts/generate_math_problemset.ts:31-33 | the fallback (`math` or `graphs`) is used exactly when the trimmed, lower-cased topic has no letter or digit; otherwise the result does not depend on the fallback |
| Naming.MathNames | scripts/generate_math_problemset.ts:31-34 | the topics entry is the sanitised topic and the table name is `problems_` followed by it |
| Naming.GraphNames | scripts/generate_desmos_graph_problemset.ts:29-32 | the topics entry is `graph_` followed by the sanitised topic, and the table name is exactly `problems_` plus that entry |
| Schema.EnsureColumnExists | scripts/generate_math_problemset.ts:60-66 | afterwards the column is present; an already present column leaves the list unchanged; otherwise exactly one column is appended and no column is removed or reordered |
| Schema.EnsureColumnIdempotent | scripts/generate_desmos_graph_problemset.ts:69-75 | ensuring the same column twice equals ensuring it once, whatever the second definition |
| Schema.CreateTableIfNotExists | scripts/generate_math_problemset.ts:44-57 | the table exists afterwards, a new table has exactly the given columns, an existing table is left untouched, and no other table changes |
| Schema.AddColumn | scripts/generate_math_problemset.ts:64 | the column is present in its table and every other table is unchanged |
| Schema.RecordTopic | scripts/generate_math_problemset.ts:72-82 | the entry is inserted or updated, `last_updated` becomes now, `created_at` is kept on conflict, and other entries are unchanged |
| Schema.EnsureColumns | scripts/generate_math_problemset.ts:68-69 | the late columns are all present and the original columns stay as a prefix |
| Schema.EnsureColumnsPresent | scripts/generate_desmos_graph_problemset.ts:77-79 | when every late column already exists the column list is unchanged |
| Schema.EnsureColumnsIdempotent | scripts/generate_math_problemset.ts:68-69 | running the column upgrades twice equals running them once |
| Schema.SetupTable | scripts/generate_desmos_graph_problemset.ts:40-79 | the table exists with every late column, a new table starts with the base columns, and existing tables only gain columns at their end |
| Schema.SetupTableIdempotent | scripts/generate_desmos_graph_problemset.ts:40-79 | table setup is idempotent |
| Schema.SetupEstablishes | scripts/generate_math_problemset.ts:44-82 | after either script's setup, its table exists with every upgrade column and its topics entry is recorded |
| Schema.FreshTablesHaveBaseColumns | scripts/generate_math_problemset.ts:44-82 | a table created by either script's start-up has exactly its `CREATE TABLE` columns, because the upgrade columns are already among them |
| Schema.SetupAppendsOnly | scripts/generate_desmos_graph_problemset.ts:40-79 | setup never removes or reorders a column of any existing table |
| Schema.SetupIdempotent | scripts/generate_math_problemset.ts:44-82 | a second run of setup leaves every table as the first run left it and keeps the topic's `created_at` |
| Schema.SetupNoDuplicateColumns | scripts/generate_math_problemset.ts:60-69 | setup never gives a table two columns of the same name |
| Schema.BaseColumnsDistinct | scripts/generate_desmos_graph_problemset.ts:40-54 | the CREATE TABLE column lists of both scripts have distinct names |
| Schema.SetupTableDistinct | scripts/generate_desmos_graph_problemset.ts:40-79 | table setup preserves distinct column names in every table |
| Expression.Normalize | scripts/generate_math_problemset.ts:91 | no `^` remains after the `^` to `**` rewrite |
| Expression.SafeEvaluate | scripts/generate_math_problemset.ts:84-105 | ok implies the normalised text is whitelisted and evaluates to that finite value; a non-whitelisted text is rejected; a whitelisted text with a finite value is accepted |
| Expression.NormalizedWhitelist | scripts/recheck_all_problems.ts:42-46 | the normalised text passes the whitelist exactly when every original character is a digit, operator, parenthesis, dot, white space or `^` |
| Expression.LettersRejected | scripts/generate_math_problemset.ts:91-95 | any input containing a letter is rejected |
| Expression.BeforeEquals | scripts/generate_math_problemset.ts:428-430 | the expression is the longest prefix of the prompt without `=`, and it ends at the first `=` when one exists |
| Extraction.ScanFrom | scripts/generate_math_problemset.ts:116-121 | the scan stops at the first position where the running depth returns to zero, and that position holds the closing bracket |
| Extraction.BracketSpan | scripts/generate_math_problemset.ts:113-122 | the span starts at the first opening bracket, is balanced, and starts with the opening and ends with the closing bracket; no span means depth never returns to zero |
| Extraction.ExtractJsonBlockGlobal | scripts/generate_math_problemset.ts:107-136 | empty input gives null; a non-empty fence capture gives its trimmed text; otherwise the balanced `[` span; only when there is none, the balanced `{` span |
| Extraction.ExtractJsonBlock | scripts/generate_desmos_graph_problemset.ts:82-98 | the same fence-then-`[` rule with no `{` fallback |
| Extraction.ExtractorsAgree | scripts/generate_desmos_graph_problemset.ts:82-98 | whenever the graph extractor returns a block the math extractor returns the same block, and otherwise the math extractor can only add a `{` span |
| Extraction.FirstToLastSlice | scripts/recheck_all_problems.ts:99-107 | a slice exists exactly when a `[` occurs before a later `]`; it runs from the first `[` to the last `]` inclusive |
| Extraction.SliceCoversBalancedSpan | scripts/recheck_all_problems.ts:99-107 | when a balanced `[` span exists, the first-to-last slice exists and begins with that span |
| BatchCheck.Tagged | scripts/generate_math_problemset.ts:151-198 | each item error is reported with the item's index |
| BatchCheck.ItemsViolations | scripts/generate_math_problemset.ts:151-198 | every reported item error names an item in range, and item errors come in item order |
| BatchCheck.ItemViolationReported | scripts/generate_math_problemset.ts:151-198 | a problem is reported against item `i` exactly when it is one of item `i`'s problems |
| BatchCheck.ItemsViolationsEmpty | scripts/generate_math_problemset.ts:151-198 | no item errors exactly when no item from the start index on has a problem |
| BatchCheck.Validate | scripts/generate_math_problemset.ts:139-201 | a non-array gives exactly one error; a length mismatch is reported first while item checks still run; every other error is an item error; each item's problems are reported against that item and nowhere else, in item order (the graph validator, scripts/generate_desmos_graph_problemset.ts:101-139, has the same shape) |
| BatchCheck.ValidateAccepts | scripts/generate_desmos_graph_problemset.ts:101-139 | no error exactly when the batch is an array of the requested length and no item has a problem |
| MathValidation.FieldProblemsEmpty | scripts/generate_math_problemset.ts:157-175 | no field error exactly when the trimmed prompt has at least 5 characters, the trimmed solution is non-empty, `numeric_answer` is a number, null or absent, and the equation answer is a string, null or absent |
| MathValidation.KindProblemsEmpty | scripts/generate_math_problemset.ts:177-197 | no kind error exactly when type and difficulty are allowed, difficulty is the requested one, and the arithmetic or algebra prompt rules hold |
| MathValidation.ItemProblemsEmpty | scripts/generate_math_problemset.ts:151-198 | an item has no error exactly when it conforms to every per-item rule |
| MathValidation.ValidateAccepts | scripts/generate_math_problemset.ts:139-201 | a batch passes exactly when it is an array of the requested length whose items all conform |
| MathValidation.UnknownDifficultyRejects | scripts/generate_math_problemset.ts:178-182 | a requested difficulty outside easy/medium/hard makes every non-empty batch fail |
| GraphValidation.ItemProblemsEmpty | scripts/generate_desmos_graph_problemset.ts:117-135 | an item has no error exactly when its prompt, solution, expressions, choices, index range and difficulty rules hold |
| GraphValidation.ValidateAccepts | scripts/generate_desmos_graph_problemset.ts:101-139 | a batch passes exactly when it is an array of the requested length whose items all conform |
| GraphValidation.FractionalIndexAccepted | scripts/generate_desmos_graph_problemset.ts:130-132 | a conforming item still conforms with `correct_index` 0.5, since only the range is checked |
| Orchestrator.TryParseAndValidate | scripts/generate_math_problemset.ts:267-280 | succeeds exactly when the text parses to an array that validates, and returns that array |
| Orchestrator.RunAttempt | scripts/generate_math_problemset.ts:308-330 | the raw parse of the trimmed reply is preferred; when it is not an accepted array the result is exactly that of the extracted block, or nothing without a non-empty block; any success is an accepted array |
| Orchestrator.FirstSuccess | scripts/generate_math_problemset.ts:299-337 | the loop stops at the first attempt that yields an accepted array, having failed every earlier one, and is exhausted exactly when every attempt fails |
| Orchestrator.Generate | scripts/generate_desmos_graph_problemset.ts:219-250 | the same first-success and exhaustion rule over all three attempts; the generated items are exactly what the winning attempt yielded |
| Orchestrator.AllCallsFail | scripts/generate_math_problemset.ts:303-337 | when every model call throws, generation ends in the thrown error |
| Orchestrator.Attempts | scripts/generate_math_problemset.ts:293-297 | there are exactly three prompts, each extending the base prompt with the difficulty line |
| Orchestrator.MathBatchConforms | scripts/generate_math_problemset.ts:203-338 | a generated math batch has the requested length and every item conforms |
| Orchestrator.GraphBatchConforms | scripts/generate_desmos_graph_problemset.ts:187-250 | a generated graph batch has the requested length and every item conforms |
| BatchVerify.Chunks | scripts/generate_math_problemset.ts:357-358 | the chunks concatenate back to the input, none is empty, none exceeds the batch size, and all but the last are full |
| BatchVerify.Keys | scripts/recheck_all_problems.ts:73-74 | the keys are the pending items' ids in order |
| BatchVerify.Unverify | scripts/generate_math_problemset.ts:393-397 | every key of the chunk maps to `{false, null}`; every other entry is kept |
| BatchVerify.ApplyVerdicts | scripts/recheck_all_problems.ts:110-115 | the array is applied completely exactly when it holds no `null`; earlier entries are never dropped |
| BatchVerify.ApplyIsLastWins | scripts/recheck_all_problems.ts:110-115 | each key maps to the verdict of the last element naming it, and keys not named keep their previous verdict |
| BatchVerify.NullStopsApply | scripts/generate_math_problemset.ts:373-377 | a `null` element stops the loop there, keeping the verdicts written before it |
| BatchVerify.MathChunk | scripts/generate_math_problemset.ts:362-399 | a throwing call defaults the whole chunk; a raw array without `null` is applied; otherwise the extracted block is applied on top of the first pass's writes, and the chunk is defaulted when there is no block array or its `forEach` throws |
| BatchVerify.RecheckChunk | scripts/recheck_all_problems.ts:75-123 | a throwing call or a reply with no array in raw or first-to-last form defaults the chunk; an array without `null` is applied; a `null` keeps the writes before it and then defaults the chunk |
| BatchVerify.MathChunks | scripts/generate_math_problemset.ts:357-400 | processing the chunks in order never drops a verdict |
| BatchVerify.RecheckChunks | scripts/recheck_all_problems.ts:73-123 | processing the chunks in order never drops a verdict |
| BatchVerify.MathBatch | scripts/generate_math_problemset.ts:355-402 | the chunks sent are consecutive slices of at most the batch size covering every pending item |
| BatchVerify.RecheckBatch | scripts/recheck_all_problems.ts:66-126 | with no client nothing is sent and every id maps to `{false, null}`; with a client the chunks cover every item |
| BatchVerify.UnverifyAppend | scripts/generate_math_problemset.ts:393-397 | defaulting two chunks one after the other equals defaulting their union |
| BatchVerify.KeysAppend | scripts/recheck_all_problems.ts:73-74 | the keys of concatenated chunks are the concatenated keys |
| BatchVerify.MathAllCallsFail | scripts/generate_math_problemset.ts:396-399 | when every call throws, every pending index maps to `{false, null}` |
| BatchVerify.RecheckAllCallsFail | scripts/recheck_all_problems.ts:119-122 | when every call throws, every id maps to `{false, null}` |
| BatchVerify.BatchAllCallsFail | scripts/recheck_all_problems.ts:66-126 | both batch verifiers, given only throwing calls, return the all-unverified map of their input |
| BatchVerify.MathNullKeepsEarlierWrites | scripts/generate_math_problemset.ts:371-393 | after a `null` element, verdicts written for keys outside the chunk survive the fallback |
| MathMain.Initial | scripts/generate_math_problemset.ts:415-425 | a fresh row is unverified with no verified solution, and its explicit numeric answer is never NaN |
| MathMain.MarkVerified | scripts/generate_math_problemset.ts:435-438 | a locally verified row takes the evaluated value as both solution and numeric answer and changes nothing else |
| MathMain.Process | scripts/generate_math_problemset.ts:414-453 | a row is verified exactly when it is arithmetic and its prompt before `=` evaluates within tolerance of the solution's first number |
| MathMain.QueuePending | scripts/generate_math_problemset.ts:414-453 | exactly the unverified rows are queued, once each, in order, keyed by their index, as the reference queue says |
| MathMain.QueueIdxExact | scripts/generate_math_problemset.ts:414-453 | the reference queue holds, in increasing order, exactly the indices of the unverified rows |
| MathMain.QueueEntries | scripts/generate_math_problemset.ts:414-453 | each entry of the reference queue carries its row's prompt and solution under the row's index |
| MathMain.Partition | scripts/generate_math_problemset.ts:414-453 | every item is processed, and is either verified locally or queued exactly once |
| MathMain.ApplyOne | scripts/generate_math_problemset.ts:458-471 | a verdict sets the verified flag and solution, keeps an existing numeric answer, fills a missing one with the first number of the verdict's solution text, and touches no other field |
| MathMain.ApplyBatch | scripts/generate_math_problemset.ts:458-471 | rows with a verdict take it and all other rows are unchanged |
| MathMain.Finalize | scripts/generate_math_problemset.ts:514-520 | an arithmetic row with a computable prompt always ends with a numeric answer; a row that has one is unchanged |
| Inserts.InsertEach | scripts/generate_math_problemset.ts:512-536 | each row is stored, as often as it occurs, exactly when its insert succeeds, and the stored rows keep their order |
| Inserts.AllInserted | scripts/generate_math_problemset.ts:512-536 | when every insert succeeds, every row is stored in order |
| MathMain.StoreGenerated | scripts/generate_math_problemset.ts:404-540 | the stored rows are the insert loop's output on the processed batch after the model pass, which runs only when something is pending |
| MathMain.StoreRows | scripts/generate_math_problemset.ts:512-536 | each finalised row is stored, as often as it occurs, exactly when its insert succeeds, in order |
| MathMain.VerdictOverridesLocal | scripts/generate_math_problemset.ts:458-471 | a verdict keyed by a row's index decides its verified flag, otherwise the local flag stays |
| MathMain.NonArithmeticPending | scripts/generate_math_problemset.ts:446-449 | a non-arithmetic item is never verified locally |
| Reconcile.ElementAt | scripts/generate_desmos_graph_problemset.ts:256-257 | a choice is found exactly when the index is an integer within range |
| Reconcile.TokensAreNumbers | scripts/generate_desmos_graph_problemset.ts:265-267 | every numeric token of the solution parses to a finite number |
| Reconcile.LastNumber | scripts/generate_desmos_graph_problemset.ts:265-272 | a number is found exactly when the solution has a numeric token, and it is the last token's value |
| Reconcile.PhraseFrom | scripts/generate_desmos_graph_problemset.ts:275 | a phrase match always ends in a numeric token |
| Reconcile.ChoiceAnswer | scripts/generate_desmos_graph_problemset.ts:256-262 | the choice step answers exactly when the choice at a numeric index is truthy and starts with a number |
| Reconcile.ExtractCorrectNumericAnswer | scripts/generate_desmos_graph_problemset.ts:254-284 | the reconciled answer is never NaN |
| Reconcile.PhraseImpliesNumber | scripts/generate_desmos_graph_problemset.ts:275-281 | a solution that matches the phrase pattern has a numeric token |
| Reconcile.PhraseStepUnreachable | scripts/generate_desmos_graph_problemset.ts:265-283 | the reconciler equals the two-step version without the phrase step |
| Reconcile.ReconcilePriority | scripts/generate_desmos_graph_problemset.ts:254-284 | a numeric non-empty correct choice wins regardless of the solution; any digit in the solution gives a non-null answer; null only when neither source yields a number |
| Reconcile.GraphRowOf | scripts/generate_desmos_graph_problemset.ts:291-323 | a row is built unless the item is `null`, or the choice step does not answer and the solution is present but not a string; its numeric answer is the reconciled one, and an answering choice wins |
| Reconcile.InsertGraphItems | scripts/generate_desmos_graph_problemset.ts:291-324 | the stored rows are those of the items whose row builds and whose insert succeeds, in item order, one per surviving item |
| Reconcile.ValidatedItemsHaveRows | scripts/generate_desmos_graph_problemset.ts:117-135 | every item that passed validation yields a row |
| Recheck.ListTopics | scripts/recheck_all_problems.ts:30-39 | a non-empty topics table gives its names; otherwise the discovered tables with a leading `problems_` removed |
| Recheck.ListedTopicsFindTheirTables | scripts/recheck_all_problems.ts:37-39 | a topic from discovery names back its discovered table |
| Recheck.IndexNamesFindGeneratorTables | scripts/recheck_all_problems.ts:129 | the topics entries both generators record map back to their tables |
| Recheck.Split | scripts/recheck_all_problems.ts:141-160 | every index lands in exactly one side, in order, according to its flag |
| Recheck.LocalPass | scripts/recheck_all_problems.ts:141-160 | each row is either auto-verified, with its first numeric token as solution, or appended once to the remaining rows |
| Recheck.AsPending | scripts/recheck_all_problems.ts:73-80 | remaining rows are sent keyed by their numeric id |
| Recheck.AiUpdates | scripts/recheck_all_problems.ts:164-174 | only ids among the remaining rows are updated, each with its verdict, and every remaining row with a verdict is updated |
| Recheck.RecheckTopic | scripts/recheck_all_problems.ts:128-179 | no rows give no updates; the local pass partitions the rows; phase 2 runs only with AI requested, a client and remaining rows, and touches only remaining ids; its writes are the model's verdicts for the remaining rows, sent in batches of the given size |
| Recheck.PhasesTouchDistinctRows | scripts/recheck_all_problems.ts:141-175 | with unique row ids, no row is updated by both phases |
| Topics.MissingRows | server/api/topics.get.ts:28-35 | appended rows are new synthetic suffixes, and every suffix is known or appended |
| Topics.MergeTopics | server/api/topics.get.ts:22-35 | existing rows are kept first in order; an empty topics table gives one synthetic row per table; every table suffix appears |
| Topics.MissingFromNothing | server/api/topics.get.ts:22-27 | with no known names every table gives one synthetic row |
| Topics.MergeIsUniform | server/api/topics.get.ts:22-35 | both branches are the same rule: topics followed by the missing suffixes |
| Topics.MissingRowsDistinct | server/api/topics.get.ts:28-35 | distinct suffixes give distinct appended names |
| Topics.MergeNoDuplicates | server/api/topics.get.ts:28-35 | merging never duplicates a topic name |
| Topics.FindFrom | server/api/topics.get.ts:46-48 | the search returns the first name satisfying the strategy |
| Topics.Resolve | server/api/topics.get.ts:38-51 | a resolved table is a non-empty element of the discovered list |
| Topics.ResolveIsFirstBest | server/api/topics.get.ts:38-51 | no table resolves exactly when none matches any strategy; otherwise the result is the first table of the best strategy |
| Topics.GraphTopicMayTakeMathTable | server/api/topics.get.ts:38-48 | `graph_s` resolves to `problems_s` when it is listed first |
| Topics.Entry | server/api/topics.get.ts:37-60 | name and timestamps are kept; count is 0 without a table, otherwise the table's count or 0 on failure |
| Topics.ListTopicCounts | server/api/topics.get.ts:37-62 | one entry per merged topic, in order |
| Topics.ListingCoversEverything | server/api/topics.get.ts:22-62 | every stored topic keeps its place and fields, and every discovered table's suffix is listed |
| Migrate.ConcatAppend | shared/migrate-functions.ts:176-182 | concatenating rich text distributes over sequence concatenation |
| Migrate.ExtractText | shared/migrate-functions.ts:171-187 | undefined gives null; title or rich-text properties give their concatenated plain text; other kinds or missing arrays give null |
| Migrate.ExtractSelect | shared/migrate-functions.ts:189-192 | the select name when present, else null |
| Migrate.ExtractProblemData | shared/migrate-functions.ts:158-169 | the id is the page id and each field is read from its own named property |
| Migrate.FieldsReadOwnProperty | shared/migrate-functions.ts:158-169 | changing any other property leaves the extracted problem unchanged |
| Migrate.Kept | shared/migrate-functions.ts:132-138 | pages without properties are dropped and pages with them are kept in order |
| Migrate.KeptAppend | shared/migrate-functions.ts:132-144 | filtering is per page, so it distributes over concatenated batches |
| Migrate.UpsertDomain | shared/migrate-functions.ts:195-214 | after an upsert the ids are the old ids plus the batch's ids |
| Migrate.UpsertKeepsOthers | shared/migrate-functions.ts:195-214 | an id not in the batch keeps its row |
| Migrate.UpsertLastWins | shared/migrate-functions.ts:195-214 | each id holds the last row of the batch carrying it |
| Migrate.UpsertAppend | shared/migrate-functions.ts:194-216 | upserting two batches in turn equals upserting their concatenation |
| Migrate.InsertProblems | shared/migrate-functions.ts:87-100 | the transaction fails exactly when some row violates the difficulty or topic constraint; otherwise it is the upsert |
| Migrate.BadDifficultyAbortsBatch | shared/migrate-functions.ts:87 | a lower-case `easy` difficulty aborts the whole batch |
| Migrate.NextCursor | shared/migrate-functions.ts:147 | the loop continues exactly when `next_cursor` is a non-empty string |
| Migrate.MigrateFrom | shared/migrate-functions.ts:120-149 | each query uses the previous response's cursor; finishing means the last next cursor was null and every kept page was inserted; failing keeps every page before the failing one committed; the fuel bound stops the loop only after that many requests, each page committed and the last with a next cursor; the table is the upsert of the inserted rows, which the total counts |
| Migrate.MigrateProblems | shared/migrate-functions.ts:112-156 | the loop starts with an undefined cursor and is a run of the cursor loop with all the facts above |
| Session.Hex | server/api/lib/session.ts:13-15 | hex encoding gives two hex characters per byte |
| Session.UnhexHex | server/api/lib/session.ts:13-15 | hex encoding is lossless |
| Session.RandomToken | server/api/lib/session.ts:13-15 | a token has twice as many hex characters as random bytes, 64 by default |
| Session.NowSec | server/api/lib/session.ts:25-27 | the time in seconds is the floor of milliseconds over 1000 |
| Session.PlusDays | server/api/lib/session.ts:29-31 | the result is now plus the given days in seconds |
| Session.CreateSession | server/api/lib/session.ts:33-67 | the cookie carries the token; the stored row holds its hash; the lifetime is 30 days with remember and 1 day otherwise; expiry is now plus the cookie's max age |
| Session.FirstLive | server/api/lib/session.ts:74-87 | the result is the first unexpired session whose hash verifies the token |
| Session.ReadSession | server/api/lib/session.ts:69-88 | no cookie gives null; with a token, null means no stored session is both unexpired and verified; a returned session is the first such one |
| Session.CreatedSessionIsFound | server/api/lib/session.ts:47-88 | a freshly created session is read back before it expires |
| Session.FindAccount | server/api/lib/session.ts:93-104 | the account found carries the requested id, and none is found only when no account has it |
| Session.GetCurrentUser | server/api/lib/session.ts:90-105 | no session gives no user; a user returned is the session's account |
| Session.FirstVerifying | server/api/lib/session.ts:111-116 | the first session whose hash verifies the token, expired or not |
| Session.DeleteById | server/api/lib/session.ts:114 | exactly the rows with that id are removed |
| Session.DestroySessionByToken | server/api/lib/session.ts:107-119 | no cookie changes nothing; otherwise the cookie is cleared and only a verifying session may be removed |
| Session.DeleteUniqueId | server/api/lib/session.ts:114 | with unique ids, deleting one row's id removes exactly that row |
| Session.DestroyRemovesAtMostOne | server/api/lib/session.ts:107-119 | with unique ids, destruction removes exactly the first verifying session, or nothing |
| Session.DestroyIgnoresExpiry | server/api/lib/session.ts:69-119 | an expired session is invisible to reading yet still removed on logout |

## Left out

- Model calls (Gemini SDK): each call is an oracle returning a reply or failing; prompt wording beyond the shared prefix is a parameter.
- JSON parsing and `JSON.stringify`: `parse` and `show` are parameters; a JSON value is a small datatype.
- Floating point: the arithmetic itself (the `Function(...)` evaluation) is an oracle, reals stand in for doubles, and `Math.abs(a - b) < 1e-9` is modelled as that inequality on reals.
- Full regular-expression and Unicode semantics: only the specific patterns are hand-coded, and case folding is ASCII only.
- SQLite: SQL text, `PRAGMA`, `datetime('now')` (a `now` parameter), type affinity, `sqlite_master` `LIKE` queries, and `COUNT(*)` (a `countOf` parameter).
- The recheck script's query of `verified = 0` rows, and its `UPDATE` statements: rows are given and updates returned. Graph tables have no `verified` column, so that query fails for graph topics; this failure is not modelled.
- The recheck script's `batchVerifyWithAI` calls `getGenerativeModel`, which the client it constructs does not provide, so each call throws. The call oracle's failure case covers this, but the model does not force it.
- The math script's `--recheck` branch (scripts/generate_math_problemset.ts:473-509): it repeats the recheck script's logic, which is modelled in `Recheck`.
- Logs, console output, dotenv, `process.exit` and argv parsing, including the coercion of the batch-size argument; the batch size is required to be at least 1.
- BatchVerify.Chunks: requires a batch size of at least 1, because a zero size, possible through argv coercion, makes the source loop forever.
- bcrypt, `crypto.randomBytes` and `randomUUID` (parameters), and the cookie options and h3 event handling in server/api/lib/session.ts.
- The login, logout, registration, user, meeting and `problems/[topic]` route handlers, the stores, the schema declarations and configuration files: thin wiring over libraries and SQL.
- `generateStats` in shared/migrate-functions.ts: reporting with random sampling.
- The `try`/`catch` in `extractText`: the typed Notion property cannot make it throw.
- Migrate.MigrateFrom: the cursor loop runs on a fuel bound, one request per unit, and running out of fuel is a separate outcome; the source loop is unbounded, so a Notion database that keeps returning a next cursor is followed only as far as the fuel reaches.

=== FILE: batch_check.dfy ===
/**
 * The batch-level part both generators' validators share: a non-array is
 * one error, a length mismatch is reported first, and then every item's
 * problems follow, each tagged with the item's index. `P` is a script's
 * own per-item problem type.
 */
module BatchCheck {
  import opened Json

  datatype Violation<P> =
    | NotAnArray
    | CountMismatch(expected: int, actual: nat)
    | ItemViolation(item: nat, problem: P)

  /** Item `i`'s problems, tagged with its index. */
  function Tagged<P>(i: nat, ps: seq<P>): (r: seq<Violation<P>>)
    ensures |r| == |ps|
    ensures forall k :: 0 <= k < |r| ==> r[k] == ItemViolation(i, ps[k])
  {
    seq(|ps|, k requires 0 <= k < |ps| => ItemViolation(i, ps[k]))
  }

  /** The violations of the items from `from` on, each tagged with its index. */
  function ItemsViolations<P>(items: seq<Json>, from: nat, problemsOf: Json -> seq<P>): (r: seq<Violation<P>>)
    ensures forall k :: 0 <= k < |r| ==> r[k].ItemViolation? && from <= r[k].item < |items|
    // Reported in item order.
    ensures forall j, k :: 0 <= j < k < |r| ==> r[j].item <= r[k].item
    decreases |items| - from
  {
    if from >= |items| then []
    else Tagged(from, problemsOf(items[from])) + ItemsViolations(items, from + 1, problemsOf)
  }

  /** Item `i`'s problem `p` is reported, tagged with `i`, exactly when `p` is one of item `i`'s problems. */
  lemma {:induction false} ItemViolationReported<P>(items: seq<Json>, from: nat, problemsOf: Json -> seq<P>, i: nat, p: P)
    requires from <= i < |items|
    ensures ItemViolation(i, p) in ItemsViolations(items, from, problemsOf) <==> p in problemsOf(items[i])
    decreases |items| - from
  {
    var ps := problemsOf(items[from]);
    var head := Tagged(from, ps);
    var rest := ItemsViolations(items, from + 1, problemsOf);
    assert ItemsViolations(items, from, problemsOf) == head + rest;
    if i == from {
      assert ItemViolation(i, p) !in rest;
      if p in ps {
        var k :| 0 <= k < |ps| && ps[k] == p;
        assert head[k] == ItemViolation(i, p);
      }
      if ItemViolation(i, p) in head {
        var k :| 0 <= k < |head| && head[k] == ItemViolation(i, p);
        assert ps[k] == p;
      }
    } else {
      assert ItemViolation(i, p) !in head;
      ItemViolationReported(items, from + 1, problemsOf, i, p);
    }
  }

  lemma ItemsViolationsContents<P>(items: seq<Json>, problemsOf: Json -> seq<P>)
    ensures forall i, p :: 0 <= i < |items| ==>
      (ItemViolation(i, p) in ItemsViolations(items, 0, problemsOf) <==> p in problemsOf(items[i]))
  {
    forall i, p | 0 <= i < |items|
      ensures ItemViolation(i, p) in ItemsViolations(items, 0, problemsOf) <==> p in problemsOf(items[i])
    {
      ItemViolationReported(items, 0, problemsOf, i, p);
    }
  }

  lemma {:induction false} ItemsViolationsEmpty<P>(items: seq<Json>, from: nat, problemsOf: Json -> seq<P>)
    ensures |ItemsViolations(items, from, problemsOf)| == 0
      <==> forall i :: from <= i < |items| ==> |problemsOf(items[i])| == 0
    decreases |items| - from
  {
    if from < |items| {
      var head := Tagged(from, problemsOf(items[from]));
      var rest := ItemsViolations(items, from + 1, problemsOf);
      assert ItemsViolations(items, from, problemsOf) == head + rest;
      ItemsViolationsEmpty(items, from + 1, problemsOf);
      if |head + rest| == 0 {
        forall i | from <= i < |items| ensures |problemsOf(items[i])| == 0 {
          if i == from {
            assert |head| == 0;
          }
        }
      }
    }
  }

  /** The validator: errors in reporting order. */
  function Validate<P(!new)>(v: Json, count: int, problemsOf: Json -> seq<P>): (r: seq<Violation<P>>)
    ensures !v.JArr? ==> r == [NotAnArray]
    ensures v.JArr? && |v.items| != count ==> |r| > 0 && r[0] == CountMismatch(count, |v.items|)
    ensures v.JArr? ==> forall k :: 0 <= k < |r| ==>
      (k == 0 && r[k] == CountMismatch(count, |v.items|))
      || (r[k].ItemViolation? && r[k].item < |v.items|)
    ensures v.JArr? && |v.items| == count ==> forall k :: 0 <= k < |r| ==> r[k].ItemViolation?
    // Every problem of every item is reported against that item, and nothing else is.
    ensures v.JArr? ==> forall i, p :: 0 <= i < |v.items| ==>
      (ItemViolation(i, p) in r <==> p in problemsOf(v.items[i]))
    // Item errors come in item order.
    ensures forall j, k :: 0 <= j < k < |r| && r[j].ItemViolation? ==> r[k].ItemViolation? && r[j].item <= r[k].item
  {
    if !v.JArr? then [NotAnArray]
    else
      ItemsViolationsContents(v.items, problemsOf);
      var head: seq<Violation<P>> := if |v.items| != count then [CountMismatch(count, |v.items|)] else [];
      var rest := ItemsViolations(v.items, 0, problemsOf);
      head + rest
  }

  /** No error exactly when the batch is an array of the requested length whose items have no problem. */
  lemma ValidateAccepts<P(!new)>(v: Json, count: int, problemsOf: Json -> seq<P>)
    ensures |Validate(v, count, problemsOf)| == 0
      <==> v.JArr? && |v.items| == count && forall i :: 0 <= i < |v.items| ==> |problemsOf(v.items[i])| == 0
  {
    if v.JArr? {
      ItemsViolationsEmpty(v.items, 0, problemsOf);
    }
  }
}

=== FILE: batch_verify.dfy ===
/**
 * Batch verification by the model, as `batchVerify` in the math generator
 * and `batchVerifyWithAI` in the recheck script do it: pending items are cut
 * into consecutive chunks, each chunk is sent in one call, and the verdicts
 * in the reply are written into a map keyed by `Number(obj.<key>)`. A chunk
 * whose reply cannot be used has every one of its items marked unverified.
 */
module BatchVerify {
  import opened Wrappers
  import opened Text
  import opened JsNumber
  import opened Json
  import Extraction

  /** An item awaiting verification; `key` is the number the verdict map uses for it. */
  datatype Pending = Pending(key: Num, prompt: string, solution: string)

  /** `{ correct, correctSolution }` */
  datatype Verdict<S> = Verdict(correct: bool, solution: Option<S>)

  function Unverified<S>(): Verdict<S> {
    Verdict(false, None)
  }

  function Flatten<T>(chunks: seq<seq<T>>): seq<T> {
    if |chunks| == 0 then [] else chunks[0] + Flatten(chunks[1..])
  }

  /** `items.slice(i, i + size)` for `i = 0, size, 2·size, …` */
  function Chunks<T>(items: seq<T>, size: nat): (r: seq<seq<T>>)
    requires size >= 1
    ensures Flatten(r) == items
    ensures forall k :: 0 <= k < |r| ==> 0 < |r[k]| <= size
    ensures forall k :: 0 <= k < |r| - 1 ==> |r[k]| == size
    decreases |items|
  {
    if |items| == 0 then []
    else if |items| <= size then
      assert Flatten([items]) == items + Flatten([]);
      [items]
    else
      var rest := Chunks(items[size..], size);
      var r := [items[..size]] + rest;
      assert r[0] == items[..size] && r[1..] == rest;
      assert Flatten(r) == items[..size] + Flatten(rest);
      assert items[..size] + items[size..] == items;
      r
  }

  function Keys(items: seq<Pending>): (r: seq<Num>)
    ensures |r| == |items| && forall k :: 0 <= k < |items| ==> r[k] == items[k].key
  {
    seq(|items|, k requires 0 <= k < |items| => items[k].key)
  }

  /** `chunk.forEach(c => results.set(c.key, { correct: false, correctSolution: null }))` */
  function Unverify<S>(m: map<Num, Verdict<S>>, keys: seq<Num>): (r: map<Num, Verdict<S>>)
    ensures forall k :: k in r <==> k in m || k in keys
    ensures forall k :: k in keys ==> r[k] == Unverified()
    ensures forall k :: k in m && k !in keys ==> r[k] == m[k]
  {
    map k | k in m.Keys + set j | 0 <= j < |keys| :: keys[j] :: if k in keys then Unverified() else m[k]
  }

  /** The map key a verdict object names: `Number(obj.<keyName>)`. */
  function ElementKey(e: Json, keyName: string): Num {
    NumberOf(Get(e, keyName))
  }

  function ElementVerdict<S>(e: Json, solution: Option<Json> -> Option<S>): Verdict<S> {
    Verdict(Truthy(Get(e, "correct")), solution(Get(e, "correctSolution")))
  }

  /** The result of a `forEach` that may stop by throwing: the map so far, and whether it ran to the end. */
  datatype Applied<S> = Applied(verdicts: map<Num, Verdict<S>>, completed: bool)

  /**
   * `parsed.forEach(o => results.set(Number(o.key), …))`, element by element
   * in order. Reading a property of a `null` element throws, which ends the
   * loop with the earlier writes already made.
   */
  function ApplyVerdicts<S>(m: map<Num, Verdict<S>>, elems: seq<Json>, keyName: string,
                            solution: Option<Json> -> Option<S>): (r: Applied<S>)
    ensures r.completed <==> JNull !in elems
    ensures m.Keys <= r.verdicts.Keys
    decreases |elems|
  {
    if |elems| == 0 then Applied(m, true)
    else
      var before := ApplyVerdicts(m, elems[..|elems| - 1], keyName, solution);
      var e := elems[|elems| - 1];
      assert elems == elems[..|elems| - 1] + [e];
      if !before.completed then before
      else if e.JNull? then Applied(before.verdicts, false)
      else Applied(before.verdicts[ElementKey(e, keyName) := ElementVerdict(e, solution)], true)
  }

  /** Reference definition: the verdict of the last element naming key `k`, if any. */
  function LastVerdict<S>(elems: seq<Json>, k: Num, keyName: string, solution: Option<Json> -> Option<S>): Option<Verdict<S>>
    decreases |elems|
  {
    if |elems| == 0 then None
    else if !elems[|elems| - 1].JNull? && ElementKey(elems[|elems| - 1], keyName) == k
    then Some(ElementVerdict(elems[|elems| - 1], solution))
    else LastVerdict(elems[..|elems| - 1], k, keyName, solution)
  }

  /** A reply with no `null` element writes, for each key, the verdict of the last element naming it. */
  lemma {:induction false} ApplyIsLastWins<S>(m: map<Num, Verdict<S>>, elems: seq<Json>, keyName: string,
                                               solution: Option<Json> -> Option<S>, k: Num)
    requires JNull !in elems
    ensures var r := ApplyVerdicts(m, elems, keyName, solution).verdicts;
      var last := LastVerdict(elems, k, keyName, solution);
      && (k in r <==> k in m || last.Some?)
      && (last.Some? ==> r[k] == last.value)
      && (last.None? && k in m ==> r[k] == m[k])
    decreases |elems|
  {
    if |elems| > 0 {
      var init := elems[..|elems| - 1];
      assert elems == init + [elems[|elems| - 1]];
      assert JNull !in init;
      ApplyIsLastWins(m, init, keyName, solution, k);
    }
  }

  /** A `null` at index `i` keeps exactly the writes of the elements before it. */
  lemma {:induction false} NullStopsApply<S>(m: map<Num, Verdict<S>>, elems: seq<Json>, keyName: string,
                                             solution: Option<Json> -> Option<S>, i: nat)
    requires i < |elems| && elems[i].JNull? && JNull !in elems[..i]
    ensures ApplyVerdicts(m, elems, keyName, solution) == Applied(ApplyVerdicts(m, elems[..i], keyName, solution).verdicts, false)
    decreases |elems|
  {
    var init := elems[..|elems| - 1];
    if i < |elems| - 1 {
      assert init[..i] == elems[..i];
      NullStopsApply(m, init, keyName, solution, i);
    } else {
      assert init == elems[..i];
    }
  }

  /** Math `batchVerify`: the solution is kept as the raw JSON value, `null` when nullish. */
  function RawSolution(v: Option<Json>): Option<Json> {
    if IsNullish(v) then None else v
  }

  /** Recheck `batchVerifyWithAI`: the solution is `String(value)`, `null` when nullish. */
  function TextSolution(v: Option<Json>): Option<JsText> {
    if IsNullish(v) then None else Some(ToJsText(v.value))
  }

  /** The items of a parsed reply that is an array. */
  function ArrayItems(v: Option<Json>): (r: Option<seq<Json>>)
    ensures r.Some? <==> v.Some? && v.value.JArr?
    ensures r.Some? ==> v == Some(JArr(r.value))
  {
    if v.Some? && v.value.JArr? then Some(v.value.items) else None
  }

  /** The math retry's array: the extracted block, when there is a non-empty one that parses to an array. */
  function BlockArray(text: string, parse: string -> Option<Json>): (r: Option<seq<Json>>)
    ensures r.Some? <==>
      (&& Extraction.ExtractJsonBlockGlobal(text).Some?
       && ArrayItems(parse(Extraction.ExtractJsonBlockGlobal(text).value)).Some?)
    ensures r.Some? ==> parse(Extraction.ExtractJsonBlockGlobal(text).value) == Some(JArr(r.value))
  {
    var block := Extraction.ExtractJsonBlockGlobal(text);
    if block.Some? && |block.value| > 0 then ArrayItems(parse(block.value)) else None
  }

  /** The recheck script's array: the reply itself, else the first-`[`-to-last-`]` slice. */
  function SliceArray(text: string, parse: string -> Option<Json>): (r: Option<seq<Json>>)
    ensures ArrayItems(parse(text)).Some? ==> r == ArrayItems(parse(text))
    ensures ArrayItems(parse(text)).None? ==>
      r == (if Extraction.FirstToLastSlice(text).Some? then ArrayItems(parse(Extraction.FirstToLastSlice(text).value)) else None)
  {
    var direct := ArrayItems(parse(text));
    if direct.Some? then direct
    else
      var slice := Extraction.FirstToLastSlice(text);
      if slice.Some? then ArrayItems(parse(slice.value)) else None
  }

  /**
   * One math chunk. The trimmed reply is parsed; a non-array or a throwing
   * `forEach` falls through to the extracted block, whose `forEach` ends the
   * chunk if it completes; anything else marks the chunk unverified. Writes
   * made before a throw are kept.
   */
  function MathChunk(m: map<Num, Verdict<Json>>, chunk: seq<Pending>, reply: Option<string>,
                     parse: string -> Option<Json>): (r: map<Num, Verdict<Json>>)
    ensures reply.None? ==> r == Unverify(m, Keys(chunk))
    // A reply that is itself an array without `null` is applied and nothing else happens.
    ensures reply.Some? && ArrayItems(parse(Trim(reply.value))).Some? && JNull !in ArrayItems(parse(Trim(reply.value))).value
      ==> r == ApplyVerdicts(m, ArrayItems(parse(Trim(reply.value))).value, "index", RawSolution).verdicts
    // Otherwise the extracted block is tried on top of whatever the first pass wrote.
    ensures reply.Some? && !(ArrayItems(parse(Trim(reply.value))).Some? && JNull !in ArrayItems(parse(Trim(reply.value))).value) ==>
      var direct := ArrayItems(parse(Trim(reply.value)));
      var m1 := if direct.Some? then ApplyVerdicts(m, direct.value, "index", RawSolution).verdicts else m;
      var block := BlockArray(Trim(reply.value), parse);
      && (block.None? ==> r == Unverify(m1, Keys(chunk)))
      && (block.Some? && JNull !in block.value ==> r == ApplyVerdicts(m1, block.value, "index", RawSolution).verdicts)
      && (block.Some? && JNull in block.value ==> r == Unverify(ApplyVerdicts(m1, block.value, "index", RawSolution).verdicts, Keys(chunk)))
    ensures m.Keys <= r.Keys
  {
    match reply
    case None => Unverify(m, Keys(chunk))
    case Some(t) =>
      var text := Trim(t);
      var direct := ArrayItems(parse(text));
      var m1 := if direct.Some? then ApplyVerdicts(m, direct.value, "index", RawSolution) else Applied(m, false);
      if m1.completed then m1.verdicts
      else
        var block := BlockArray(text, parse);
        if block.Some? then
          var m2 := ApplyVerdicts(m1.verdicts, block.value, "index", RawSolution);
          if m2.completed then m2.verdicts else Unverify(m2.verdicts, Keys(chunk))
        else Unverify(m1.verdicts, Keys(chunk))
  }

  /**
   * One recheck chunk. The trimmed reply is parsed; if that is not an array,
   * the slice from the first `[` to the last `]` is parsed instead. An array
   * is applied; a throw inside `forEach`, or no array at all, marks the
   * chunk unverified.
   */
  function RecheckChunk(m: map<Num, Verdict<JsText>>, chunk: seq<Pending>, reply: Option<string>,
                        parse: string -> Option<Json>): (r: map<Num, Verdict<JsText>>)
    ensures reply.None? ==> r == Unverify(m, Keys(chunk))
    ensures reply.Some? && ArrayItems(parse(Trim(reply.value))).Some? && JNull !in ArrayItems(parse(Trim(reply.value))).value
      ==> r == ApplyVerdicts(m, ArrayItems(parse(Trim(reply.value))).value, "id", TextSolution).verdicts
    // No array in the reply or its slice: the whole chunk is unverified.
    ensures reply.Some? && SliceArray(Trim(reply.value), parse).None? ==> r == Unverify(m, Keys(chunk))
    ensures reply.Some? && SliceArray(Trim(reply.value), parse).Some? && JNull !in SliceArray(Trim(reply.value), parse).value
      ==> r == ApplyVerdicts(m, SliceArray(Trim(reply.value), parse).value, "id", TextSolution).verdicts
    // A `null` element: the writes before it are kept, then the whole chunk is unverified.
    ensures reply.Some? && SliceArray(Trim(reply.value), parse).Some? && JNull in SliceArray(Trim(reply.value), parse).value
      ==> r == Unverify(ApplyVerdicts(m, SliceArray(Trim(reply.value), parse).value, "id", TextSolution).verdicts, Keys(chunk))
    ensures m.Keys <= r.Keys
  {
    match reply
    case None => Unverify(m, Keys(chunk))
    case Some(t) =>
      var parsed := SliceArray(Trim(t), parse);
      if parsed.Some? then
        var applied := ApplyVerdicts(m, parsed.value, "id", TextSolution);
        if applied.completed then applied.verdicts else Unverify(applied.verdicts, Keys(chunk))
      else Unverify(m, Keys(chunk))
  }

  /** The outcome of a batch: the verdict map and the chunks that were sent, in order. */
  datatype Batch<S> = Batch(verdicts: map<Num, Verdict<S>>, sent: seq<seq<Pending>>)

  function MathChunks(m: map<Num, Verdict<Json>>, chunks: seq<seq<Pending>>, call: seq<Pending> -> Option<string>,
                      parse: string -> Option<Json>): (r: map<Num, Verdict<Json>>)
    ensures m.Keys <= r.Keys
    decreases |chunks|
  {
    if |chunks| == 0 then m
    else MathChunks(MathChunk(m, chunks[0], call(chunks[0]), parse), chunks[1..], call, parse)
  }

  function RecheckChunks(m: map<Num, Verdict<JsText>>, chunks: seq<seq<Pending>>, call: seq<Pending> -> Option<string>,
                         parse: string -> Option<Json>): (r: map<Num, Verdict<JsText>>)
    ensures m.Keys <= r.Keys
    decreases |chunks|
  {
    if |chunks| == 0 then m
    else RecheckChunks(RecheckChunk(m, chunks[0], call(chunks[0]), parse), chunks[1..], call, parse)
  }

  /** `batchVerify(items, size)` */
  function MathBatch(items: seq<Pending>, size: nat, call: seq<Pending> -> Option<string>,
                     parse: string -> Option<Json>): (r: Batch<Json>)
    requires size >= 1
    ensures Flatten(r.sent) == items
    ensures forall k :: 0 <= k < |r.sent| ==> 0 < |r.sent[k]| <= size
  {
    var chunks := Chunks(items, size);
    Batch(MathChunks(map[], chunks, call, parse), chunks)
  }

  /** `batchVerifyWithAI(items, size)`: without a client nothing is sent and every item is unverified. */
  function RecheckBatch(items: seq<Pending>, size: nat, hasClient: bool, call: seq<Pending> -> Option<string>,
                        parse: string -> Option<Json>): (r: Batch<JsText>)
    requires size >= 1
    ensures !hasClient ==> r.sent == [] && r.verdicts == Unverify(map[], Keys(items))
    ensures hasClient ==> Flatten(r.sent) == items && forall k :: 0 <= k < |r.sent| ==> 0 < |r.sent[k]| <= size
  {
    if !hasClient then Batch(Unverify(map[], Keys(items)), [])
    else
      var chunks := Chunks(items, size);
      Batch(RecheckChunks(map[], chunks, call, parse), chunks)
  }

  lemma UnverifyAppend<S>(m: map<Num, Verdict<S>>, a: seq<Num>, b: seq<Num>)
    ensures Unverify(Unverify(m, a), b) == Unverify(m, a + b)
  {
  }

  lemma KeysAppend(a: seq<Pending>, b: seq<Pending>)
    ensures Keys(a + b) == Keys(a) + Keys(b)
  {
  }

  /** When every call throws, each chunk falls back: the result is exactly "every item unverified". */
  lemma {:induction false} MathAllCallsFail(m: map<Num, Verdict<Json>>, chunks: seq<seq<Pending>>,
                                            call: seq<Pending> -> Option<string>, parse: string -> Option<Json>)
    requires forall k :: 0 <= k < |chunks| ==> call(chunks[k]).None?
    ensures MathChunks(m, chunks, call, parse) == Unverify(m, Keys(Flatten(chunks)))
    decreases |chunks|
  {
    if |chunks| > 0 {
      assert forall k :: 0 <= k < |chunks[1..]| ==> chunks[1..][k] == chunks[k + 1];
      MathAllCallsFail(Unverify(m, Keys(chunks[0])), chunks[1..], call, parse);
      UnverifyAppend(m, Keys(chunks[0]), Keys(Flatten(chunks[1..])));
      KeysAppend(chunks[0], Flatten(chunks[1..]));
    }
  }

  lemma {:induction false} RecheckAllCallsFail(m: map<Num, Verdict<JsText>>, chunks: seq<seq<Pending>>,
                                               call: seq<Pending> -> Option<string>, parse: string -> Option<Json>)
    requires forall k :: 0 <= k < |chunks| ==> call(chunks[k]).None?
    ensures RecheckChunks(m, chunks, call, parse) == Unverify(m, Keys(Flatten(chunks)))
    decreases |chunks|
  {
    if |chunks| > 0 {
      assert forall k :: 0 <= k < |chunks[1..]| ==> chunks[1..][k] == chunks[k + 1];
      RecheckAllCallsFail(Unverify(m, Keys(chunks[0])), chunks[1..], call, parse);
      UnverifyAppend(m, Keys(chunks[0]), Keys(Flatten(chunks[1..])));
      KeysAppend(chunks[0], Flatten(chunks[1..]));
    }
  }

  /** A whole batch whose every call throws maps each pending key, and nothing else, to unverified. */
  lemma BatchAllCallsFail(items: seq<Pending>, size: nat, call: seq<Pending> -> Option<string>, parse: string -> Option<Json>)
    requires size >= 1
    requires forall c :: call(c).None?
    ensures MathBatch(items, size, call, parse).verdicts == Unverify(map[], Keys(items))
    ensures RecheckBatch(items, size, true, call, parse).verdicts == Unverify(map[], Keys(items))
  {
    MathAllCallsFail(map[], Chunks(items, size), call, parse);
    RecheckAllCallsFail(map[], Chunks(items, size), call, parse);
  }

  /**
   * A `null` in the parsed reply does not undo the writes before it: when no
   * block can be extracted the chunk falls back to unverified, but a key
   * written by an earlier element that is not one of the chunk's keys keeps
   * the verdict the model gave it.
   */
  lemma MathNullKeepsEarlierWrites(m: map<Num, Verdict<Json>>, chunk: seq<Pending>, reply: string,
                                   parse: string -> Option<Json>, elems: seq<Json>, i: nat, k: Num)
    requires parse(Trim(reply)) == Some(JArr(elems))
    requires i < |elems| && elems[i].JNull? && JNull !in elems[..i]
    requires Extraction.ExtractJsonBlockGlobal(Trim(reply)).None?
    requires k in ApplyVerdicts(m, elems[..i], "index", RawSolution).verdicts && k !in Keys(chunk)
    ensures var r := MathChunk(m, chunk, Some(reply), parse);
      k in r && r[k] == ApplyVerdicts(m, elems[..i], "index", RawSolution).verdicts[k]
  {
    NullStopsApply(m, elems, "index", RawSolution, i);
  }
}

=== FILE: expression.dfy ===
/**
 * The guard of `safeEvaluateExpression`: `^` becomes `**`, and only strings
 * built from digits, `+ - * / ( ) .` and whitespace reach the evaluator.
 * The evaluation itself (`Function(...)()` on the normalised text) is the
 * parameter `eval`, whose `None` stands for a thrown exception.
 */
module Expression {
  import opened Text
  import opened Wrappers
  import opened JsNumber

  /** A character of the class `[0-9+\-*\/().\s]`. */
  predicate Allowed(c: char) {
    IsDigit(c) || c == '+' || c == '-' || c == '*' || c == '/' || c == '(' || c == ')' || c == '.' || IsSpace(c)
  }

  predicate Whitelisted(s: string) {
    forall i :: 0 <= i < |s| ==> Allowed(s[i])
  }

  /** `expr.replace(/\^/g, '**')` */
  function Normalize(e: string): (r: string)
    ensures forall i :: 0 <= i < |r| ==> r[i] != '^'
  {
    if |e| == 0 then ""
    else (if e[0] == '^' then "**" else [e[0]]) + Normalize(e[1..])
  }

  datatype EvalError = DisallowedCharacters | NonNumericResult | Threw

  datatype EvalResult = Ok(value: real) | Err(error: EvalError)

  /** `safeEvaluateExpression(expr)` with the evaluator as a parameter. */
  function SafeEvaluate(expr: string, eval: string -> Option<Num>): (r: EvalResult)
    ensures r.Ok? ==> Whitelisted(Normalize(expr)) && eval(Normalize(expr)) == Some(Finite(r.value))
    ensures !Whitelisted(Normalize(expr)) ==> r == Err(DisallowedCharacters)
    ensures Whitelisted(Normalize(expr)) && eval(Normalize(expr)).Some? && eval(Normalize(expr)).value.Finite? ==> r.Ok?
  {
    var normalized := Normalize(expr);
    if !Whitelisted(normalized) then Err(DisallowedCharacters)
    else match eval(normalized)
      case None => Err(Threw)
      case Some(Finite(v)) => Ok(v)
      case Some(_) => Err(NonNumericResult)
  }

  /** The guard in terms of the raw input: every character is allowed or is `^`. */
  lemma {:induction false} NormalizedWhitelist(e: string)
    ensures Whitelisted(Normalize(e)) <==> forall i :: 0 <= i < |e| ==> Allowed(e[i]) || e[i] == '^'
  {
    if |e| > 0 {
      NormalizedWhitelist(e[1..]);
      var head := if e[0] == '^' then "**" else [e[0]];
      assert Normalize(e) == head + Normalize(e[1..]);
      if Whitelisted(Normalize(e)) {
        assert forall i :: 0 <= i < |Normalize(e[1..])| ==> Normalize(e[1..])[i] == Normalize(e)[|head| + i];
        forall i | 0 <= i < |e| ensures Allowed(e[i]) || e[i] == '^' {
          if i > 0 {
            assert e[1..][i - 1] == e[i];
          } else {
            assert Normalize(e)[0] == head[0];
          }
        }
      }
      if forall i :: 0 <= i < |e| ==> Allowed(e[i]) || e[i] == '^' {
        assert forall i :: 0 <= i < |e[1..]| ==> Allowed(e[1..][i]) || e[1..][i] == '^' by {
          forall i | 0 <= i < |e[1..]| ensures Allowed(e[1..][i]) || e[1..][i] == '^' {
            assert e[1..][i] == e[i + 1];
          }
        }
      }
    }
  }

  /** Any ASCII letter makes the guard refuse the expression (`2+x` is rejected). */
  lemma LettersRejected(expr: string, eval: string -> Option<Num>)
    requires HasAsciiLetter(expr)
    ensures SafeEvaluate(expr, eval) == Err(DisallowedCharacters)
  {
    NormalizedWhitelist(expr);
    var i :| 0 <= i < |expr| && IsAsciiLetter(expr[i]);
    assert !(Allowed(expr[i]) || expr[i] == '^');
  }

  /** `expr.indexOf('=')` then `slice(0, eqIndex)`: the part of a prompt before its first `=`. */
  function BeforeEquals(prompt: string): (r: string)
    ensures forall i :: 0 <= i < |r| ==> r[i] != '='
    ensures StartsWith(prompt, r)
    ensures |r| < |prompt| ==> prompt[|r|] == '='
  {
    match IndexOfChar(prompt, '=')
    case None => prompt
    case Some(k) => prompt[..k]
  }
}

=== FILE: extraction.dfy ===
/**
 * Pulling a JSON candidate out of noisy model output: a fenced code block,
 * else the first depth-balanced `[...]` span, else (math variant only) the
 * first balanced `{...}` span; and the recheck script's cruder slice from the
 * first `[` to the last `]`. The depth counter counts every bracket, including
 * brackets inside JSON string literals, exactly as the scripts do.
 */
module Extraction {
  import opened Wrappers
  import opened Text

  const Fence: string := "```"

  // ---- the fence pattern /```(?:json)?\s*([\s\S]*?)```/i ----

  /** 4 when `s[i..]` starts with `json` in any ASCII case (the optional tag), else 0. */
  function JsonTagLength(s: string, i: nat): (n: nat)
    ensures n == 0 || (n == 4 && i + 4 <= |s|)
  {
    if i + 4 <= |s| && ToLowerAscii(s[i..i + 4]) == "json" then 4 else 0
  }

  /**
   * The capture of the fence pattern for a match starting at `p`. The tag is
   * taken when present, `\s*` is greedy and the capture is lazy, so it ends at
   * the first closing fence. Backtracking cannot find another match at `p`:
   * the characters given back by a shorter `\s*` or by dropping the tag are
   * whitespace or letters, and no closing fence can start among them.
   */
  function FenceAt(s: string, p: nat): (r: Option<string>)
    requires OccursAt(s, Fence, p)
    ensures r.Some? && |r.value| > 0 ==> !IsSpace(r.value[0])
  {
    var q := SkipSpaces(s, p + 3 + JsonTagLength(s, p + 3));
    match IndexOfFrom(s, Fence, q)
    case Some(c) => Some(s[q..c])
    case None => None
  }

  /** The leftmost match of the fence pattern at or after `p`, as its capture. */
  function FenceFrom(s: string, p: nat): (r: Option<string>)
    ensures r.Some? && |r.value| > 0 ==> !IsSpace(r.value[0])
    decreases |s| - p
  {
    if p + 3 > |s| then None
    else if OccursAt(s, Fence, p) && FenceAt(s, p).Some? then FenceAt(s, p)
    else FenceFrom(s, p + 1)
  }

  /** `s.match(fenceRe)?.[1]` */
  function FenceCapture(s: string): Option<string> {
    FenceFrom(s, 0)
  }

  /** The fence branch fires: there is a match and its capture is non-empty. */
  predicate UsableFence(s: string) {
    FenceCapture(s).Some? && |FenceCapture(s).value| > 0
  }

  lemma TrimKeepsNonSpaceHead(s: string)
    requires |s| > 0 && !IsSpace(s[0])
    ensures |Trim(s)| > 0
  {
    assert TrimStart(s) == s;
  }

  // ---- depth-balanced spans ----

  function Delta(c: char, open: char, close: char): int {
    if c == open then 1 else if c == close then -1 else 0
  }

  /** Opening minus closing brackets in `t`. */
  function Depth(t: string, open: char, close: char): int {
    if |t| == 0 then 0 else Depth(t[..|t| - 1], open, close) + Delta(t[|t| - 1], open, close)
  }

  /** `t` returns to depth 0 at its end and at no shorter non-empty prefix. */
  predicate Balanced(t: string, open: char, close: char) {
    && |t| > 0
    && Depth(t, open, close) == 0
    && forall k :: 1 <= k < |t| ==> Depth(t[..k], open, close) > 0
  }

  /** The depth of `s[start..]` just after the character at `k`. */
  function DepthAfter(s: string, start: nat, k: nat, open: char, close: char): int
    requires start <= k < |s|
  {
    Depth(s[start..k + 1], open, close)
  }

  lemma DepthStep(s: string, start: nat, i: nat, open: char, close: char)
    requires start <= i < |s|
    ensures Depth(s[start..i + 1], open, close) == Depth(s[start..i], open, close) + Delta(s[i], open, close)
  {
    assert s[start..i + 1][..i - start] == s[start..i];
  }

  /**
   * The scan `for (i = start; ...) { depth ±= ...; if (depth === 0) return i }`
   * resumed at `i` with the depth so far: the first index at which the depth
   * of `s[start..]` returns to zero.
   */
  function ScanFrom(s: string, start: nat, i: nat, depth: int, open: char, close: char): (r: Option<nat>)
    requires start <= i <= |s| && start < |s| && s[start] == open
    requires depth == Depth(s[start..i], open, close)
    requires forall k :: start <= k < i ==> DepthAfter(s, start, k, open, close) > 0
    ensures r.Some? ==> start < r.value < |s| && i <= r.value && s[r.value] == close
    ensures r.Some? ==> DepthAfter(s, start, r.value, open, close) == 0
    ensures r.Some? ==> forall k :: start <= k < r.value ==> DepthAfter(s, start, k, open, close) > 0
    ensures r.None? ==> forall k :: start <= k < |s| ==> DepthAfter(s, start, k, open, close) > 0
    decreases |s| - i
  {
    if i == |s| then None
    else
      DepthStep(s, start, i, open, close);
      var d := depth + Delta(s[i], open, close);
      assert i > start ==> depth == DepthAfter(s, start, i - 1, open, close) > 0;
      assert i == start ==> d == 1;
      if d == 0 then Some(i) else ScanFrom(s, start, i + 1, d, open, close)
  }

  lemma PrefixesOfSlice(s: string, f: nat, e: nat)
    requires f <= e <= |s|
    ensures forall k :: 0 <= k <= e - f ==> s[f..e][..k] == s[f..f + k]
  {
  }

  /** A scan that never returns to depth 0 leaves no balanced span from `f`. */
  lemma NoSpanAfterFailedScan(s: string, f: nat, open: char, close: char)
    requires f < |s|
    requires forall k :: f <= k < |s| ==> DepthAfter(s, f, k, open, close) > 0
    ensures forall k :: f < k <= |s| ==> !Balanced(s[f..k], open, close)
  {
    forall k | f < k <= |s| ensures Depth(s[f..k], open, close) > 0 {
      assert DepthAfter(s, f, k - 1, open, close) > 0;
    }
  }

  /** The span up to the scan's stop is balanced. */
  lemma SpanIsBalanced(s: string, f: nat, e: nat, open: char, close: char)
    requires f < e < |s|
    requires DepthAfter(s, f, e, open, close) == 0
    requires forall k :: f <= k < e ==> DepthAfter(s, f, k, open, close) > 0
    ensures Balanced(s[f..e + 1], open, close)
  {
    var t := s[f..e + 1];
    PrefixesOfSlice(s, f, e + 1);
    forall k | 1 <= k < |t| ensures Depth(t[..k], open, close) > 0 {
      assert t[..k] == s[f..(f + k - 1) + 1];
      assert DepthAfter(s, f, f + k - 1, open, close) > 0;
    }
  }

  /**
   * The first balanced span that starts at the first `open` character, the
   * `indexOf` + depth-scan block of the extractors.
   */
  function BracketSpan(s: string, open: char, close: char): (r: Option<string>)
    ensures r.Some? ==> IndexOfChar(s, open).Some?
    ensures r.Some? ==> var f := IndexOfChar(s, open).value;
      f + |r.value| <= |s| && r.value == s[f..f + |r.value|]
    ensures r.Some? ==> Balanced(r.value, open, close)
    ensures r.Some? ==> |r.value| >= 2 && r.value[0] == open && r.value[|r.value| - 1] == close
    ensures r.None? && IndexOfChar(s, open).Some? ==> var f := IndexOfChar(s, open).value;
      forall k :: f < k <= |s| ==> !Balanced(s[f..k], open, close)
  {
    match IndexOfChar(s, open)
    case None => None
    case Some(f) =>
      match ScanFrom(s, f, f, 0, open, close)
      case None =>
        NoSpanAfterFailedScan(s, f, open, close);
        None
      case Some(e) =>
        SpanIsBalanced(s, f, e, open, close);
        Some(s[f..e + 1])
  }

  // ---- the three extractors ----

  /**
   * `extractJsonBlockGlobal` (and the identical copy inside `generateProblems`):
   * fence, then `[` span, then `{` span.
   */
  function ExtractJsonBlockGlobal(s: string): (r: Option<string>)
    ensures |s| == 0 ==> r.None?
    ensures |s| > 0 && UsableFence(s) ==> r == Some(Trim(FenceCapture(s).value))
    ensures r.Some? ==> |r.value| > 0
    ensures |s| > 0 && !UsableFence(s) && BracketSpan(s, '[', ']').Some? ==> r == BracketSpan(s, '[', ']')
    ensures |s| > 0 && !UsableFence(s) && BracketSpan(s, '[', ']').None? ==> r == BracketSpan(s, '{', '}')
  {
    if |s| == 0 then None
    else if UsableFence(s) then
      TrimKeepsNonSpaceHead(FenceCapture(s).value);
      Some(Trim(FenceCapture(s).value))
    else if BracketSpan(s, '[', ']').Some? then BracketSpan(s, '[', ']')
    else BracketSpan(s, '{', '}')
  }

  /** `extractJsonBlock` of the graph script: fence, then `[` span; no `{` fallback. */
  function ExtractJsonBlock(s: string): (r: Option<string>)
    ensures |s| == 0 ==> r.None?
    ensures |s| > 0 && UsableFence(s) ==> r == Some(Trim(FenceCapture(s).value))
    ensures r.Some? ==> |r.value| > 0
    ensures |s| > 0 && !UsableFence(s) ==> r == BracketSpan(s, '[', ']')
  {
    if |s| == 0 then None
    else if UsableFence(s) then
      TrimKeepsNonSpaceHead(FenceCapture(s).value);
      Some(Trim(FenceCapture(s).value))
    else BracketSpan(s, '[', ']')
  }

  /**
   * The two extractors differ only where the math variant falls back to a
   * `{` span: then the graph variant finds nothing.
   */
  lemma ExtractorsAgree(s: string)
    ensures ExtractJsonBlock(s).Some? ==> ExtractJsonBlockGlobal(s) == ExtractJsonBlock(s)
    ensures ExtractJsonBlock(s).None? && ExtractJsonBlockGlobal(s).Some? ==>
      ExtractJsonBlockGlobal(s) == BracketSpan(s, '{', '}') && ExtractJsonBlockGlobal(s).value[0] == '{'
  {
  }

  /** The recheck script's fallback: `text.slice(first '[', last ']' + 1)` when the last `]` follows the first `[`. */
  function FirstToLastSlice(text: string): (r: Option<string>)
    ensures r.Some? <==> (IndexOfChar(text, '[').Some? && LastIndexOfChar(text, ']').Some?
      && LastIndexOfChar(text, ']').value > IndexOfChar(text, '[').value)
    ensures r.Some? ==> r.value == text[IndexOfChar(text, '[').value..LastIndexOfChar(text, ']').value + 1]
    ensures r.Some? ==> |r.value| >= 2 && r.value[0] == '[' && r.value[|r.value| - 1] == ']'
  {
    match (IndexOfChar(text, '['), LastIndexOfChar(text, ']'))
    case (Some(first), Some(last)) => if last > first then Some(text[first..last + 1]) else None
    case _ => None
  }

  /** Whenever a balanced `[` span exists, the first-to-last slice exists and starts with it. */
  lemma SliceCoversBalancedSpan(text: string)
    requires BracketSpan(text, '[', ']').Some?
    ensures FirstToLastSlice(text).Some?
    ensures StartsWith(FirstToLastSlice(text).value, BracketSpan(text, '[', ']').value)
  {
    var t := BracketSpan(text, '[', ']').value;
    var f := IndexOfChar(text, '[').value;
    assert text[f + |t| - 1] == ']';
    var last := LastIndexOfChar(text, ']').value;
    assert last >= f + |t| - 1;
  }
}

=== FILE: graph_validation.dfy ===
/**
 * The graph script's validator for a batch of multiple-choice graph items.
 * The batch is accepted only when no violation is reported.
 */
module GraphValidation {
  import opened Wrappers
  import opened Text
  import opened Json
  import BatchCheck

  datatype Problem =
    | NotAnObject
    | PromptTooShort
    | SolutionMissing
    | NoExpressions
    | TooFewChoices
    | CorrectIndexOutOfRange
    | DifficultyMismatch

  type Violation = BatchCheck.Violation<Problem>

  /** The fields the validator reads from one item. */
  datatype Fields = Fields(
    prompt: string, solution: string, expressions: Option<Json>, choices: Option<Json>,
    correct: Option<Json>, difficulty: string)

  function ReadFields(it: Json): Fields {
    Fields(
      TrimmedString(Get(it, "prompt")),
      TrimmedString(Get(it, "solution")),
      Get(it, "desmos_expressions"),
      Get(it, "choices"),
      Get(it, "correct_index"),
      TrimmedString(Get(it, "difficulty")))
  }

  /** `Array.isArray(choices) ? choices.length : 0` */
  function ChoiceCount(choices: Option<Json>): nat {
    if choices.Some? && choices.value.JArr? then |choices.value.items| else 0
  }

  function Flag(failed: bool, p: Problem): seq<Problem> {
    if failed then [p] else []
  }

  function FieldProblems(f: Fields, requested: string): seq<Problem> {
    Flag(JsLength(f.prompt) < 10, PromptTooShort)
    + Flag(|f.solution| == 0, SolutionMissing)
    + Flag(!(f.expressions.Some? && f.expressions.value.JArr? && |f.expressions.value.items| > 0), NoExpressions)
    + Flag(!(f.choices.Some? && f.choices.value.JArr? && |f.choices.value.items| >= 2), TooFewChoices)
    + Flag(!(f.correct.Some? && f.correct.value.JNum?)
           || f.correct.value.n < 0.0 || f.correct.value.n >= ChoiceCount(f.choices) as real,
           CorrectIndexOutOfRange)
    + Flag(f.difficulty != requested, DifficultyMismatch)
  }

  /** The problems reported for one item, in reporting order; a falsy item stops at the first. */
  function ItemProblems(it: Json, requested: string): seq<Problem> {
    if !Truthy(Some(it)) then [NotAnObject] else FieldProblems(ReadFields(it), requested)
  }

  /**
   * An acceptable graph item: an object-like value with a prompt of at least
   * ten UTF-16 units after trimming, a solution, a non-empty expression
   * array, at least two choices, a numeric `correct_index` inside the
   * choices, and exactly the requested difficulty.
   */
  predicate FieldsConform(f: Fields, requested: string) {
    && JsLength(f.prompt) >= 10
    && |f.solution| > 0
    && f.expressions.Some? && f.expressions.value.JArr? && |f.expressions.value.items| > 0
    && f.choices.Some? && f.choices.value.JArr? && |f.choices.value.items| >= 2
    && f.correct.Some? && f.correct.value.JNum?
    && 0.0 <= f.correct.value.n < |f.choices.value.items| as real
    && f.difficulty == requested
  }

  predicate ItemConforms(it: Json, requested: string) {
    Truthy(Some(it)) && FieldsConform(ReadFields(it), requested)
  }

  lemma ItemProblemsEmpty(it: Json, requested: string)
    ensures |ItemProblems(it, requested)| == 0 <==> ItemConforms(it, requested)
  {
  }

  /** One item's problems, as the validator's per-item check. */
  function ProblemsOf(requested: string): Json -> seq<Problem> {
    it => ItemProblems(it, requested)
  }

  /** `validateGraphItems(arr, requestedCount, requestedDifficulty)` */
  function Validate(v: Json, count: int, requested: string): seq<Violation> {
    BatchCheck.Validate(v, count, ProblemsOf(requested))
  }

  /** The batch is accepted exactly when it is an array of the requested length whose every item conforms. */
  lemma ValidateAccepts(v: Json, count: int, requested: string)
    ensures |Validate(v, count, requested)| == 0
      <==> v.JArr? && |v.items| == count && forall i :: 0 <= i < |v.items| ==> ItemConforms(v.items[i], requested)
  {
    BatchCheck.ValidateAccepts(v, count, ProblemsOf(requested));
    if v.JArr? {
      forall i | 0 <= i < |v.items|
        ensures |ProblemsOf(requested)(v.items[i])| == 0 <==> ItemConforms(v.items[i], requested)
      {
        ItemProblemsEmpty(v.items[i], requested);
      }
    }
  }

  /**
   * `correct_index` is only range-checked, never checked to be a whole
   * number: in any acceptable item it may be replaced by 0.5.
   */
  lemma FractionalIndexAccepted(f: Fields, requested: string)
    requires FieldsConform(f, requested)
    ensures FieldsConform(f.(correct := Some(JNum(0.5))), requested)
    ensures |FieldProblems(f.(correct := Some(JNum(0.5))), requested)| == 0
  {
  }
}

=== FILE: inserts.dfy ===
/**
 * The insert loops of the generator scripts: rows are inserted one at a
 * time, each inside its own `try`, so a failing insert drops that row and
 * the loop goes on. `insertOk(row)` is whether the database accepted it.
 */
module Inserts {

  /** `xs` is what is left of `ys` after deleting some of its elements; the order is kept. */
  ghost predicate SubsequenceOf<T>(xs: seq<T>, ys: seq<T>)
    decreases |ys|
  {
    |xs| == 0 || (|ys| > 0 && ((xs[0] == ys[0] && SubsequenceOf(xs[1..], ys[1..])) || SubsequenceOf(xs, ys[1..])))
  }

  /**
   * The rows the loop stores, in order: each row is kept as often as it
   * occurs when its insert succeeds, and not at all otherwise.
   */
  function InsertEach<T(!new)>(rows: seq<T>, insertOk: T -> bool): (r: seq<T>)
    ensures forall k :: 0 <= k < |r| ==> insertOk(r[k])
    ensures forall x :: multiset(r)[x] == if insertOk(x) then multiset(rows)[x] else 0
    ensures SubsequenceOf(r, rows)
    ensures |r| <= |rows|
  {
    if |rows| == 0 then []
    else
      var rest := InsertEach(rows[1..], insertOk);
      assert rows == [rows[0]] + rows[1..];
      if insertOk(rows[0]) then
        assert ([rows[0]] + rest)[1..] == rest;
        [rows[0]] + rest
      else rest
  }

  /** When every insert succeeds, every row is stored, in order. */
  lemma {:induction false} AllInserted<T(!new)>(rows: seq<T>, insertOk: T -> bool)
    requires forall k :: 0 <= k < |rows| ==> insertOk(rows[k])
    ensures InsertEach(rows, insertOk) == rows
  {
    if |rows| > 0 {
      AllInserted(rows[1..], insertOk);
      assert [rows[0]] + rows[1..] == rows;
    }
  }
}

=== FILE: jsnumber.dfy ===
/**
 * JavaScript's two string-to-number coercions, `Number(str)` and
 * `parseFloat(str)`, and the numeric-token pattern `-?\d+(?:\.\d+)?` the
 * scripts use to pull numbers out of free-text solutions. Values are exact
 * reals: IEEE-754 rounding and overflow are not modelled.
 */
module JsNumber {
  import opened Wrappers
  import opened Text

  /** A JavaScript number. */
  datatype Num = Finite(r: real) | PosInf | NegInf | NaN

  /** `Math.abs(a - b) < 1e-9`, the closeness test used for local verification. */
  predicate Close(a: real, b: real) {
    -0.000000001 < a - b < 0.000000001
  }

  function Pow10(n: nat): (r: nat)
    ensures r >= 1
  {
    if n == 0 then 1 else 10 * Pow10(n - 1)
  }

  /** The value of the base-`radix` digit `c`, if it is one (`0-9`, `a-z`, `A-Z`). */
  function DigitValue(c: char, radix: nat): Option<nat> {
    var v :=
      if '0' <= c <= '9' then (c as int - '0' as int)
      else if 'a' <= c <= 'z' then (c as int - 'a' as int + 10)
      else if 'A' <= c <= 'Z' then (c as int - 'A' as int + 10)
      else radix;
    if v < radix then Some(v) else None
  }

  predicate AllDigitsIn(d: string, radix: nat) {
    forall i :: 0 <= i < |d| ==> DigitValue(d[i], radix).Some?
  }

  /** The value of a run of base-`radix` digits, most significant first. */
  function RadixValue(d: string, radix: nat): nat
    requires AllDigitsIn(d, radix)
  {
    if |d| == 0 then 0
    else RadixValue(d[..|d| - 1], radix) * radix + DigitValue(d[|d| - 1], radix).value
  }

  lemma DecimalDigits(d: string)
    requires forall i :: 0 <= i < |d| ==> IsDigit(d[i])
    ensures AllDigitsIn(d, 10)
  {
  }

  /** The value of the decimal digits `t[i..j]`. */
  function Decimal(t: string, i: nat, j: nat): nat
    requires i <= j <= |t|
    requires forall k :: i <= k < j ==> IsDigit(t[k])
  {
    DecimalDigits(t[i..j]);
    RadixValue(t[i..j], 10)
  }

  /**
   * The longest StrUnsignedDecimalLiteral starting at `i`: digits, an optional
   * `.` with optional digits (at least one digit in all), then an optional
   * exponent that is only taken when digits follow it. Yields the value and
   * the end of the literal.
   */
  function DecimalScan(t: string, i: nat): (r: Option<(real, nat)>)
    requires i <= |t|
    ensures r.Some? ==> i < r.value.1 <= |t|
    ensures i < |t| && IsDigit(t[i]) ==> r.Some?
  {
    var a := DigitRun(t, i);
    var hasDot := a < |t| && t[a] == '.';
    var b := if hasDot then DigitRun(t, a + 1) else a;
    if a == i && b <= a + 1 then None
    else
      var mantissa := Decimal(t, i, a) as real
        + (if hasDot then Decimal(t, a + 1, b) as real / Pow10(b - a - 1) as real else 0.0);
      if b < |t| && (t[b] == 'e' || t[b] == 'E') then
        var k := b + 1;
        var negExp := k < |t| && t[k] == '-';
        var k' := if k < |t| && (t[k] == '+' || t[k] == '-') then k + 1 else k;
        var c := DigitRun(t, k');
        if c == k' then Some((mantissa, b))
        else
          var e := Decimal(t, k', c);
          Some((if negExp then mantissa / Pow10(e) as real else mantissa * Pow10(e) as real, c))
      else Some((mantissa, b))
  }

  /** An optionally signed StrDecimalLiteral starting at `i`: `Infinity` or a decimal literal. */
  function SignedScan(t: string, i: nat): (r: Option<(Num, nat)>)
    requires i <= |t|
    ensures r.Some? ==> i < r.value.1 <= |t| && !r.value.0.NaN?
  {
    var neg := i < |t| && t[i] == '-';
    var j := if i < |t| && (t[i] == '+' || t[i] == '-') then i + 1 else i;
    if OccursAt(t, "Infinity", j) then Some((if neg then NegInf else PosInf, j + 8))
    else match DecimalScan(t, j)
      case None => None
      case Some((v, e)) => Some((Finite(if neg then -v else v), e))
  }

  /** `parseFloat(s)`: the longest decimal literal after leading whitespace, or NaN. */
  function ParseFloat(s: string): Num {
    match SignedScan(TrimStart(s), 0)
    case None => NaN
    case Some((v, _)) => v
  }

  /** `0x`/`0o`/`0b` literals, which `Number` accepts (unsigned only). */
  function NonDecimalLiteral(t: string): Option<nat> {
    if |t| > 2 && t[0] == '0' then
      var radix :=
        if t[1] == 'x' || t[1] == 'X' then 16
        else if t[1] == 'o' || t[1] == 'O' then 8
        else if t[1] == 'b' || t[1] == 'B' then 2
        else 0;
      if radix != 0 && AllDigitsIn(t[2..], radix) then Some(RadixValue(t[2..], radix)) else None
    else None
  }

  /** `Number(s)` for a string: the whole trimmed text must be a numeric literal; empty is 0. */
  function StringToNumber(s: string): Num {
    var t := Trim(s);
    if |t| == 0 then Finite(0.0)
    else match NonDecimalLiteral(t)
      case Some(v) => Finite(v as real)
      case None =>
        match SignedScan(t, 0)
        case Some((v, e)) => if e == |t| then v else NaN
        case None => NaN
  }

  // ---- the numeric-token pattern -?\d+(?:\.\d+)? ----

  /** Where a match of `-?\d+(?:\.\d+)?` starting at `p` ends, if one starts there. */
  function TokenEnd(s: string, p: nat): (r: Option<nat>)
    requires p <= |s|
    ensures r.Some? ==> p < r.value <= |s|
    ensures r.Some? <==> (p < |s| && IsDigit(s[p])) || (p + 1 < |s| && s[p] == '-' && IsDigit(s[p + 1]))
  {
    var q := if p < |s| && s[p] == '-' then p + 1 else p;
    if q < |s| && IsDigit(s[q]) then
      var e := DigitRun(s, q);
      if e + 1 < |s| && s[e] == '.' && IsDigit(s[e + 1]) then Some(DigitRun(s, e + 1)) else Some(e)
    else None
  }

  /** The leftmost match of the token pattern at or after `from`, as a start/end pair. */
  function NextToken(s: string, from: nat): (r: Option<(nat, nat)>)
    requires from <= |s|
    ensures r.Some? ==> from <= r.value.0 < |s| && TokenEnd(s, r.value.0) == Some(r.value.1)
    ensures r.Some? ==> forall k :: from <= k < r.value.0 ==> TokenEnd(s, k).None?
    ensures r.None? ==> forall k :: from <= k <= |s| ==> TokenEnd(s, k).None?
    decreases |s| - from
  {
    if from == |s| then None
    else match TokenEnd(s, from)
      case Some(e) => Some((from, e))
      case None => NextToken(s, from + 1)
  }

  /** `s.match(/-?\d+(?:\.\d+)?/g)` from position `from`: every match, left to right. */
  function AllTokensFrom(s: string, from: nat): seq<string>
    requires from <= |s|
    decreases |s| - from
  {
    match NextToken(s, from)
    case None => []
    case Some((a, b)) => [s[a..b]] + AllTokensFrom(s, b)
  }

  function AllTokens(s: string): seq<string> {
    AllTokensFrom(s, 0)
  }

  /** `s.match(/-?\d+(?:\.\d+)?/)?.[0]`: the first match. */
  function FirstToken(s: string): Option<string> {
    match NextToken(s, 0)
    case None => None
    case Some((a, b)) => Some(s[a..b])
  }

  /** The first match is the head of the list of all matches. */
  lemma FirstTokenIsHead(s: string)
    ensures FirstToken(s).Some? <==> |AllTokens(s)| > 0
    ensures FirstToken(s).Some? ==> FirstToken(s).value == AllTokens(s)[0]
  {
  }

  /** Scanning digits inside a slice stops where the scan in the whole string does, or at the slice end. */
  lemma {:induction false} DigitRunSlice(s: string, a: nat, b: nat, i: nat)
    requires a <= i <= b <= |s|
    ensures DigitRun(s[a..b], i - a) == (if DigitRun(s, i) < b then DigitRun(s, i) else b) - a
    decreases b - i
  {
    if i < b && IsDigit(s[i]) {
      DigitRunSlice(s, a, b, i + 1);
    }
  }

  /** The shape of a token: optional `-` (so `j` is 0 or 1), digits, and optionally `.` and digits to the end. */
  predicate TokenShape(t: string, j: nat) {
    && j < |t| && (j == 1 <==> t[0] == '-') && j <= 1 && IsDigit(t[j])
    && var a := DigitRun(t, j);
      (a == |t| || (t[a] == '.' && a + 1 < |t| && IsDigit(t[a + 1]) && DigitRun(t, a + 1) == |t|))
  }

  lemma ShapeScansWhole(t: string, j: nat)
    requires TokenShape(t, j)
    ensures DecimalScan(t, j).Some? && DecimalScan(t, j).value.1 == |t|
  {
  }

  lemma ShapeSignedScan(t: string, j: nat)
    requires TokenShape(t, j)
    ensures SignedScan(t, 0).Some? && SignedScan(t, 0).value.1 == |t| && SignedScan(t, 0).value.0.Finite?
  {
    assert !OccursAt(t, "Infinity", j);
    ShapeScansWhole(t, j);
  }

  lemma ShapeTrims(t: string, j: nat)
    requires TokenShape(t, j)
    ensures TrimStart(t) == t && Trim(t) == t
  {
    assert IsDigit(t[|t| - 1]);
    TrimFixed(t);
  }

  lemma ShapeIsDecimal(t: string, j: nat)
    requires TokenShape(t, j)
    ensures NonDecimalLiteral(t).None?
  {
    if |t| > 2 && t[0] == '0' {
      assert IsDigit(t[1]) || t[1] == '.';
    }
  }

  lemma ShapeIsNumber(t: string, j: nat)
    requires TokenShape(t, j)
    ensures StringToNumber(t) == ParseFloat(t)
    ensures ParseFloat(t).Finite?
  {
    ShapeTrims(t, j);
    ShapeIsDecimal(t, j);
    ShapeSignedScan(t, j);
  }

  /** A token without a fraction: optional `-` and a maximal digit run. */
  lemma IntegerTokenShape(s: string, a: nat, q: nat, b: nat)
    requires a <= q <= a + 1 && q < b <= |s| && (q == a + 1 <==> s[a] == '-')
    requires IsDigit(s[q]) && DigitRun(s, q) == b
    ensures TokenShape(s[a..b], q - a)
  {
    var t := s[a..b];
    assert t[0] == s[a] && t[q - a] == s[q];
    DigitRunSlice(s, a, b, q);
  }

  /** A token with a fraction: optional `-`, digits, `.` and a maximal digit run. */
  lemma FractionTokenShape(s: string, a: nat, q: nat, e: nat, b: nat)
    requires a <= q <= a + 1 && q < |s| && (q == a + 1 <==> s[a] == '-')
    requires IsDigit(s[q]) && e == DigitRun(s, q)
    requires e + 1 < |s| && s[e] == '.' && IsDigit(s[e + 1]) && b == DigitRun(s, e + 1)
    ensures TokenShape(s[a..b], q - a)
  {
    var t := s[a..b];
    assert t[0] == s[a] && t[q - a] == s[q];
    DigitRunSlice(s, a, b, q);
    DigitRunSlice(s, a, b, e + 1);
    assert t[e - a] == '.' && t[e + 1 - a] == s[e + 1];
  }

  lemma TokenHasShape(s: string, a: nat, b: nat)
    requires a <= |s| && TokenEnd(s, a) == Some(b)
    ensures TokenShape(s[a..b], if s[a] == '-' then 1 else 0)
  {
    var q := if s[a] == '-' then a + 1 else a;
    var e := DigitRun(s, q);
    if e + 1 < |s| && s[e] == '.' && IsDigit(s[e + 1]) {
      FractionTokenShape(s, a, q, e, b);
    } else {
      IntegerTokenShape(s, a, q, b);
    }
  }

  /**
   * Every match of the token pattern is a complete numeric literal: `Number`
   * and `parseFloat` agree on it and neither yields NaN.
   */
  lemma TokenIsNumber(s: string, a: nat, b: nat)
    requires a <= |s| && TokenEnd(s, a) == Some(b)
    ensures StringToNumber(s[a..b]) == ParseFloat(s[a..b])
    ensures ParseFloat(s[a..b]).Finite?
  {
    TokenHasShape(s, a, b);
    ShapeIsNumber(s[a..b], if s[a] == '-' then 1 else 0);
  }

  /** A digit anywhere in `s` from `from` on guarantees a match. */
  lemma {:induction false} DigitGivesToken(s: string, from: nat, p: nat)
    requires from <= p < |s| && IsDigit(s[p])
    ensures NextToken(s, from).Some?
    ensures |AllTokensFrom(s, from)| > 0
    decreases p - from
  {
    if TokenEnd(s, from).None? {
      DigitGivesToken(s, from + 1, p);
    }
  }

  /** `Number(s.match(/-?\d+(?:\.\d+)?/)[0])`: the value of the first numeric token, always finite. */
  function FirstNumber(s: string): (r: Option<real>)
    ensures r.Some? <==> FirstToken(s).Some?
    ensures r.Some? ==> StringToNumber(FirstToken(s).value) == Finite(r.value)
  {
    match NextToken(s, 0)
    case None => None
    case Some((a, b)) => TokenIsNumber(s, a, b); Some(StringToNumber(s[a..b]).r)
  }
}

=== FILE: json.dfy ===
/**
 * Parsed JSON values as the scripts see them after `JSON.parse`, with the
 * JavaScript coercions they apply to them: property access, truthiness,
 * `Number(v)` and `String(v)`.
 */
module Json {
  import opened Wrappers
  import opened Text
  import opened JsNumber

  datatype Json =
    | JNull
    | JBool(b: bool)
    | JNum(n: real)
    | JStr(s: string)
    | JArr(items: seq<Json>)
    | JObj(members: seq<Member>)

  /** One `"key": value` pair of an object, in source order. */
  datatype Member = Member(key: string, value: Json)

  /** `v.key`: the last member with that key (later duplicates win in `JSON.parse`); `None` is `undefined`. */
  function Get(v: Json, key: string): (r: Option<Json>)
    ensures r.Some? ==> v.JObj? && Member(key, r.value) in v.members
    ensures !v.JObj? ==> r.None?
  {
    if v.JObj? then Lookup(v.members, key) else None
  }

  function Lookup(ms: seq<Member>, key: string): (r: Option<Json>)
    ensures r.Some? ==> Member(key, r.value) in ms
    ensures r.None? ==> forall i :: 0 <= i < |ms| ==> ms[i].key != key
  {
    if |ms| == 0 then None
    else if ms[|ms| - 1].key == key then Some(ms[|ms| - 1].value)
    else Lookup(ms[..|ms| - 1], key)
  }

  /** JavaScript truthiness of a possibly-undefined value. */
  predicate Truthy(v: Option<Json>) {
    match v
    case None => false
    case Some(JNull) => false
    case Some(JBool(b)) => b
    case Some(JNum(n)) => n != 0.0
    case Some(JStr(s)) => |s| > 0
    case Some(_) => true
  }

  /** `x == null`: `null` or `undefined`. */
  predicate IsNullish(v: Option<Json>) {
    v.None? || v.value.JNull?
  }

  /** `a ?? b` */
  function Coalesce(a: Option<Json>, b: Option<Json>): (r: Option<Json>)
    ensures !IsNullish(a) ==> r == a
    ensures IsNullish(a) ==> r == b
  {
    if IsNullish(a) then b else a
  }

  /** `typeof v === 'string' ? v.trim() : ''` */
  function TrimmedString(v: Option<Json>): string {
    if v.Some? && v.value.JStr? then Trim(v.value.s) else ""
  }

  /**
   * `Number(v)`. Arrays go through their `String` form, which is the sole
   * element's form for a one-element array and contains a comma otherwise.
   */
  function NumberOf(v: Option<Json>): Num {
    if v.None? then NaN else NumberOfValue(v.value)
  }

  function NumberOfValue(v: Json): Num {
    match v
    case JNull => Finite(0.0)
    case JBool(b) => Finite(if b then 1.0 else 0.0)
    case JNum(n) => Finite(n)
    case JStr(s) => StringToNumber(s)
    case JObj(_) => NaN
    case JArr(items) =>
      if |items| == 0 then Finite(0.0)
      else if |items| > 1 then NaN
      else match items[0]
        case JNull => Finite(0.0)
        case JBool(_) => NaN
        case JNum(n) => Finite(n)
        case JStr(s) => StringToNumber(s)
        case JObj(_) => NaN
        case JArr(_) => NumberOfValue(items[0])
  }

  /**
   * `String(v)`. A number's decimal rendering and an array's comma-joined
   * rendering are kept symbolic.
   */
  datatype JsText = Lit(text: string) | NumberText(r: real) | ArrayText(items: seq<Json>)

  function ToJsText(v: Json): (r: JsText)
    ensures v.JStr? ==> r == Lit(v.s)
  {
    match v
    case JNull => Lit("null")
    case JBool(b) => Lit(if b then "true" else "false")
    case JNum(n) => NumberText(n)
    case JStr(s) => Lit(s)
    case JArr(items) => ArrayText(items)
    case JObj(_) => Lit("[object Object]")
  }

  /**
   * `String(v ?? fallback)`. `show` stands for JavaScript's `String(...)` on
   * a value that is not a string (number formatting, array joining).
   */
  function JsString(v: Option<Json>, fallback: string, show: Json -> string): string {
    if IsNullish(v) then fallback else if v.value.JStr? then v.value.s else show(v.value)
  }
}

=== FILE: math_main.dfy ===
/**
 * The math script's `main` after generation: each generated item becomes a
 * row, simple arithmetic is verified locally, everything else goes to batch
 * verification by the model, verdicts are written back by index, a final
 * numeric fallback is computed, and each row is inserted on its own.
 */
module MathMain {
  import opened Wrappers
  import opened Text
  import opened JsNumber
  import opened Json
  import opened Expression
  import opened BatchVerify
  import Inserts

  /** `verified_solution`: `String(value)` of a locally computed value, or the model's raw value. */
  datatype SolutionValue = Computed(value: real) | FromModel(v: Json)

  datatype Row = Row(
    prompt: string, solution: string, kind: string, difficulty: string, verified: bool,
    verifiedSolution: Option<SolutionValue>, numericAnswer: Option<Num>, equationAnswer: Option<string>)

  /** The row an item starts as, before any verification. */
  function Initial(p: Json, requested: string, show: Json -> string): (r: Row)
    ensures !r.verified && r.verifiedSolution.None?
    ensures r.numericAnswer.Some? ==> !r.numericAnswer.value.NaN?
  {
    var numeric := Get(p, "numeric_answer");
    var equation :=
      if !IsNullish(Get(p, "equation_answer")) then Some(JsString(Get(p, "equation_answer"), "", show))
      else if !IsNullish(Get(p, "equasion_answer")) then Some(JsString(Get(p, "equasion_answer"), "", show))
      else None;
    Row(
      JsString(Coalesce(Get(p, "prompt"), Get(p, "question")), "", show),
      JsString(Get(p, "solution"), "", show),
      JsString(Get(p, "type"), "word", show),
      JsString(Get(p, "difficulty"), requested, show),
      false, None,
      if !IsNullish(numeric) && !NumberOf(numeric).NaN? then Some(NumberOf(numeric)) else None,
      equation)
  }

  /**
   * The local check: an arithmetic item whose prompt, up to its first `=`,
   * evaluates to within 1e-9 of the first number in the solution.
   */
  predicate LocallyVerifiable(r: Row, eval: string -> Option<Num>) {
    && r.kind == "arithmetic"
    && SafeEvaluate(BeforeEquals(r.prompt), eval).Ok?
    && FirstNumber(r.solution).Some?
    && Close(FirstNumber(r.solution).value, SafeEvaluate(BeforeEquals(r.prompt), eval).value)
  }

  /** The row after a successful local check. */
  function MarkVerified(r: Row, eval: string -> Option<Num>): (v: Row)
    requires LocallyVerifiable(r, eval)
    ensures v.verified
    ensures v.numericAnswer == Some(Finite(SafeEvaluate(BeforeEquals(r.prompt), eval).value))
    ensures v.verifiedSolution == Some(Computed(SafeEvaluate(BeforeEquals(r.prompt), eval).value))
    ensures v.(verified := false, verifiedSolution := None, numericAnswer := r.numericAnswer) == r.(verified := false, verifiedSolution := None)
  {
    var value := SafeEvaluate(BeforeEquals(r.prompt), eval).value;
    r.(verified := true, verifiedSolution := Some(Computed(value)), numericAnswer := Some(Finite(value)))
  }

  /** The row an item ends the local pass as. */
  function Process(p: Json, requested: string, eval: string -> Option<Num>, show: Json -> string): (r: Row)
    ensures r.verified <==> LocallyVerifiable(Initial(p, requested, show), eval)
    ensures r.verified ==> r == MarkVerified(Initial(p, requested, show), eval)
    ensures !r.verified ==> r == Initial(p, requested, show)
  {
    var row := Initial(p, requested, show);
    if LocallyVerifiable(row, eval) then MarkVerified(row, eval) else row
  }

  /** Reference definition of the queue: the unverified rows in order, each keyed by its index. */
  function Queue(rows: seq<Row>): seq<Pending>
    decreases |rows|
  {
    if |rows| == 0 then []
    else
      var i := |rows| - 1;
      Queue(rows[..i]) + (if rows[i].verified then [] else [Pending(Finite(i as real), rows[i].prompt, rows[i].solution)])
  }

  /** The indices of the queued rows. */
  function QueueIdx(rows: seq<Row>): seq<nat>
    decreases |rows|
  {
    if |rows| == 0 then []
    else
      var i := |rows| - 1;
      QueueIdx(rows[..i]) + (if rows[i].verified then [] else [i])
  }

  /** The queue holds, in increasing order, exactly the indices of the unverified rows. */
  lemma {:induction false} QueueIdxExact(rows: seq<Row>)
    ensures forall j, k :: 0 <= j < k < |QueueIdx(rows)| ==> QueueIdx(rows)[j] < QueueIdx(rows)[k]
    ensures forall k :: 0 <= k < |QueueIdx(rows)| ==> QueueIdx(rows)[k] < |rows|
    ensures forall i :: 0 <= i < |rows| ==> (!rows[i].verified <==> i in QueueIdx(rows))
    decreases |rows|
  {
    if |rows| > 0 {
      var n := |rows| - 1;
      var init := rows[..n];
      QueueIdxExact(init);
      assert forall i :: 0 <= i < n ==> init[i] == rows[i];
    }
  }

  /** Each queued item is its row's prompt and solution under the row's index. */
  lemma {:induction false} QueueEntries(rows: seq<Row>)
    ensures |Queue(rows)| == |QueueIdx(rows)|
    ensures forall k :: 0 <= k < |Queue(rows)| ==>
      && QueueIdx(rows)[k] < |rows|
      && Queue(rows)[k] == Pending(Finite(QueueIdx(rows)[k] as real), rows[QueueIdx(rows)[k]].prompt, rows[QueueIdx(rows)[k]].solution)
    decreases |rows|
  {
    if |rows| > 0 {
      var n := |rows| - 1;
      var init := rows[..n];
      QueueEntries(init);
      QueueIdxExact(init);
      assert forall i :: 0 <= i < n ==> init[i] == rows[i];
    }
  }

  /** One more row extends both the queue and its indices by that row, when it is unverified. */
  lemma QueueStep(rows: seq<Row>, i: nat)
    requires i < |rows|
    ensures Queue(rows[..i + 1]) == Queue(rows[..i])
      + (if rows[i].verified then [] else [Pending(Finite(i as real), rows[i].prompt, rows[i].solution)])
    ensures QueueIdx(rows[..i + 1]) == QueueIdx(rows[..i]) + (if rows[i].verified then [] else [i])
  {
    assert rows[..i + 1][..i] == rows[..i];
  }

  /**
   * The queueing half of `problems.forEach((p, idx) => …)`: every row not
   * verified locally is queued exactly once, in order, under its index.
   */
  method QueuePending(rows: seq<Row>) returns (pendingIdx: seq<nat>, pending: seq<Pending>)
    ensures forall j, k :: 0 <= j < k < |pendingIdx| ==> pendingIdx[j] < pendingIdx[k]
    ensures forall k :: 0 <= k < |pendingIdx| ==> pendingIdx[k] < |rows|
    ensures forall i :: 0 <= i < |rows| ==> (!rows[i].verified <==> i in pendingIdx)
    ensures |pending| == |pendingIdx|
    ensures forall k :: 0 <= k < |pending| ==>
      pending[k] == Pending(Finite(pendingIdx[k] as real), rows[pendingIdx[k]].prompt, rows[pendingIdx[k]].solution)
    ensures pending == Queue(rows)
  {
    pendingIdx, pending := [], [];
    var i := 0;
    while i < |rows|
      invariant 0 <= i <= |rows|
      invariant pending == Queue(rows[..i]) && pendingIdx == QueueIdx(rows[..i])
    {
      QueueStep(rows, i);
      if !rows[i].verified {
        pending := pending + [Pending(Finite(i as real), rows[i].prompt, rows[i].solution)];
        pendingIdx := pendingIdx + [i];
      }
      i := i + 1;
    }
    assert rows[..i] == rows;
    QueueIdxExact(rows);
    QueueEntries(rows);
  }

  /** `problems.forEach((p, idx) => …)`: one row per item, and the queue of rows left for the model. */
  method Partition(items: seq<Json>, requested: string, eval: string -> Option<Num>, show: Json -> string)
    returns (rows: seq<Row>, pendingIdx: seq<nat>, pending: seq<Pending>)
    ensures |rows| == |items|
    ensures forall i :: 0 <= i < |items| ==> rows[i] == Process(items[i], requested, eval, show)
    ensures forall j, k :: 0 <= j < k < |pendingIdx| ==> pendingIdx[j] < pendingIdx[k]
    ensures forall k :: 0 <= k < |pendingIdx| ==> pendingIdx[k] < |items|
    ensures forall i :: 0 <= i < |items| ==> (!rows[i].verified <==> i in pendingIdx)
    ensures |pending| == |pendingIdx|
    ensures forall k :: 0 <= k < |pending| ==>
      pending[k] == Pending(Finite(pendingIdx[k] as real), rows[pendingIdx[k]].prompt, rows[pendingIdx[k]].solution)
    ensures pending == Queue(rows)
  {
    rows := seq(|items|, i requires 0 <= i < |items| => Process(items[i], requested, eval, show));
    pendingIdx, pending := QueuePending(rows);
  }

  /** `processed[idx]` for a verdict key: an in-range whole number names a row. */
  predicate Names(key: Num, i: nat) {
    key == Finite(i as real)
  }

  /** One verdict written back into its row. */
  function ApplyOne(r: Row, v: Verdict<Json>, show: Json -> string): (u: Row)
    ensures u.verified == v.correct
    ensures u.verifiedSolution == (if v.solution.Some? then Some(FromModel(v.solution.value)) else None)
    ensures r.numericAnswer.Some? ==> u.numericAnswer == r.numericAnswer
    // A row without an answer takes the first number in the model's solution text, if there is one.
    ensures r.numericAnswer.None? && !Truthy(v.solution) ==> u.numericAnswer.None?
    ensures r.numericAnswer.None? && Truthy(v.solution) ==>
      u.numericAnswer == (if FirstNumber(JsString(v.solution, "", show)).Some?
                          then Some(Finite(FirstNumber(JsString(v.solution, "", show)).value)) else None)
    ensures u.(verified := r.verified, verifiedSolution := r.verifiedSolution, numericAnswer := r.numericAnswer) == r
  {
    var numeric :=
      if r.numericAnswer.None? && Truthy(v.solution) then
        match FirstNumber(JsString(v.solution, "", show))
        case Some(x) => Some(Finite(x))
        case None => None
      else r.numericAnswer;
    r.(verified := v.correct,
       verifiedSolution := if v.solution.Some? then Some(FromModel(v.solution.value)) else None,
       numericAnswer := numeric)
  }

  /** `batchResults.forEach((res, idx) => …)`: each row named by a key takes that key's verdict. */
  function ApplyBatch(rows: seq<Row>, verdicts: map<Num, Verdict<Json>>, show: Json -> string): (r: seq<Row>)
    ensures |r| == |rows|
    ensures forall i :: 0 <= i < |rows| && Finite(i as real) !in verdicts ==> r[i] == rows[i]
    ensures forall i :: 0 <= i < |rows| && Finite(i as real) in verdicts ==>
      r[i] == ApplyOne(rows[i], verdicts[Finite(i as real)], show)
  {
    seq(|rows|, i requires 0 <= i < |rows| =>
      if Finite(i as real) in verdicts then ApplyOne(rows[i], verdicts[Finite(i as real)], show) else rows[i])
  }

  /** The fallback before insertion: an arithmetic row without a numeric answer gets its evaluated prompt. */
  function Finalize(r: Row, eval: string -> Option<Num>): (u: Row)
    ensures u.kind == "arithmetic" && SafeEvaluate(BeforeEquals(u.prompt), eval).Ok? ==> u.numericAnswer.Some?
    ensures r.numericAnswer.Some? ==> u == r
    ensures u.(numericAnswer := r.numericAnswer) == r
  {
    if r.numericAnswer.None? && r.kind == "arithmetic" then
      match SafeEvaluate(BeforeEquals(r.prompt), eval)
      case Ok(v) => r.(numericAnswer := Some(Finite(v)))
      case Err(_) => r
    else r
  }

  /** The rows after the numeric fallback. */
  function Finals(rows: seq<Row>, eval: string -> Option<Num>): (r: seq<Row>)
    ensures |r| == |rows|
    ensures forall i :: 0 <= i < |rows| ==> r[i] == Finalize(rows[i], eval)
  {
    seq(|rows|, i requires 0 <= i < |rows| => Finalize(rows[i], eval))
  }

  /** The rows after the model pass, which runs only when something is pending; verdicts come in chunks of five. */
  function AfterModel(rows: seq<Row>, call: seq<Pending> -> Option<string>, parse: string -> Option<Json>,
                      show: Json -> string): (r: seq<Row>)
    ensures |r| == |rows|
    ensures |Queue(rows)| == 0 ==> r == rows
  {
    if |Queue(rows)| > 0 then ApplyBatch(rows, MathBatch(Queue(rows), 5, call, parse).verdicts, show) else rows
  }

  /**
   * The whole pass from a generated batch to the stored rows: each item is
   * processed, the rows not verified locally go to the model, and the
   * results are finalized and inserted one by one.
   */
  method StoreGenerated(items: seq<Json>, requested: string, eval: string -> Option<Num>, show: Json -> string,
                        call: seq<Pending> -> Option<string>, parse: string -> Option<Json>, insertOk: Row -> bool)
    returns (stored: seq<Row>)
    ensures |stored| <= |items|
    ensures forall k :: 0 <= k < |stored| ==> insertOk(stored[k])
    ensures forall k :: 0 <= k < |stored| ==>
      (stored[k].kind == "arithmetic" && SafeEvaluate(BeforeEquals(stored[k].prompt), eval).Ok?
       ==> stored[k].numericAnswer.Some?)
    ensures stored == StoreRows(AfterModel(seq(|items|, i requires 0 <= i < |items| => Process(items[i], requested, eval, show)),
                                           call, parse, show), eval, insertOk)
  {
    var rows, pendingIdx, pending := Partition(items, requested, eval, show);
    assert rows == seq(|items|, i requires 0 <= i < |items| => Process(items[i], requested, eval, show));
    if |pending| > 0 {
      var batch := MathBatch(pending, 5, call, parse);
      rows := ApplyBatch(rows, batch.verdicts, show);
    }
    stored := StoreRows(rows, eval, insertOk);
  }

  /** The insert loop: each row gets the numeric fallback, then is inserted on its own. */
  function StoreRows(rows: seq<Row>, eval: string -> Option<Num>, insertOk: Row -> bool): (stored: seq<Row>)
    ensures |stored| <= |rows|
    ensures forall k :: 0 <= k < |stored| ==> insertOk(stored[k])
    ensures forall k :: 0 <= k < |stored| ==>
      (stored[k].kind == "arithmetic" && SafeEvaluate(BeforeEquals(stored[k].prompt), eval).Ok?
       ==> stored[k].numericAnswer.Some?)
    // Every finalized row is stored, as often as it occurs, exactly when its insert succeeds; the order is kept.
    ensures forall x :: multiset(stored)[x] == if insertOk(x) then multiset(Finals(rows, eval))[x] else 0
    ensures Inserts.SubsequenceOf(stored, Finals(rows, eval))
  {
    var finals := Finals(rows, eval);
    var stored := Inserts.InsertEach(finals, insertOk);
    assert forall k :: 0 <= k < |stored| ==> stored[k] in multiset(stored);
    stored
  }

  /**
   * A verdict keyed by a row's index overrides that row even if the row was
   * verified locally; a row no key names keeps its local outcome.
   */
  lemma VerdictOverridesLocal(rows: seq<Row>, verdicts: map<Num, Verdict<Json>>, show: Json -> string, i: nat)
    requires i < |rows|
    ensures Finite(i as real) in verdicts ==> ApplyBatch(rows, verdicts, show)[i].verified == verdicts[Finite(i as real)].correct
    ensures Finite(i as real) !in verdicts ==> ApplyBatch(rows, verdicts, show)[i].verified == rows[i].verified
  {
  }

  /** A non-arithmetic item is never verified locally. */
  lemma NonArithmeticPending(r: Row, eval: string -> Option<Num>)
    requires r.kind != "arithmetic"
    ensures !LocallyVerifiable(r, eval)
  {
  }
}

=== FILE: math_validation.dfy ===
/**
 * The math script's strict validator for a model-generated batch: every
 * problem it finds, in the order it reports them. The batch is accepted only
 * when the list is empty.
 */
module MathValidation {
  import opened Wrappers
  import opened Text
  import opened Json
  import BatchCheck

  datatype Problem =
    | NotAnObject
    | PromptTooShort
    | SolutionMissing
    | NumericNotNumber
    | EquationNotString
    | UnknownType
    | UnknownDifficulty
    | DifficultyMismatch
    | ArithmeticDisallowedCharacters
    | ArithmeticHasLetters
    | AlgebraWithoutVariable
    | AlgebraTooLong

  type Violation = BatchCheck.Violation<Problem>

  predicate IsType(t: string) {
    t == "arithmetic" || t == "algebra" || t == "word"
  }

  predicate IsDifficulty(d: string) {
    d == "easy" || d == "medium" || d == "hard"
  }

  /** One character of the class `[0-9+\-*\/().=\s^]`. */
  predicate ArithmeticChar(c: char) {
    IsDigit(c) || c in "+-*/().=^" || IsSpace(c)
  }

  /** The whole prompt matches `^[0-9+\-*\/().=\s^]+$`. */
  predicate ArithmeticExpression(p: string) {
    |p| > 0 && forall i :: 0 <= i < |p| ==> ArithmeticChar(p[i])
  }

  /** The fields the validator reads from one item, already coerced. */
  datatype Fields = Fields(
    prompt: string, solution: string, numeric: Option<Json>, equation: Option<Json>,
    kind: string, difficulty: string)

  function ReadFields(it: Json): Fields {
    Fields(
      TrimmedString(Get(it, "prompt")),
      TrimmedString(Get(it, "solution")),
      Get(it, "numeric_answer"),
      Coalesce(Get(it, "equation_answer"), Get(it, "equasion_answer")),
      TrimmedString(Get(it, "type")),
      TrimmedString(Get(it, "difficulty")))
  }

  function Flag(failed: bool, p: Problem): seq<Problem> {
    if failed then [p] else []
  }

  /** Presence and shape of the fields, in reporting order. */
  function FieldProblems(f: Fields): seq<Problem> {
    Flag(JsLength(f.prompt) < 5, PromptTooShort)
    + Flag(|f.solution| == 0, SolutionMissing)
    + Flag(!IsNullish(f.numeric) && !f.numeric.value.JNum?, NumericNotNumber)
    + Flag(!IsNullish(f.equation) && !f.equation.value.JStr?, EquationNotString)
  }

  /** Type and difficulty checks, then the extra checks for arithmetic and algebra prompts. */
  function KindProblems(f: Fields, requested: string): seq<Problem> {
    Flag(!IsType(f.kind), UnknownType)
    + (if !IsDifficulty(f.difficulty) then [UnknownDifficulty]
       else Flag(f.difficulty != requested, DifficultyMismatch))
    + (if f.kind == "arithmetic" then
         Flag(!ArithmeticExpression(f.prompt), ArithmeticDisallowedCharacters)
         + Flag(HasAsciiLetter(f.prompt), ArithmeticHasLetters)
       else [])
    + (if f.kind == "algebra" then
         Flag(!HasAsciiLetter(f.prompt), AlgebraWithoutVariable)
         + Flag('\n' in f.prompt || JsLength(f.prompt) > 200, AlgebraTooLong)
       else [])
  }

  /** The problems reported for one item, in reporting order; a falsy item stops at the first. */
  function ItemProblems(it: Json, requested: string): seq<Problem> {
    if !Truthy(Some(it)) then [NotAnObject]
    else
      var f := ReadFields(it);
      FieldProblems(f) + KindProblems(f, requested)
  }

  predicate FieldsWellFormed(f: Fields) {
    && JsLength(f.prompt) >= 5
    && |f.solution| > 0
    && (IsNullish(f.numeric) || f.numeric.value.JNum?)
    && (IsNullish(f.equation) || f.equation.value.JStr?)
  }

  predicate KindConforms(f: Fields, requested: string) {
    && IsType(f.kind)
    && IsDifficulty(requested) && f.difficulty == requested
    && (f.kind == "arithmetic" ==> ArithmeticExpression(f.prompt) && !HasAsciiLetter(f.prompt))
    && (f.kind == "algebra" ==> HasAsciiLetter(f.prompt) && '\n' !in f.prompt && JsLength(f.prompt) <= 200)
  }

  /**
   * What an acceptable item is, stated field by field: an object-like value
   * whose prompt has at least five UTF-16 units after trimming, with a
   * solution, an optional numeric answer that is a number, an optional
   * equation that is a string, a known type, the requested (known)
   * difficulty, and a prompt that fits its type.
   */
  predicate ItemConforms(it: Json, requested: string) {
    Truthy(Some(it)) && FieldsWellFormed(ReadFields(it)) && KindConforms(ReadFields(it), requested)
  }

  lemma FieldProblemsEmpty(f: Fields)
    ensures |FieldProblems(f)| == 0 <==> FieldsWellFormed(f)
  {
  }

  lemma KindProblemsEmpty(f: Fields, requested: string)
    ensures |KindProblems(f, requested)| == 0 <==> KindConforms(f, requested)
  {
  }

  /** An item is reported clean exactly when it conforms. */
  lemma ItemProblemsEmpty(it: Json, requested: string)
    ensures |ItemProblems(it, requested)| == 0 <==> ItemConforms(it, requested)
  {
    if Truthy(Some(it)) {
      FieldProblemsEmpty(ReadFields(it));
      KindProblemsEmpty(ReadFields(it), requested);
    }
  }

  /** One item's problems, as the validator's per-item check. */
  function ProblemsOf(requested: string): Json -> seq<Problem> {
    it => ItemProblems(it, requested)
  }

  /** `validateGeneratedItems(arr, requestedCount, requestedDifficulty)` */
  function Validate(v: Json, count: int, requested: string): seq<Violation> {
    BatchCheck.Validate(v, count, ProblemsOf(requested))
  }

  /** The batch is accepted exactly when it is an array of the requested length whose every item conforms. */
  lemma ValidateAccepts(v: Json, count: int, requested: string)
    ensures |Validate(v, count, requested)| == 0
      <==> v.JArr? && |v.items| == count && forall i :: 0 <= i < |v.items| ==> ItemConforms(v.items[i], requested)
  {
    BatchCheck.ValidateAccepts(v, count, ProblemsOf(requested));
    if v.JArr? {
      forall i | 0 <= i < |v.items|
        ensures |ProblemsOf(requested)(v.items[i])| == 0 <==> ItemConforms(v.items[i], requested)
      {
        ItemProblemsEmpty(v.items[i], requested);
      }
    }
  }

  /** A requested difficulty outside easy/medium/hard rejects every non-empty batch. */
  lemma UnknownDifficultyRejects(v: Json, count: int, requested: string)
    requires !IsDifficulty(requested)
    requires v.JArr? && |v.items| > 0
    ensures |Validate(v, count, requested)| > 0
  {
    ValidateAccepts(v, count, requested);
    assert !ItemConforms(v.items[0], requested);
  }
}

=== FILE: migrate.dfy ===
/**
 * The Notion-to-SQLite migration of function problems: reading typed page
 * properties, following the query cursor, and upserting each batch of
 * problems in one transaction into a table with CHECK constraints.
 */
module Migrate {
  import opened Wrappers

  /** `{ plain_text }` of a title or rich-text array. */
  datatype RichText = RichText(plainText: string)

  /** `NotionProperty`; `select` holds `select.name` when a select is present. */
  datatype Property = Property(kind: string, title: Option<seq<RichText>>, richText: Option<seq<RichText>>, select: Option<string>)

  /** A query result; `properties` is `None` for results without that key. */
  datatype Page = Page(id: string, properties: Option<map<string, Property>>)

  datatype Response = Response(results: seq<Page>, nextCursor: Option<string>)

  /** `NewFunctionsProblem`: `None` is SQL `NULL`. */
  datatype Problem = Problem(
    id: string,
    problemStatement: Option<string>,
    answer: Option<string>,
    difficulty: Option<string>,
    explanation: Option<string>,
    topic: Option<string>)

  /** `items.map(t => t.plain_text).join('')` */
  function Concat(items: seq<RichText>): string {
    if |items| == 0 then "" else items[0].plainText + Concat(items[1..])
  }

  /** Joining is compositional: the text of two runs is the two texts in order. */
  lemma {:induction false} ConcatAppend(a: seq<RichText>, b: seq<RichText>)
    ensures Concat(a + b) == Concat(a) + Concat(b)
  {
    if |a| > 0 {
      assert (a + b)[1..] == a[1..] + b;
      ConcatAppend(a[1..], b);
      assert Concat(a + b) == a[0].plainText + Concat(a[1..] + b);
    } else {
      assert a + b == b;
    }
  }

  /**
   * `extractText`: a `title` property with a title array, or a `rich_text`
   * property with a rich-text array, gives the joined text; anything else
   * (including an absent property) gives `null`.
   */
  function ExtractText(p: Option<Property>): (r: Option<string>)
    ensures p.None? ==> r.None?
    ensures r.Some? <==> p.Some? && ((p.value.kind == "title" && p.value.title.Some?) || (p.value.kind == "rich_text" && p.value.richText.Some?))
    ensures r.Some? && p.value.kind == "title" ==> r.value == Concat(p.value.title.value)
    ensures r.Some? && p.value.kind == "rich_text" ==> r.value == Concat(p.value.richText.value)
  {
    if p.None? then None
    else if p.value.kind == "title" && p.value.title.Some? then Some(Concat(p.value.title.value))
    else if p.value.kind == "rich_text" && p.value.richText.Some? then Some(Concat(p.value.richText.value))
    else None
  }

  /** `extractSelect`: the select's name, or `null` without a property or a select. */
  function ExtractSelect(p: Option<Property>): (r: Option<string>)
    ensures r.Some? <==> p.Some? && p.value.select.Some?
    ensures r.Some? ==> r.value == p.value.select.value
  {
    if p.None? then None else p.value.select
  }

  /** `properties[name]`, `undefined` when absent. */
  function Prop(props: map<string, Property>, name: string): Option<Property> {
    if name in props then Some(props[name]) else None
  }

  const StatementKey := "Problem Statement"
  const AnswerKey := "Answer"
  const DifficultyKey := "Difficulty"
  const ExplanationKey := "Explanation"
  const TopicKey := "Topic"

  /** `extractProblemData`: the page id and one field per fixed property name. */
  function ExtractProblemData(id: string, props: map<string, Property>): (r: Problem)
    ensures r.id == id
    ensures r.problemStatement == ExtractText(Prop(props, StatementKey))
    ensures r.answer == ExtractText(Prop(props, AnswerKey))
    ensures r.difficulty == ExtractSelect(Prop(props, DifficultyKey))
    ensures r.explanation == ExtractText(Prop(props, ExplanationKey))
    ensures r.topic == ExtractSelect(Prop(props, TopicKey))
  {
    Problem(
      id,
      ExtractText(Prop(props, StatementKey)),
      ExtractText(Prop(props, AnswerKey)),
      ExtractSelect(Prop(props, DifficultyKey)),
      ExtractText(Prop(props, ExplanationKey)),
      ExtractSelect(Prop(props, TopicKey)))
  }

  /** A field reads only its own property: changing any other property leaves it alone. */
  lemma FieldsReadOwnProperty(id: string, props: map<string, Property>, other: string, p: Property)
    requires other != StatementKey && other != AnswerKey && other != DifficultyKey
    requires other != ExplanationKey && other != TopicKey
    ensures ExtractProblemData(id, props[other := p]) == ExtractProblemData(id, props)
  {
    var props2 := props[other := p];
    assert Prop(props2, StatementKey) == Prop(props, StatementKey);
    assert Prop(props2, AnswerKey) == Prop(props, AnswerKey);
    assert Prop(props2, DifficultyKey) == Prop(props, DifficultyKey);
    assert Prop(props2, ExplanationKey) == Prop(props, ExplanationKey);
    assert Prop(props2, TopicKey) == Prop(props, TopicKey);
  }

  /** The `'properties' in page` filter followed by `extractProblemData`, in order. */
  function Kept(pages: seq<Page>): (r: seq<Problem>)
    ensures |r| <= |pages|
    ensures (forall i :: 0 <= i < |pages| ==> pages[i].properties.None?) ==> r == []
    ensures (forall i :: 0 <= i < |pages| ==> pages[i].properties.Some?) ==>
      |r| == |pages| && forall k :: 0 <= k < |r| ==> r[k] == ExtractProblemData(pages[k].id, pages[k].properties.value)
  {
    if |pages| == 0 then []
    else
      var rest := Kept(pages[1..]);
      assert forall k :: 1 <= k < |pages| ==> pages[k] == pages[1..][k - 1];
      match pages[0].properties
      case None => rest
      case Some(props) => [ExtractProblemData(pages[0].id, props)] + rest
  }

  /** Filtering distributes over concatenation of result pages. */
  lemma {:induction false} KeptAppend(a: seq<Page>, b: seq<Page>)
    ensures Kept(a + b) == Kept(a) + Kept(b)
  {
    if |a| > 0 {
      assert (a + b)[1..] == a[1..] + b;
      assert (a + b)[0] == a[0];
      KeptAppend(a[1..], b);
    } else {
      assert a + b == b;
    }
  }

  /** The CHECK constraint on `difficulty`. */
  const Difficulties: set<string> := {"Easy", "Medium", "Hard"}

  /** The CHECK constraint on `topic`. */
  const Topics: set<string> := {
    "Domain and Range", "Zeros and Intercepts", "Max/Min Values", "Increasing/Decreasing", "End Behavior",
    "Transformations", "Symmetry", "Asymptotes", "Continuity", "Vertex"}

  /** A row the table accepts: each checked column is `NULL` or one of its allowed values. */
  predicate RowAllowed(p: Problem) {
    && (p.difficulty.None? || p.difficulty.value in Difficulties)
    && (p.topic.None? || p.topic.value in Topics)
  }

  function Ids(batch: seq<Problem>): (r: seq<string>)
    ensures |r| == |batch| && forall k :: 0 <= k < |batch| ==> r[k] == batch[k].id
  {
    seq(|batch|, k requires 0 <= k < |batch| => batch[k].id)
  }

  /** `INSERT OR REPLACE` of each row in order, keyed by the primary key `id`. */
  function Upsert(table: map<string, Problem>, batch: seq<Problem>): map<string, Problem>
    decreases |batch|
  {
    if |batch| == 0 then table else Upsert(table[batch[0].id := batch[0]], batch[1..])
  }

  /** The upsert adds exactly the batch's ids. */
  lemma {:induction false} UpsertDomain(table: map<string, Problem>, batch: seq<Problem>)
    ensures forall id :: id in Upsert(table, batch) <==> id in table || id in Ids(batch)
    decreases |batch|
  {
    if |batch| > 0 {
      UpsertDomain(table[batch[0].id := batch[0]], batch[1..]);
      assert Ids(batch) == [batch[0].id] + Ids(batch[1..]);
    }
  }

  /** Ids absent from the batch keep their rows. */
  lemma {:induction false} UpsertKeepsOthers(table: map<string, Problem>, batch: seq<Problem>, id: string)
    requires id in table && id !in Ids(batch)
    ensures id in Upsert(table, batch) && Upsert(table, batch)[id] == table[id]
    decreases |batch|
  {
    if |batch| > 0 {
      assert Ids(batch) == [batch[0].id] + Ids(batch[1..]);
      UpsertKeepsOthers(table[batch[0].id := batch[0]], batch[1..], id);
    }
  }

  /** Each id of the batch holds its last occurrence. */
  lemma {:induction false} UpsertLastWins(table: map<string, Problem>, batch: seq<Problem>, k: nat)
    requires k < |batch|
    requires forall j :: k < j < |batch| ==> batch[j].id != batch[k].id
    ensures batch[k].id in Upsert(table, batch) && Upsert(table, batch)[batch[k].id] == batch[k]
    decreases |batch|
  {
    var t1 := table[batch[0].id := batch[0]];
    if k == 0 {
      assert batch[0].id !in Ids(batch[1..]);
      UpsertKeepsOthers(t1, batch[1..], batch[0].id);
    } else {
      assert forall j :: k - 1 < j < |batch[1..]| ==> batch[1..][j] == batch[j + 1];
      UpsertLastWins(t1, batch[1..], k - 1);
    }
  }

  /** Two batches in a row upsert like their concatenation. */
  lemma {:induction false} UpsertAppend(table: map<string, Problem>, a: seq<Problem>, b: seq<Problem>)
    ensures Upsert(table, a + b) == Upsert(Upsert(table, a), b)
    decreases |a|
  {
    if |a| > 0 {
      assert (a + b)[0] == a[0];
      assert (a + b)[1..] == a[1..] + b;
      UpsertAppend(table[a[0].id := a[0]], a[1..], b);
      assert Upsert(table, a + b) == Upsert(table[a[0].id := a[0]], a[1..] + b);
    } else {
      assert a + b == b;
    }
  }

  /**
   * `insertProblems`: one transaction. A row that violates a CHECK aborts
   * the statement and the transaction commits nothing (`None`).
   */
  function InsertProblems(table: map<string, Problem>, batch: seq<Problem>): (r: Option<map<string, Problem>>)
    ensures r.None? <==> exists k :: 0 <= k < |batch| && !RowAllowed(batch[k])
    ensures r.Some? ==> r.value == Upsert(table, batch)
  {
    if forall k :: 0 <= k < |batch| ==> RowAllowed(batch[k]) then Some(Upsert(table, batch)) else None
  }

  /** `response.next_cursor || undefined`: `null` and the empty string both end the loop. */
  function NextCursor(resp: Response): (r: Option<string>)
    ensures r.Some? <==> resp.nextCursor.Some? && resp.nextCursor.value != ""
    ensures r.Some? ==> r == resp.nextCursor
  {
    if resp.nextCursor.Some? && resp.nextCursor.value != "" then resp.nextCursor else None
  }

  /** How the cursor loop ended: no further cursor, an exception (query or insert), or the fuel bound. */
  datatype Status = Finished | Failed | OutOfFuel

  /**
   * The loop's trace: the cursors queried in order, the problems committed
   * in order, `totalCount`, and the table afterwards.
   */
  datatype Migration = Migration(status: Status, queried: seq<Option<string>>, inserted: seq<Problem>, total: nat, table: map<string, Problem>)

  /** Each queried cursor after the first is the previous response's next cursor. */
  predicate Chained(query: Option<string> -> Option<Response>, cursors: seq<Option<string>>) {
    |cursors| <= 1 ||
    (&& query(cursors[0]).Some?
     && cursors[1].Some?
     && NextCursor(query(cursors[0]).value) == cursors[1]
     && Chained(query, cursors[1..]))
  }

  /** The problems kept from each queried response, concatenated. */
  function KeptAlong(query: Option<string> -> Option<Response>, cursors: seq<Option<string>>): seq<Problem> {
    if |cursors| == 0 then []
    else
      (match query(cursors[0]) case None => [] case Some(resp) => Kept(resp.results)) + KeptAlong(query, cursors[1..])
  }

  /**
   * What a run of the cursor loop from `cursor` over `table` promises: it
   * starts at `cursor`, each later query uses the previous response's next
   * cursor, finishing means the last response had none and everything kept
   * was inserted, failing means the last query or its batch failed after
   * every earlier page was committed, running out of fuel means every
   * queried page was committed and the last one named a next cursor, and
   * the table is the upsert of the inserted rows, which the total counts.
   */
  predicate RunFacts(query: Option<string> -> Option<Response>, cursor: Option<string>, table: map<string, Problem>, r: Migration) {
    && (|r.queried| >= 1 ==> r.queried[0] == cursor)
    && Chained(query, r.queried)
    && (r.status == Finished ==>
         (&& |r.queried| >= 1
          && query(r.queried[|r.queried| - 1]).Some?
          && NextCursor(query(r.queried[|r.queried| - 1]).value).None?
          && r.inserted == KeptAlong(query, r.queried)))
    && (r.status == Failed ==>
         (&& |r.queried| >= 1
          && (|| query(r.queried[|r.queried| - 1]).None?
              || InsertProblems(Upsert(table, r.inserted), Kept(query(r.queried[|r.queried| - 1]).value.results)).None?)
          && r.inserted == KeptAlong(query, r.queried[..|r.queried| - 1])))
    && (r.status == OutOfFuel ==>
         (&& r.inserted == KeptAlong(query, r.queried)
          && (|r.queried| >= 1 ==>
               && query(r.queried[|r.queried| - 1]).Some?
               && NextCursor(query(r.queried[|r.queried| - 1]).value).Some?)))
    && r.total == |r.inserted|
    && r.table == Upsert(table, r.inserted)
  }

  /** One committed page followed by the rest of the run. */
  function Prepend(cursor: Option<string>, problems: seq<Problem>, rest: Migration): Migration {
    Migration(rest.status, [cursor] + rest.queried, problems + rest.inserted, |problems| + rest.total, rest.table)
  }

  /** Querying `cursor` and then following its next cursor keeps the chain. */
  lemma ChainedCons(query: Option<string> -> Option<Response>, cursor: Option<string>, next: string, q: seq<Option<string>>)
    requires query(cursor).Some? && NextCursor(query(cursor).value) == Some(next)
    requires |q| >= 1 ==> q[0] == Some(next)
    requires Chained(query, q)
    ensures Chained(query, [cursor] + q)
  {
    assert ([cursor] + q)[1..] == q;
  }

  lemma KeptAlongCons(query: Option<string> -> Option<Response>, cursor: Option<string>, q: seq<Option<string>>)
    requires query(cursor).Some?
    ensures KeptAlong(query, [cursor] + q) == Kept(query(cursor).value.results) + KeptAlong(query, q)
  {
    assert ([cursor] + q)[1..] == q;
  }

  /** A committed page with a next cursor, followed by a run from that cursor, is a run. */
  lemma PrependFacts(query: Option<string> -> Option<Response>, cursor: Option<string>, resp: Response,
                     next: string, table: map<string, Problem>, rest: Migration)
    requires query(cursor) == Some(resp) && NextCursor(resp) == Some(next)
    requires InsertProblems(table, Kept(resp.results)).Some?
    requires RunFacts(query, Some(next), Upsert(table, Kept(resp.results)), rest)
    ensures RunFacts(query, cursor, table, Prepend(cursor, Kept(resp.results), rest))
  {
    var problems := Kept(resp.results);
    var q := [cursor] + rest.queried;
    var m := Prepend(cursor, problems, rest);
    ChainedCons(query, cursor, next, rest.queried);
    UpsertAppend(table, problems, rest.inserted);
    assert m.table == Upsert(table, m.inserted);
    if |rest.queried| >= 1 {
      assert q[|q| - 1] == rest.queried[|rest.queried| - 1];
    }
    KeptAlongCons(query, cursor, rest.queried);
    if rest.status == Failed {
      FailedPrefix(query, cursor, rest.queried);
    }
  }

  /** The pages before a failing last query, with one committed page in front. */
  lemma FailedPrefix(query: Option<string> -> Option<Response>, cursor: Option<string>, q: seq<Option<string>>)
    requires query(cursor).Some? && |q| >= 1
    ensures KeptAlong(query, ([cursor] + q)[..|q|]) == Kept(query(cursor).value.results) + KeptAlong(query, q[..|q| - 1])
  {
    assert ([cursor] + q)[..|q|] == [cursor] + q[..|q| - 1];
    KeptAlongCons(query, cursor, q[..|q| - 1]);
  }

  /**
   * `migrateProblems` from `cursor` on. `query` is the Notion client
   * (`None` when the request throws); `fuel` bounds the number of requests.
   */
  function MigrateFrom(query: Option<string> -> Option<Response>, cursor: Option<string>, table: map<string, Problem>, fuel: nat): (r: Migration)
    ensures fuel > 0 ==> |r.queried| >= 1
    ensures RunFacts(query, cursor, table, r)
    // One request per unit of fuel, and the bound stops the loop only once it is used up.
    ensures |r.queried| <= fuel
    ensures r.status == OutOfFuel ==> |r.queried| == fuel
    decreases fuel
  {
    if fuel == 0 then Migration(OutOfFuel, [], [], 0, table)
    else match query(cursor)
      case None => Migration(Failed, [cursor], [], 0, table)
      case Some(resp) =>
        var problems := Kept(resp.results);
        match InsertProblems(table, problems)
        case None => Migration(Failed, [cursor], [], 0, table)
        case Some(table1) =>
          match NextCursor(resp)
          case None => Migration(Finished, [cursor], problems, |problems|, table1)
          case Some(next) =>
            var rest := MigrateFrom(query, Some(next), table1, fuel - 1);
            PrependFacts(query, cursor, resp, next, table, rest);
            Prepend(cursor, problems, rest)
  }

  /** The loop starts with an undefined cursor. */
  function MigrateProblems(query: Option<string> -> Option<Response>, table: map<string, Problem>, fuel: nat): (r: Migration)
    ensures fuel > 0 ==> |r.queried| >= 1 && r.queried[0].None?
    ensures r.table == Upsert(table, r.inserted) && r.total == |r.inserted|
    ensures RunFacts(query, None, table, r)
    ensures |r.queried| <= fuel
    ensures r.status == OutOfFuel ==> |r.queried| == fuel
  {
    MigrateFrom(query, None, table, fuel)
  }

  /** A batch with one disallowed difficulty commits none of its rows. */
  lemma BadDifficultyAbortsBatch(table: map<string, Problem>, batch: seq<Problem>, k: nat)
    requires k < |batch| && batch[k].difficulty == Some("easy")
    ensures InsertProblems(table, batch).None?
  {
    assert !RowAllowed(batch[k]);
  }
}

=== FILE: naming.dfy ===
/**
 * Topic names and the table names derived from them. The sanitiser is the
 * only thing that keeps interpolated SQL table names inside `[a-z0-9_]`.
 */
module Naming {
  import opened Text

  /** A character of `[a-z0-9_]`. */
  predicate NameChar(c: char) {
    ('a' <= c <= 'z') || IsDigit(c) || c == '_'
  }

  /** What the sanitiser promises of its output. */
  predicate CleanName(s: string) {
    && |s| > 0
    && (forall i :: 0 <= i < |s| ==> NameChar(s[i]))
    && s[0] != '_' && s[|s| - 1] != '_'
  }

  /** Drops a leading run of characters outside `[a-z0-9_]`. */
  function DropDisallowed(s: string): (r: string)
    ensures |r| <= |s| && r == s[|s| - |r|..]
    ensures |r| > 0 ==> NameChar(r[0])
  {
    if |s| > 0 && !NameChar(s[0]) then DropDisallowed(s[1..]) else s
  }

  /** `replace(/[^a-z0-9_]+/g, '_')`: each maximal run of other characters becomes one `_`. */
  function CollapseDisallowed(s: string): (r: string)
    ensures forall i :: 0 <= i < |r| ==> NameChar(r[i])
    decreases |s|
  {
    if |s| == 0 then ""
    else if NameChar(s[0]) then [s[0]] + CollapseDisallowed(s[1..])
    else "_" + CollapseDisallowed(DropDisallowed(s[1..]))
  }

  function StripLeadingUnderscores(s: string): (r: string)
    ensures |r| <= |s| && r == s[|s| - |r|..]
    ensures |r| > 0 ==> r[0] != '_'
  {
    if |s| > 0 && s[0] == '_' then StripLeadingUnderscores(s[1..]) else s
  }

  function StripTrailingUnderscores(s: string): (r: string)
    ensures |r| <= |s| && r == s[..|r|]
    ensures |r| > 0 ==> r[|r| - 1] != '_'
  {
    if |s| > 0 && s[|s| - 1] == '_' then StripTrailingUnderscores(s[..|s| - 1]) else s
  }

  /** `replace(/^_+|_+$/g, '')` */
  function StripUnderscores(s: string): (r: string)
    ensures (forall i :: 0 <= i < |s| ==> NameChar(s[i])) ==> forall i :: 0 <= i < |r| ==> NameChar(r[i])
    ensures |r| > 0 ==> r[0] != '_' && r[|r| - 1] != '_'
  {
    var a := StripLeadingUnderscores(s);
    assert forall i :: 0 <= i < |a| ==> a[i] == s[|s| - |a| + i];
    var b := StripTrailingUnderscores(a);
    assert forall i :: 0 <= i < |b| ==> b[i] == a[i];
    b
  }

  /** `s.trim().toLowerCase().replace(...).replace(...) || fallback` */
  function Sanitize(s: string, fallback: string): (r: string)
    requires CleanName(fallback)
    ensures CleanName(r)
  {
    var core := StripUnderscores(CollapseDisallowed(ToLowerAscii(Trim(s))));
    if |core| == 0 then fallback else core
  }

  lemma {:induction false} CollapseKeepsNames(s: string)
    requires forall i :: 0 <= i < |s| ==> NameChar(s[i])
    ensures CollapseDisallowed(s) == s
  {
    if |s| > 0 {
      CollapseKeepsNames(s[1..]);
    }
  }

  /** A clean name has no leading or trailing underscores to strip. */
  lemma StripKeepsClean(s: string)
    requires CleanName(s)
    ensures StripUnderscores(s) == s
  {
  }

  /** A clean name is already lower case. */
  lemma LowerKeepsClean(s: string)
    requires CleanName(s)
    ensures ToLowerAscii(s) == s
  {
    assert forall i :: 0 <= i < |s| ==> ToLowerAscii(s)[i] == s[i];
  }

  /** A clean name is its own sanitised form. */
  lemma CleanIsFixed(s: string, fallback: string)
    requires CleanName(s) && CleanName(fallback)
    ensures Sanitize(s, fallback) == s
  {
    assert !IsSpace(s[0]) && !IsSpace(s[|s| - 1]);
    TrimFixed(s);
    LowerKeepsClean(s);
    CollapseKeepsNames(s);
    StripKeepsClean(s);
    assert StripUnderscores(CollapseDisallowed(ToLowerAscii(Trim(s)))) == s;
  }

  /** Sanitising is idempotent. */
  lemma SanitizeIdempotent(s: string, fallback: string)
    requires CleanName(fallback)
    ensures Sanitize(Sanitize(s, fallback), fallback) == Sanitize(s, fallback)
  {
    CleanIsFixed(Sanitize(s, fallback), fallback);
  }

  /** A character of `[a-z0-9]`: what the sanitiser keeps that is not a separator. */
  predicate Alnum(c: char) {
    ('a' <= c <= 'z') || IsDigit(c)
  }

  predicate HasAlnum(s: string) {
    exists i :: 0 <= i < |s| && Alnum(s[i])
  }

  lemma HasAlnumCons(c: char, s: string)
    ensures HasAlnum([c] + s) <==> Alnum(c) || HasAlnum(s)
  {
    var t := [c] + s;
    assert forall i :: 0 <= i < |s| ==> t[i + 1] == s[i];
    if HasAlnum(t) && !Alnum(c) {
      var i :| 0 <= i < |t| && Alnum(t[i]);
      assert i > 0 && Alnum(s[i - 1]);
    }
    if HasAlnum(s) {
      var i :| 0 <= i < |s| && Alnum(s[i]);
      assert Alnum(t[i + 1]);
    }
    if Alnum(c) {
      assert Alnum(t[0]);
    }
  }

  /** The dropped run holds no letter or digit. */
  lemma {:induction false} DropKeepsAlnum(s: string)
    ensures HasAlnum(DropDisallowed(s)) <==> HasAlnum(s)
    decreases |s|
  {
    if |s| > 0 && !NameChar(s[0]) {
      DropKeepsAlnum(s[1..]);
      HasAlnumCons(s[0], s[1..]);
      assert [s[0]] + s[1..] == s;
    }
  }

  /** Collapsing separators keeps every letter and digit and adds none. */
  lemma {:induction false} CollapseKeepsAlnum(s: string)
    ensures HasAlnum(CollapseDisallowed(s)) <==> HasAlnum(s)
    decreases |s|
  {
    if |s| > 0 {
      HasAlnumCons(s[0], s[1..]);
      assert [s[0]] + s[1..] == s;
      if NameChar(s[0]) {
        CollapseKeepsAlnum(s[1..]);
        HasAlnumCons(s[0], CollapseDisallowed(s[1..]));
      } else {
        DropKeepsAlnum(s[1..]);
        CollapseKeepsAlnum(DropDisallowed(s[1..]));
        HasAlnumCons('_', CollapseDisallowed(DropDisallowed(s[1..])));
      }
    }
  }

  /** Only a string of underscores loses everything to the leading strip. */
  lemma {:induction false} StripLeadingEmpty(s: string)
    requires |StripLeadingUnderscores(s)| == 0
    ensures forall i :: 0 <= i < |s| ==> s[i] == '_'
    decreases |s|
  {
    if |s| > 0 {
      StripLeadingEmpty(s[1..]);
      assert forall i :: 1 <= i < |s| ==> s[i] == s[1..][i - 1];
    }
  }

  /** The trailing strip stops at a first character that is not `_`. */
  lemma {:induction false} StripTrailingKeepsHead(s: string)
    requires |s| > 0 && s[0] != '_'
    ensures |StripTrailingUnderscores(s)| > 0
    decreases |s|
  {
    if s[|s| - 1] == '_' {
      StripTrailingKeepsHead(s[..|s| - 1]);
    }
  }

  /** Stripping edge underscores from allowed characters leaves nothing exactly when there is no letter or digit. */
  lemma StripEmptyIffNoAlnum(u: string)
    requires forall i :: 0 <= i < |u| ==> NameChar(u[i])
    ensures |StripUnderscores(u)| == 0 <==> !HasAlnum(u)
  {
    var a := StripLeadingUnderscores(u);
    if HasAlnum(u) {
      if |a| == 0 {
        StripLeadingEmpty(u);
        assert false;
      }
      StripTrailingKeepsHead(a);
    }
  }

  /**
   * The fallback is taken exactly when the trimmed, lower-cased topic has no
   * letter or digit; otherwise the fallback plays no part in the result.
   */
  lemma SanitizeFallback(s: string, fallback: string, other: string)
    requires CleanName(fallback) && CleanName(other)
    ensures !HasAlnum(ToLowerAscii(Trim(s))) ==> Sanitize(s, fallback) == fallback
    ensures HasAlnum(ToLowerAscii(Trim(s))) ==> Sanitize(s, fallback) == Sanitize(s, other)
  {
    var t := ToLowerAscii(Trim(s));
    CollapseKeepsAlnum(t);
    StripEmptyIffNoAlnum(CollapseDisallowed(t));
  }

  /** Every problem table's name starts with this. */
  const TablePrefix: string := "problems_"

  const MathFallback: string := "math"
  const GraphFallback: string := "graphs"

  /** The math script's topic key, also its `topics` entry. */
  function MathTopic(topic: string): (r: string)
    ensures CleanName(r)
  {
    Sanitize(topic, MathFallback)
  }

  function GraphTopic(topic: string): (r: string)
    ensures CleanName(r)
  {
    Sanitize(topic, GraphFallback)
  }

  /** Table and `topics` entry the math script writes: the table is `problems_` + entry. */
  function MathNames(topic: string): (r: (string, string))
    ensures r.0 == "problems_" + r.1
    ensures CleanName(r.1) && StartsWith(r.0, "problems_")
    ensures r.1 == MathTopic(topic)
  {
    var entry := MathTopic(topic);
    ("problems_" + entry, entry)
  }

  lemma GraphPrefix(s: string)
    ensures "problems_graph_" + s == "problems_" + ("graph_" + s)
  {
    assert "problems_graph_" == "problems_" + "graph_";
  }

  /** Table and `topics` entry the graph script writes: `problems_graph_<s>` and `graph_<s>`. */
  function GraphNames(topic: string): (r: (string, string))
    ensures r.0 == "problems_" + r.1
    ensures StartsWith(r.1, "graph_")
    ensures |r.1| > 6 && CleanName(r.1[6..])
    ensures r.1 == "graph_" + GraphTopic(topic)
  {
    var s := GraphTopic(topic);
    var entry := "graph_" + s;
    assert entry[6..] == s;
    assert entry[..6] == "graph_";
    GraphPrefix(s);
    ("problems_graph_" + s, entry)
  }
}

=== FILE: orchestrator.dfy ===
/**
 * The generation loop shared by the two generator scripts: up to three
 * prompts of increasing strictness, each reply tried first as raw JSON and
 * then through the extractor, stopping at the first batch the validator
 * accepts. The model is an oracle: `call(prompt)` is `None` when the call
 * throws and otherwise the reply text (`res.text ?? ''`).
 */
module Orchestrator {
  import opened Wrappers
  import opened Text
  import opened Json
  import Extraction
  import MathValidation
  import GraphValidation

  /** `tryParseAndValidate(raw)`: the items of an accepted top-level array, else nothing. */
  function TryParseAndValidate(raw: string, parse: string -> Option<Json>, accept: Json -> bool): (r: Option<seq<Json>>)
    ensures r.Some? <==> parse(raw).Some? && parse(raw).value.JArr? && accept(parse(raw).value)
    ensures r.Some? ==> parse(raw) == Some(JArr(r.value))
  {
    match parse(raw)
    case None => None
    case Some(v) => if v.JArr? && accept(v) then Some(v.items) else None
  }

  /** One attempt on a reply: the trimmed text raw, then the extracted block if one is found. */
  function RunAttempt(reply: string, parse: string -> Option<Json>, accept: Json -> bool,
                      extract: string -> Option<string>): (r: Option<seq<Json>>)
    ensures r.Some? ==> accept(JArr(r.value))
    ensures r.Some? ==>
      (parse(Trim(reply)) == Some(JArr(r.value))
       || (extract(Trim(reply)).Some? && |extract(Trim(reply)).value| > 0
           && parse(extract(Trim(reply)).value) == Some(JArr(r.value))))
    ensures TryParseAndValidate(Trim(reply), parse, accept).Some? ==> r == TryParseAndValidate(Trim(reply), parse, accept)
    // A reply that is not itself an accepted array falls back to the extracted block, and to nothing without one.
    ensures TryParseAndValidate(Trim(reply), parse, accept).None? ==>
      r == (if extract(Trim(reply)).Some? && |extract(Trim(reply)).value| > 0
            then TryParseAndValidate(extract(Trim(reply)).value, parse, accept) else None)
  {
    var text := Trim(reply);
    var direct := TryParseAndValidate(text, parse, accept);
    if direct.Some? then direct
    else
      var block := extract(text);
      if block.Some? && |block.value| > 0 then TryParseAndValidate(block.value, parse, accept) else None
  }

  datatype Outcome = Generated(items: seq<Json>, attempt: nat) | Exhausted

  /** Whether attempt `k` yields a batch. */
  function AttemptResult(prompts: seq<string>, k: nat, call: string -> Option<string>, parse: string -> Option<Json>,
                         accept: Json -> bool, extract: string -> Option<string>): Option<seq<Json>>
    requires k < |prompts|
  {
    match call(prompts[k])
    case None => None
    case Some(reply) => RunAttempt(reply, parse, accept, extract)
  }

  /** What every attempt would yield, in order. */
  function Results(prompts: seq<string>, call: string -> Option<string>, parse: string -> Option<Json>,
                   accept: Json -> bool, extract: string -> Option<string>): (r: seq<Option<seq<Json>>>)
    ensures |r| == |prompts|
    ensures forall j :: 0 <= j < |prompts| ==> r[j] == AttemptResult(prompts, j, call, parse, accept, extract)
  {
    seq(|prompts|, j requires 0 <= j < |prompts| => AttemptResult(prompts, j, call, parse, accept, extract))
  }

  /** The attempt loop from attempt `k` on: the first attempt that yields a batch, or exhaustion. */
  function FirstSuccess(results: seq<Option<seq<Json>>>, k: nat): (r: Outcome)
    requires k <= |results|
    ensures r.Generated? ==>
      (&& k <= r.attempt < |results|
       && results[r.attempt] == Some(r.items)
       && forall j :: k <= j < r.attempt ==> results[j].None?)
    ensures r.Exhausted? <==> forall j :: k <= j < |results| ==> results[j].None?
    decreases |results| - k
  {
    if k == |results| then Exhausted
    else if results[k].Some? then Generated(results[k].value, k)
    else FirstSuccess(results, k + 1)
  }

  /**
   * The whole loop: the first attempt that yields a batch wins; only the
   * prompts up to it are sent. A generated batch is one the validator
   * accepted.
   */
  function Generate(prompts: seq<string>, call: string -> Option<string>, parse: string -> Option<Json>,
                    accept: Json -> bool, extract: string -> Option<string>): (r: Outcome)
    ensures r.Generated? ==>
      (&& r.attempt < |prompts| && accept(JArr(r.items))
       && call(prompts[r.attempt]).Some?
       && AttemptResult(prompts, r.attempt, call, parse, accept, extract) == Some(r.items)
       && forall j :: 0 <= j < r.attempt ==> AttemptResult(prompts, j, call, parse, accept, extract).None?)
    ensures r.Exhausted? <==> forall j :: 0 <= j < |prompts| ==> AttemptResult(prompts, j, call, parse, accept, extract).None?
  {
    var results := Results(prompts, call, parse, accept, extract);
    var r := FirstSuccess(results, 0);
    assert r.Generated? ==> AttemptResult(prompts, r.attempt, call, parse, accept, extract) == Some(r.items);
    r
  }

  /** A loop whose every model call throws ends exhausted. */
  lemma AllCallsFail(prompts: seq<string>, call: string -> Option<string>, parse: string -> Option<Json>,
                     accept: Json -> bool, extract: string -> Option<string>)
    requires forall j :: 0 <= j < |prompts| ==> call(prompts[j]).None?
    ensures Generate(prompts, call, parse, accept, extract) == Exhausted
  {
  }

  const DifficultyHeader := "\nDifficulty: "
  const StrictSuffix := "\nIMPORTANT: Output must be strictly valid JSON and nothing else. Respond with only JSON and nothing else."
  const FinalSuffix := "\nFINAL INSTRUCTION: Return ONLY a single JSON array and nothing else. Use exactly the schema from the example and do not include any text or formatting."
  const MathExample := " Example output:\n[{\n  \"prompt\": \"2 + 3\",\n  \"solution\": \"5\",\n  \"numeric_answer\": 5,\n  \"equation_answer\": null,\n  \"type\": \"arithmetic\",\n  \"difficulty\": \"easy\"\n}]"

  /** The three prompts: the base prompt with the difficulty line, then with a stricter and a final instruction. */
  function Attempts(base: string, difficulty: string, finalExtra: string): (r: seq<string>)
    ensures |r| == 3
    ensures forall k :: 0 <= k < 3 ==> StartsWith(r[k], base + DifficultyHeader + difficulty)
  {
    var head := base + DifficultyHeader + difficulty;
    [head, head + StrictSuffix, head + FinalSuffix + finalExtra]
  }

  /** The math generator's acceptance test: no violation for the requested count and difficulty. */
  function MathAccept(count: int, difficulty: string): Json -> bool {
    v => |MathValidation.Validate(v, count, difficulty)| == 0
  }

  function GraphAccept(count: int, difficulty: string): Json -> bool {
    v => |GraphValidation.Validate(v, count, difficulty)| == 0
  }

  /** `generateProblems(count, difficulty)`: math prompts, the full extractor, the math validator. */
  function GenerateMath(base: string, count: int, difficulty: string, call: string -> Option<string>,
                        parse: string -> Option<Json>): Outcome {
    Generate(Attempts(base, difficulty, MathExample), call, parse, MathAccept(count, difficulty), Extraction.ExtractJsonBlockGlobal)
  }

  /** `generateGraphProblems(count, difficulty)`: graph prompts, the array-only extractor, the graph validator. */
  function GenerateGraph(base: string, count: int, difficulty: string, call: string -> Option<string>,
                         parse: string -> Option<Json>): Outcome {
    Generate(Attempts(base, difficulty, ""), call, parse, GraphAccept(count, difficulty), Extraction.ExtractJsonBlock)
  }

  /** A generated math batch has exactly the requested number of items, each conforming. */
  lemma MathBatchConforms(base: string, count: int, difficulty: string, call: string -> Option<string>,
                          parse: string -> Option<Json>)
    requires GenerateMath(base, count, difficulty, call, parse).Generated?
    ensures var items := GenerateMath(base, count, difficulty, call, parse).items;
      |items| == count && forall i :: 0 <= i < |items| ==> MathValidation.ItemConforms(items[i], difficulty)
  {
    var items := GenerateMath(base, count, difficulty, call, parse).items;
    assert MathAccept(count, difficulty)(JArr(items));
    MathValidation.ValidateAccepts(JArr(items), count, difficulty);
  }

  /** A generated graph batch has exactly the requested number of items, each conforming. */
  lemma GraphBatchConforms(base: string, count: int, difficulty: string, call: string -> Option<string>,
                           parse: string -> Option<Json>)
    requires GenerateGraph(base, count, difficulty, call, parse).Generated?
    ensures var items := GenerateGraph(base, count, difficulty, call, parse).items;
      |items| == count && forall i :: 0 <= i < |items| ==> GraphValidation.ItemConforms(items[i], difficulty)
  {
    var items := GenerateGraph(base, count, difficulty, call, parse).items;
    assert GraphAccept(count, difficulty)(JArr(items));
    GraphValidation.ValidateAccepts(JArr(items), count, difficulty);
  }
}

=== FILE: recheck.dfy ===
/**
 * The recheck script: for every topic, the unverified rows of its table are
 * first checked locally (prompt before `=` evaluated against the first
 * number of the solution), and the rest may be sent to the model in
 * batches. The database writes are returned as a list of updates.
 */
module Recheck {
  import opened Wrappers
  import opened Text
  import opened JsNumber
  import opened Json
  import opened Expression
  import opened BatchVerify
  import Naming

  /**
   * `listTopics()`: the names in the `topics` table when there are any,
   * otherwise the discovered `problems_%` tables with the prefix removed.
   * `topicsTable` is `None` when reading the `topics` table throws.
   */
  function ListTopics(topicsTable: Option<seq<string>>, discovered: seq<string>): (r: seq<string>)
    ensures topicsTable.Some? && |topicsTable.value| > 0 ==> r == topicsTable.value
    ensures !(topicsTable.Some? && |topicsTable.value| > 0) ==>
      |r| == |discovered| && forall k :: 0 <= k < |r| ==> r[k] == StripPrefix(discovered[k], Naming.TablePrefix)
  {
    if topicsTable.Some? && |topicsTable.value| > 0 then topicsTable.value
    else seq(|discovered|, k requires 0 <= k < |discovered| => StripPrefix(discovered[k], Naming.TablePrefix))
  }

  /** `problems_${topic}` */
  function TableFor(topic: string): string {
    Naming.TablePrefix + topic
  }

  /** A topic recovered from a discovered table names that table again. */
  lemma ListedTopicsFindTheirTables(discovered: seq<string>, k: nat)
    requires k < |discovered| && StartsWith(discovered[k], Naming.TablePrefix)
    ensures TableFor(ListTopics(None, discovered)[k]) == discovered[k]
  {
  }

  /** The topics-index names written by both generators lead back to the tables they created. */
  lemma IndexNamesFindGeneratorTables(topic: string)
    ensures TableFor(Naming.MathNames(topic).1) == Naming.MathNames(topic).0
    ensures TableFor(Naming.GraphNames(topic).1) == Naming.GraphNames(topic).0
  {
  }

  /** An unverified row as read, with `String(r.prompt ?? '')` and `String(r.model_solution ?? '')` applied. */
  datatype StoredRow = StoredRow(id: int, prompt: string, solution: string)

  /** `UPDATE … SET verified = ?, verified_solution = ? WHERE id = ?` */
  datatype Update = Update(id: int, verified: bool, solution: Option<JsText>)

  /** Phase 1's test: the solution has a number and the prompt before `=` evaluates to within 1e-9 of it. */
  predicate AutoVerifiable(r: StoredRow, eval: string -> Option<Num>) {
    && FirstNumber(r.solution).Some?
    && SafeEvaluate(BeforeEquals(r.prompt), eval).Ok?
    && Close(SafeEvaluate(BeforeEquals(r.prompt), eval).value, FirstNumber(r.solution).value)
  }

  /** Phase 1's write: verified, with `String(numeric)` as the verified solution. */
  function AutoUpdate(r: StoredRow): Update {
    Update(r.id, true, match FirstNumber(r.solution) case Some(v) => Some(NumberText(v)) case None => None)
  }

  /**
   * The loop shape of phase 1: every index goes to exactly one side, in
   * order, according to its flag.
   */
  method Split(flags: seq<bool>) returns (yes: seq<nat>, no: seq<nat>)
    ensures forall j, k :: 0 <= j < k < |yes| ==> yes[j] < yes[k]
    ensures forall j, k :: 0 <= j < k < |no| ==> no[j] < no[k]
    ensures forall k :: 0 <= k < |yes| ==> yes[k] < |flags| && flags[yes[k]]
    ensures forall k :: 0 <= k < |no| ==> no[k] < |flags| && !flags[no[k]]
    ensures forall i :: 0 <= i < |flags| ==> i in yes || i in no
  {
    yes, no := [], [];
    var i := 0;
    while i < |flags|
      invariant 0 <= i <= |flags|
      invariant forall j, k :: 0 <= j < k < |yes| ==> yes[j] < yes[k]
      invariant forall j, k :: 0 <= j < k < |no| ==> no[j] < no[k]
      invariant forall k :: 0 <= k < |yes| ==> yes[k] < i && flags[yes[k]]
      invariant forall k :: 0 <= k < |no| ==> no[k] < i && !flags[no[k]]
      invariant forall j :: 0 <= j < i ==> j in yes || j in no
    {
      if flags[i] {
        yes := yes + [i];
      } else {
        no := no + [i];
      }
      i := i + 1;
    }
  }

  function RowIds(rows: seq<StoredRow>): (r: seq<int>)
    ensures |r| == |rows| && forall k :: 0 <= k < |rows| ==> r[k] == rows[k].id
  {
    seq(|rows|, k requires 0 <= k < |rows| => rows[k].id)
  }

  function UpdateIds(us: seq<Update>): (r: seq<int>)
    ensures |r| == |us| && forall k :: 0 <= k < |us| ==> r[k] == us[k].id
  {
    seq(|us|, k requires 0 <= k < |us| => us[k].id)
  }

  /** Phase 1: each row is verified locally (one update) or kept as remaining, exactly once and in order. */
  method LocalPass(rows: seq<StoredRow>, eval: string -> Option<Num>)
    returns (autoIdx: seq<nat>, updates: seq<Update>, remainingIdx: seq<nat>, remaining: seq<StoredRow>)
    ensures forall j, k :: 0 <= j < k < |autoIdx| ==> autoIdx[j] < autoIdx[k]
    ensures forall j, k :: 0 <= j < k < |remainingIdx| ==> remainingIdx[j] < remainingIdx[k]
    ensures forall k :: 0 <= k < |autoIdx| ==> autoIdx[k] < |rows| && AutoVerifiable(rows[autoIdx[k]], eval)
    ensures forall k :: 0 <= k < |remainingIdx| ==> remainingIdx[k] < |rows| && !AutoVerifiable(rows[remainingIdx[k]], eval)
    ensures forall i :: 0 <= i < |rows| ==> i in autoIdx || i in remainingIdx
    ensures |updates| == |autoIdx| && forall k :: 0 <= k < |updates| ==> updates[k] == AutoUpdate(rows[autoIdx[k]])
    ensures |remaining| == |remainingIdx| && forall k :: 0 <= k < |remaining| ==> remaining[k] == rows[remainingIdx[k]]
  {
    var flags := seq(|rows|, i requires 0 <= i < |rows| => AutoVerifiable(rows[i], eval));
    autoIdx, remainingIdx := Split(flags);
    updates := seq(|autoIdx|, k requires 0 <= k < |autoIdx| => AutoUpdate(rows[autoIdx[k]]));
    remaining := seq(|remainingIdx|, k requires 0 <= k < |remainingIdx| => rows[remainingIdx[k]]);
  }

  function AsPending(rows: seq<StoredRow>): (r: seq<Pending>)
    ensures |r| == |rows|
    ensures forall k :: 0 <= k < |rows| ==> r[k] == Pending(Finite(rows[k].id as real), rows[k].prompt, rows[k].solution)
  {
    seq(|rows|, k requires 0 <= k < |rows| => Pending(Finite(rows[k].id as real), rows[k].prompt, rows[k].solution))
  }

  /**
   * `results.forEach((res, id) => …)` restricted by `remaining.find(r => r.id === id)`:
   * a verdict is written only for an id that is still remaining. The keys
   * are distinct, so the order of the writes does not matter.
   */
  function AiUpdates(remaining: seq<StoredRow>, verdicts: map<Num, Verdict<JsText>>): (r: seq<Update>)
    ensures forall k :: 0 <= k < |r| ==> r[k].id in RowIds(remaining)
    ensures forall k :: 0 <= k < |r| ==>
      (&& Finite(r[k].id as real) in verdicts
       && r[k].verified == verdicts[Finite(r[k].id as real)].correct
       && r[k].solution == verdicts[Finite(r[k].id as real)].solution)
    ensures forall j :: 0 <= j < |remaining| && Finite(remaining[j].id as real) in verdicts ==>
      remaining[j].id in UpdateIds(r)
  {
    if |remaining| == 0 then []
    else
      var key := Finite(remaining[0].id as real);
      var rest := AiUpdates(remaining[1..], verdicts);
      var head := if key in verdicts then [Update(remaining[0].id, verdicts[key].correct, verdicts[key].solution)] else [];
      var r := head + rest;
      RowIdsCons(remaining);
      UpdateIdsAppend(head, rest);
      TailShift(remaining);
      assert key in verdicts ==> UpdateIds(head) == [remaining[0].id];
      r
  }

  lemma RowIdsCons(rows: seq<StoredRow>)
    requires |rows| > 0
    ensures RowIds(rows) == [rows[0].id] + RowIds(rows[1..])
  {
  }

  lemma UpdateIdsAppend(a: seq<Update>, b: seq<Update>)
    ensures UpdateIds(a + b) == UpdateIds(a) + UpdateIds(b)
  {
  }

  lemma TailShift(rows: seq<StoredRow>)
    requires |rows| > 0
    ensures forall j :: 1 <= j < |rows| ==> rows[j] == rows[1..][j - 1]
  {
  }

  /** The outcome of `recheckTopic`: which rows phase 1 verified and its writes, which remained and phase 2's writes. */
  datatype TopicUpdates = TopicUpdates(autoIdx: seq<nat>, local: seq<Update>, remainingIdx: seq<nat>, ai: seq<Update>)

  /**
   * `recheckTopic(topic)`. Phase 2 runs only when something remains, AI was
   * requested and a client exists; it writes only ids of remaining rows.
   */
  method RecheckTopic(rows: seq<StoredRow>, eval: string -> Option<Num>, useAI: bool, hasClient: bool, batchSize: nat,
                      call: seq<Pending> -> Option<string>, parse: string -> Option<Json>)
    returns (r: TopicUpdates)
    requires batchSize >= 1
    ensures |rows| == 0 ==> r.local == [] && r.ai == []
    ensures forall k :: 0 <= k < |r.autoIdx| ==> r.autoIdx[k] < |rows| && AutoVerifiable(rows[r.autoIdx[k]], eval)
    ensures forall k :: 0 <= k < |r.remainingIdx| ==> r.remainingIdx[k] < |rows| && !AutoVerifiable(rows[r.remainingIdx[k]], eval)
    ensures forall i :: 0 <= i < |rows| ==> i in r.autoIdx || i in r.remainingIdx
    ensures |r.local| == |r.autoIdx| && forall k :: 0 <= k < |r.local| ==> r.local[k] == AutoUpdate(rows[r.autoIdx[k]])
    ensures !(useAI && hasClient) || |r.remainingIdx| == 0 ==> r.ai == []
    ensures forall k :: 0 <= k < |r.ai| ==> r.ai[k].id in RemainingIds(rows, r.remainingIdx)
    // Phase 2 writes the model's verdicts for the remaining rows, sent in batches of `batchSize`.
    ensures useAI && hasClient && |r.remainingIdx| > 0 ==>
      r.ai == AiUpdates(Remaining(rows, r.remainingIdx),
                        RecheckBatch(AsPending(Remaining(rows, r.remainingIdx)), batchSize, hasClient, call, parse).verdicts)
  {
    if |rows| == 0 {
      return TopicUpdates([], [], [], []);
    }
    var autoIdx, local, remainingIdx, remaining := LocalPass(rows, eval);
    assert RowIds(remaining) == RemainingIds(rows, remainingIdx);
    assert remaining == Remaining(rows, remainingIdx);
    var ai := [];
    if |remaining| > 0 && useAI && hasClient {
      var batch := RecheckBatch(AsPending(remaining), batchSize, hasClient, call, parse);
      ai := AiUpdates(remaining, batch.verdicts);
    }
    r := TopicUpdates(autoIdx, local, remainingIdx, ai);
  }

  /** The rows at the given indices, in order. */
  function Remaining(rows: seq<StoredRow>, idx: seq<nat>): (r: seq<StoredRow>)
    requires forall k :: 0 <= k < |idx| ==> idx[k] < |rows|
    ensures |r| == |idx| && forall k :: 0 <= k < |idx| ==> r[k] == rows[idx[k]]
  {
    seq(|idx|, k requires 0 <= k < |idx| => rows[idx[k]])
  }

  function RemainingIds(rows: seq<StoredRow>, idx: seq<nat>): (r: seq<int>)
    requires forall k :: 0 <= k < |idx| ==> idx[k] < |rows|
    ensures |r| == |idx| && forall k :: 0 <= k < |idx| ==> r[k] == rows[idx[k]].id
  {
    seq(|idx|, k requires 0 <= k < |idx| => rows[idx[k]].id)
  }

  /** With unique row ids, phase 2 never rewrites a row phase 1 verified. */
  lemma PhasesTouchDistinctRows(rows: seq<StoredRow>, eval: string -> Option<Num>, r: TopicUpdates)
    requires forall i, j :: 0 <= i < j < |rows| ==> rows[i].id != rows[j].id
    requires forall k :: 0 <= k < |r.autoIdx| ==> r.autoIdx[k] < |rows| && AutoVerifiable(rows[r.autoIdx[k]], eval)
    requires forall k :: 0 <= k < |r.remainingIdx| ==> r.remainingIdx[k] < |rows| && !AutoVerifiable(rows[r.remainingIdx[k]], eval)
    requires |r.local| == |r.autoIdx| && forall k :: 0 <= k < |r.local| ==> r.local[k] == AutoUpdate(rows[r.autoIdx[k]])
    requires forall k :: 0 <= k < |r.ai| ==> r.ai[k].id in RemainingIds(rows, r.remainingIdx)
    ensures forall j, k :: 0 <= j < |r.local| && 0 <= k < |r.ai| ==> r.local[j].id != r.ai[k].id
  {
    forall j, k | 0 <= j < |r.local| && 0 <= k < |r.ai| ensures r.local[j].id != r.ai[k].id {
      var m :| 0 <= m < |r.remainingIdx| && RemainingIds(rows, r.remainingIdx)[m] == r.ai[k].id;
      assert r.autoIdx[j] != r.remainingIdx[m];
    }
  }
}

=== FILE: reconcile.dfy ===
/**
 * The graph script's answer reconciler `extractCorrectNumericAnswer` and its
 * insert loop: the stored numeric answer is taken from the correct choice,
 * else from the last number in the solution, else from an "answer is N"
 * phrase, else it is null.
 */
module Reconcile {
  import opened Wrappers
  import opened Text
  import opened JsNumber
  import opened Json
  import GraphValidation
  import Inserts

  /** `choices[i]` for a numeric index: only a whole number inside the array names an element. */
  function ElementAt(items: seq<Json>, i: real): (r: Option<Json>)
    ensures r.Some? ==> i == i.Floor as real && 0 <= i.Floor < |items| && r.value == items[i.Floor]
    ensures i == i.Floor as real && 0 <= i.Floor < |items| ==> r.Some?
  {
    if i == i.Floor as real && 0 <= i.Floor < |items| then Some(items[i.Floor]) else None
  }

  /** A natural-number index inside the array names its element. */
  lemma WholeIndex(items: seq<Json>, i: nat)
    requires i < |items|
    ensures ElementAt(items, i as real) == Some(items[i])
  {
    assert (i as real).Floor == i;
  }

  /**
   * `parseFloat(choice)`: the leading number of `String(choice)`. `show`
   * stands for `String(...)` on an array.
   */
  function ChoiceNumber(v: Json, show: Json -> string): Num {
    match v
    case JStr(s) => ParseFloat(s)
    case JNum(n) => Finite(n)
    case JArr(_) => ParseFloat(show(v))
    case _ => NaN
  }

  /** Prepending an element that satisfies `P` to a list whose elements all do keeps that so. */
  lemma ConsAll<T>(h: T, rest: seq<T>, P: T -> bool)
    requires P(h) && forall k :: 0 <= k < |rest| ==> P(rest[k])
    ensures forall k :: 0 <= k < |[h] + rest| ==> P(([h] + rest)[k])
  {
    var all := [h] + rest;
    assert all[0] == h;
    assert forall k :: 1 <= k < |all| ==> all[k] == rest[k - 1];
  }

  /** A property of every match of the token pattern holds of every token found from `from` on. */
  lemma {:induction false} TokensSatisfy(s: string, from: nat, P: string -> bool)
    requires from <= |s|
    requires forall a: nat, b: nat :: a <= |s| && TokenEnd(s, a) == Some(b) ==> P(s[a..b])
    ensures forall k :: 0 <= k < |AllTokensFrom(s, from)| ==> P(AllTokensFrom(s, from)[k])
    decreases |s| - from
  {
    match NextToken(s, from)
    case None =>
    case Some((a, b)) =>
      TokensSatisfy(s, b, P);
      ConsAll(s[a..b], AllTokensFrom(s, b), P);
      assert AllTokensFrom(s, from) == [s[a..b]] + AllTokensFrom(s, b);
  }

  /** Every match of the numeric-token pattern parses to a finite number. */
  lemma TokensAreNumbers(s: string)
    ensures forall k :: 0 <= k < |AllTokens(s)| ==> ParseFloat(AllTokens(s)[k]).Finite?
  {
    forall a: nat, b: nat | a <= |s| && TokenEnd(s, a) == Some(b)
      ensures ParseFloat(s[a..b]).Finite?
    {
      TokenIsNumber(s, a, b);
    }
    TokensSatisfy(s, 0, t => ParseFloat(t).Finite?);
  }

  /** The last number in a text, if it has one: `parseFloat(matches[matches.length - 1])`. */
  function LastNumber(s: string): (r: Option<Num>)
    ensures r.Some? <==> |AllTokens(s)| > 0
    ensures r.Some? ==> r.value.Finite? && r.value == ParseFloat(AllTokens(s)[|AllTokens(s)| - 1])
  {
    var tokens := AllTokens(s);
    if |tokens| == 0 then None
    else
      TokensAreNumbers(s);
      Some(ParseFloat(tokens[|tokens| - 1]))
  }

  // ---- the phrase /(?:intercept|answer|result|equals?)\s*(?:is|=)\s*(-?\d+(?:\.\d+)?)/i ----

  function Keywords(): seq<string> {
    ["intercept", "answer", "result", "equals", "equal"]
  }

  /** `pat` (lower-case ASCII) occurs at `p`, ignoring ASCII case. */
  predicate OccursAtIgnoringCase(s: string, pat: string, p: nat) {
    p + |pat| <= |s| && forall k :: 0 <= k < |pat| ==> LowerChar(s[p + k]) == pat[k]
  }

  /** After the keyword: spaces, `is` or `=`, spaces, then the captured number's bounds. */
  function PhraseTail(s: string, q: nat): (r: Option<(nat, nat)>)
    requires q <= |s|
    ensures r.Some? ==> r.value.0 <= |s| && TokenEnd(s, r.value.0) == Some(r.value.1)
  {
    var q1 := SkipSpaces(s, q);
    var q2 :=
      if OccursAtIgnoringCase(s, "is", q1) then Some(q1 + 2)
      else if q1 < |s| && s[q1] == '=' then Some(q1 + 1)
      else None;
    match q2
    case None => None
    case Some(q2) =>
      var q3 := SkipSpaces(s, q2);
      match TokenEnd(s, q3)
      case None => None
      case Some(e) => Some((q3, e))
  }

  /** The alternatives of the keyword group tried in order at `p`. */
  function PhraseAt(s: string, p: nat, kws: seq<string>): (r: Option<(nat, nat)>)
    requires p <= |s|
    ensures r.Some? ==> r.value.0 <= |s| && TokenEnd(s, r.value.0) == Some(r.value.1)
  {
    if |kws| == 0 then None
    else if OccursAtIgnoringCase(s, kws[0], p) && PhraseTail(s, p + |kws[0]|).Some? then PhraseTail(s, p + |kws[0]|)
    else PhraseAt(s, p, kws[1..])
  }

  /** The leftmost phrase match at or after `p`: the bounds of its captured number. */
  function PhraseFrom(s: string, p: nat): (r: Option<(nat, nat)>)
    requires p <= |s|
    ensures r.Some? ==> r.value.0 <= |s| && TokenEnd(s, r.value.0) == Some(r.value.1)
    decreases |s| - p
  {
    match PhraseAt(s, p, Keywords())
    case Some(m) => Some(m)
    case None => if p == |s| then None else PhraseFrom(s, p + 1)
  }

  /**
   * The first step of `extractCorrectNumericAnswer`: the number a truthy
   * choice at a numeric `correctIndex` starts with. It reads only the
   * choices, so it answers even when the solution is not a string.
   */
  function ChoiceAnswer(choices: Json, correctIndex: Json, show: Json -> string): (r: Option<Num>)
    ensures r.Some? <==>
      (&& choices.JArr? && correctIndex.JNum?
       && Truthy(ElementAt(choices.items, correctIndex.n))
       && !ChoiceNumber(ElementAt(choices.items, correctIndex.n).value, show).NaN?)
    ensures r.Some? ==> r.value == ChoiceNumber(ElementAt(choices.items, correctIndex.n).value, show)
  {
    var choice := if choices.JArr? && correctIndex.JNum? then ElementAt(choices.items, correctIndex.n) else None;
    if Truthy(choice) && !ChoiceNumber(choice.value, show).NaN? then Some(ChoiceNumber(choice.value, show)) else None
  }

  /** `extractCorrectNumericAnswer(prompt, solution, choices, correctIndex)` as written. */
  function ExtractCorrectNumericAnswer(solution: string, choices: Json, correctIndex: Json, show: Json -> string): (r: Option<Num>)
    ensures r.Some? ==> !r.value.NaN?
  {
    var choice := ChoiceAnswer(choices, correctIndex, show);
    if choice.Some? then choice
    else if LastNumber(solution).Some? then LastNumber(solution)
    else match PhraseFrom(solution, 0)
      case Some((a, b)) =>
        TokenIsNumber(solution, a, b);
        Some(ParseFloat(solution[a..b]))
      case None => None
  }

  /** A phrase match always contains a number, so the last-number step has already answered. */
  lemma PhraseImpliesNumber(s: string)
    requires PhraseFrom(s, 0).Some?
    ensures |AllTokens(s)| > 0
  {
    var (a, b) := PhraseFrom(s, 0).value;
    var p := if s[a] == '-' then a + 1 else a;
    DigitGivesToken(s, 0, p);
  }

  /** The reconciler without its phrase step: choice, then last number, then null. */
  function ChoiceThenLastNumber(solution: string, choices: Json, correctIndex: Json, show: Json -> string): Option<Num> {
    var choice := ChoiceAnswer(choices, correctIndex, show);
    if choice.Some? then choice else LastNumber(solution)
  }

  /** The phrase step never fires: the reconciler equals its two-step form. */
  lemma PhraseStepUnreachable(solution: string, choices: Json, correctIndex: Json, show: Json -> string)
    ensures ExtractCorrectNumericAnswer(solution, choices, correctIndex, show)
      == ChoiceThenLastNumber(solution, choices, correctIndex, show)
  {
    if PhraseFrom(solution, 0).Some? {
      PhraseImpliesNumber(solution);
    }
  }

  /** A numeric non-empty string at the correct index is the answer. */
  lemma ChoiceWins(solution: string, choices: seq<Json>, i: nat, s: string, show: Json -> string)
    requires i < |choices| && choices[i] == JStr(s) && |s| > 0 && !ParseFloat(s).NaN?
    ensures ChoiceThenLastNumber(solution, JArr(choices), JNum(i as real), show) == Some(ParseFloat(s))
  {
    WholeIndex(choices, i);
    var choice := ElementAt(choices, i as real);
    assert Truthy(choice) && ChoiceNumber(choice.value, show) == ParseFloat(s);
    assert ChoiceAnswer(JArr(choices), JNum(i as real), show) == Some(ParseFloat(s));
  }

  /** A digit in the solution always produces an answer. */
  lemma DigitAnswers(solution: string, choices: Json, correctIndex: Json, show: Json -> string, p: nat)
    requires p < |solution| && IsDigit(solution[p])
    ensures ChoiceThenLastNumber(solution, choices, correctIndex, show).Some?
  {
    DigitGivesToken(solution, 0, p);
  }

  /**
   * The answer comes from the correct choice whenever that choice is a
   * non-empty string with a numeric prefix, whatever the solution says; a
   * solution with a digit always yields an answer; and null means neither
   * source has a number.
   */
  lemma ReconcilePriority(solution: string, choices: seq<Json>, i: nat, s: string, show: Json -> string)
    ensures i < |choices| && choices[i] == JStr(s) && |s| > 0 && !ParseFloat(s).NaN? ==>
      ExtractCorrectNumericAnswer(solution, JArr(choices), JNum(i as real), show) == Some(ParseFloat(s))
    ensures (exists p :: 0 <= p < |solution| && IsDigit(solution[p])) ==>
      ExtractCorrectNumericAnswer(solution, JArr(choices), JNum(i as real), show).Some?
    ensures ExtractCorrectNumericAnswer(solution, JArr(choices), JNum(i as real), show).None? ==>
      |AllTokens(solution)| == 0
  {
    PhraseStepUnreachable(solution, JArr(choices), JNum(i as real), show);
    if i < |choices| && choices[i] == JStr(s) && |s| > 0 && !ParseFloat(s).NaN? {
      ChoiceWins(solution, choices, i, s, show);
    }
    if exists p :: 0 <= p < |solution| && IsDigit(solution[p]) {
      var p :| 0 <= p < |solution| && IsDigit(solution[p]);
      DigitAnswers(solution, JArr(choices), JNum(i as real), show, p);
    }
  }

  /** A stored graph row; expressions and choices are kept as the values `JSON.stringify` writes. */
  datatype GraphRow = GraphRow(
    prompt: string, solution: string, difficulty: string, kind: string, numericAnswer: Option<Num>,
    equationAnswer: Option<string>, expressions: Json, choices: Json, correctIndex: Option<Num>)

  function OrElse(v: Option<Json>, fallback: Json): Json {
    if IsNullish(v) then fallback else v.value
  }

  /**
   * The row the insert loop builds for one item, or `None` where building
   * it throws: reading `it.prompt` of a `null` item, and
   * `solution.match(...)` on a present non-string solution, which is only
   * reached when the choice step did not answer.
   */
  function GraphRowOf(it: Json, requested: string, show: Json -> string): (r: Option<GraphRow>)
    ensures r.Some? <==>
      && !it.JNull?
      && (|| ChoiceAnswer(OrElse(Get(it, "choices"), JArr([])), OrElse(Get(it, "correct_index"), JNum(0.0)), show).Some?
          || IsNullish(Get(it, "solution")) || Get(it, "solution").value.JStr?)
    ensures r.Some? ==> r.value.numericAnswer == ExtractCorrectNumericAnswer(
      JsString(Get(it, "solution"), "", show), OrElse(Get(it, "choices"), JArr([])),
      OrElse(Get(it, "correct_index"), JNum(0.0)), show)
    // An answering choice wins whatever the solution holds.
    ensures r.Some? && ChoiceAnswer(OrElse(Get(it, "choices"), JArr([])), OrElse(Get(it, "correct_index"), JNum(0.0)), show).Some?
      ==> r.value.numericAnswer == ChoiceAnswer(OrElse(Get(it, "choices"), JArr([])), OrElse(Get(it, "correct_index"), JNum(0.0)), show)
  {
    if it.JNull? then None
    else
      var sol := Get(it, "solution");
      var choices := OrElse(Get(it, "choices"), JArr([]));
      var index := OrElse(Get(it, "correct_index"), JNum(0.0));
      if ChoiceAnswer(choices, index, show).None? && !IsNullish(sol) && !sol.value.JStr? then None
      else
        var solution := JsString(sol, "", show);
        var answer := ExtractCorrectNumericAnswer(solution, choices, index, show);
        var equation := Get(it, "equation_answer");
        var correct := Get(it, "correct_index");
        Some(GraphRow(
          JsString(Get(it, "prompt"), "", show), solution, JsString(Get(it, "difficulty"), requested, show),
          JsString(Get(it, "type"), "graph", show), answer,
          if IsNullish(equation) then None else Some(JsString(equation, "", show)),
          OrElse(Get(it, "desmos_expressions"), JArr([])), choices,
          if IsNullish(correct) then None else Some(NumberOf(correct))))
  }

  /** Whether an item ends up stored: its row is built without throwing and its insert succeeds. */
  function Survives(requested: string, show: Json -> string, insertOk: GraphRow -> bool): Json -> bool {
    it => GraphRowOf(it, requested, show).Some? && insertOk(GraphRowOf(it, requested, show).value)
  }

  /**
   * `for (const it of items) { try { … insert.run(…) } catch { … } }`: the
   * rows of the surviving items, in item order.
   */
  function InsertGraphItems(items: seq<Json>, requested: string, show: Json -> string, insertOk: GraphRow -> bool): (r: seq<GraphRow>)
    ensures |r| == |Inserts.InsertEach(items, Survives(requested, show, insertOk))|
    ensures forall k :: 0 <= k < |r| ==>
      GraphRowOf(Inserts.InsertEach(items, Survives(requested, show, insertOk))[k], requested, show) == Some(r[k])
    ensures |r| <= |items|
    ensures forall k :: 0 <= k < |r| ==> insertOk(r[k])
    ensures forall k :: 0 <= k < |r| ==> exists i :: 0 <= i < |items| && GraphRowOf(items[i], requested, show) == Some(r[k])
    ensures forall i :: 0 <= i < |items| ==>
      (GraphRowOf(items[i], requested, show).Some? && insertOk(GraphRowOf(items[i], requested, show).value)
       ==> GraphRowOf(items[i], requested, show).value in r)
  {
    var survives := Survives(requested, show, insertOk);
    var kept := Inserts.InsertEach(items, survives);
    var r := seq(|kept|, k requires 0 <= k < |kept| => GraphRowOf(kept[k], requested, show).value);
    SurvivorsComeFromItems(items, kept, survives);
    SurvivorsAreKept(items, kept, survives);
    r
  }

  lemma SurvivorsComeFromItems(items: seq<Json>, kept: seq<Json>, survives: Json -> bool)
    requires forall x :: multiset(kept)[x] == if survives(x) then multiset(items)[x] else 0
    ensures forall k :: 0 <= k < |kept| ==> kept[k] in items
  {
    forall k | 0 <= k < |kept| ensures kept[k] in items {
      assert kept[k] in multiset(kept);
    }
  }

  lemma SurvivorsAreKept(items: seq<Json>, kept: seq<Json>, survives: Json -> bool)
    requires forall x :: multiset(kept)[x] == if survives(x) then multiset(items)[x] else 0
    ensures forall i :: 0 <= i < |items| && survives(items[i]) ==> exists k :: 0 <= k < |kept| && kept[k] == items[i]
  {
    forall i | 0 <= i < |items| && survives(items[i]) ensures exists k :: 0 <= k < |kept| && kept[k] == items[i] {
      assert items[i] in multiset(items);
      assert items[i] in multiset(kept);
    }
  }

  /** Validated items are never skipped for their solution: only a failing insert drops one. */
  lemma ValidatedItemsHaveRows(it: Json, requested: string, show: Json -> string)
    requires GraphValidation.ItemConforms(it, requested)
    ensures GraphRowOf(it, requested, show).Some?
  {
  }
}

=== FILE: schema.dfy ===
/**
 * The scripts' schema bookkeeping on the embedded database: per-topic tables
 * created if absent, columns added if missing (never dropped or reordered),
 * and the `topics` index row inserted if absent and then timestamped.
 * SQL text is not modelled; a database is a map from table name to columns.
 */
module Schema {
  import opened Naming

  datatype Column = Column(name: string, definition: string)

  /** A `topics` row: `created_at` is set on insert, `last_updated` by the touch. */
  datatype TopicRecord = TopicRecord(createdAt: string, lastUpdated: string)

  datatype Database = Database(tables: map<string, seq<Column>>, topics: map<string, TopicRecord>)

  predicate HasColumn(cols: seq<Column>, name: string) {
    exists i :: 0 <= i < |cols| && cols[i].name == name
  }

  predicate DistinctNames(cols: seq<Column>) {
    forall i, j :: 0 <= i < j < |cols| ==> cols[i].name != cols[j].name
  }

  /** `ensureColumnExists(table, column, def)` on the table's column list. */
  function EnsureColumnExists(cols: seq<Column>, column: string, definition: string): (r: seq<Column>)
    ensures HasColumn(r, column)
    ensures HasColumn(cols, column) ==> r == cols
    ensures |cols| <= |r| <= |cols| + 1 && r[..|cols|] == cols
    ensures forall name :: HasColumn(r, name) ==> HasColumn(cols, name) || name == column
    ensures DistinctNames(cols) ==> DistinctNames(r)
  {
    if HasColumn(cols, column) then cols
    else
      var r := cols + [Column(column, definition)];
      assert r[|cols|].name == column;
      r
  }

  /** Adding a column is idempotent: a second call changes nothing. */
  lemma EnsureColumnIdempotent(cols: seq<Column>, column: string, d1: string, d2: string)
    ensures EnsureColumnExists(EnsureColumnExists(cols, column, d1), column, d2) == EnsureColumnExists(cols, column, d1)
  {
  }

  /** `CREATE TABLE IF NOT EXISTS name (...)` */
  function CreateTableIfNotExists(db: Database, name: string, cols: seq<Column>): (r: Database)
    ensures name in r.tables && r.topics == db.topics
    ensures name in db.tables ==> r == db
    ensures name !in db.tables ==> r.tables[name] == cols
    ensures forall t :: t in db.tables ==> t in r.tables && r.tables[t] == db.tables[t]
    ensures forall t :: t in r.tables && t != name ==> t in db.tables
  {
    if name in db.tables then db else db.(tables := db.tables[name := cols])
  }

  function AddColumn(db: Database, table: string, column: string, definition: string): (r: Database)
    requires table in db.tables
    ensures r.tables.Keys == db.tables.Keys && r.topics == db.topics
    ensures HasColumn(r.tables[table], column)
    ensures forall t :: t in db.tables && t != table ==> r.tables[t] == db.tables[t]
  {
    db.(tables := db.tables[table := EnsureColumnExists(db.tables[table], column, definition)])
  }

  /** `INSERT OR IGNORE INTO topics (name)` then `UPDATE topics SET last_updated = now WHERE name = ?`. */
  function RecordTopic(db: Database, entry: string, now: string): (r: Database)
    ensures r.tables == db.tables
    ensures r.topics.Keys == db.topics.Keys + {entry}
    ensures r.topics[entry].lastUpdated == now
    ensures entry in db.topics ==> r.topics[entry].createdAt == db.topics[entry].createdAt
    ensures entry !in db.topics ==> r.topics[entry].createdAt == now
    ensures forall n :: n in db.topics && n != entry ==> r.topics[n] == db.topics[n]
  {
    var inserted := if entry in db.topics then db.topics else db.topics[entry := TopicRecord(now, "")];
    db.(topics := inserted[entry := inserted[entry].(lastUpdated := now)])
  }

  function MathColumns(): seq<Column> {
    [ Column("id", "INTEGER PRIMARY KEY AUTOINCREMENT"), Column("prompt", "TEXT NOT NULL"),
      Column("model_solution", "TEXT"), Column("verified", "INTEGER DEFAULT 0"),
      Column("verified_solution", "TEXT"), Column("difficulty", "TEXT"), Column("type", "TEXT"),
      Column("numeric_answer", "TEXT"), Column("equation_answer", "TEXT"),
      Column("created_at", "TEXT DEFAULT (datetime('now'))") ]
  }

  function GraphColumns(): seq<Column> {
    [ Column("id", "INTEGER PRIMARY KEY AUTOINCREMENT"), Column("prompt", "TEXT NOT NULL"),
      Column("model_solution", "TEXT"), Column("difficulty", "TEXT"), Column("type", "TEXT"),
      Column("numeric_answer", "TEXT"), Column("equation_answer", "TEXT"),
      Column("desmos_expressions", "TEXT"), Column("choices", "TEXT"), Column("correct_index", "INTEGER"),
      Column("created_at", "TEXT DEFAULT (datetime('now'))") ]
  }

  /** Schema evolution is append-only: `before` is a prefix of `cols`. */
  predicate StartsWithColumns(cols: seq<Column>, before: seq<Column>) {
    |before| <= |cols| && cols[..|before|] == before
  }

  /** A run of `ensureColumnExists` calls, in order. */
  function EnsureColumns(cols: seq<Column>, late: seq<Column>): (r: seq<Column>)
    ensures StartsWithColumns(r, cols)
    ensures forall k :: 0 <= k < |late| ==> HasColumn(r, late[k].name)
    ensures DistinctNames(cols) ==> DistinctNames(r)
    decreases |late|
  {
    if |late| == 0 then cols
    else
      var c1 := EnsureColumnExists(cols, late[0].name, late[0].definition);
      var r := EnsureColumns(c1, late[1..]);
      assert forall k :: 1 <= k < |late| ==> late[k] == late[1..][k - 1];
      assert r[..|c1|] == c1;
      assert r[..|cols|] == c1[..|cols|];
      assert HasColumn(r, late[0].name) by {
        var i :| 0 <= i < |c1| && c1[i].name == late[0].name;
        assert r[i] == c1[i];
      }
      r
  }

  /** Columns that are all present already are left alone. */
  lemma {:induction false} EnsureColumnsPresent(cols: seq<Column>, late: seq<Column>)
    requires forall k :: 0 <= k < |late| ==> HasColumn(cols, late[k].name)
    ensures EnsureColumns(cols, late) == cols
    decreases |late|
  {
    if |late| > 0 {
      assert forall k :: 0 <= k < |late[1..]| ==> late[1..][k] == late[k + 1];
      EnsureColumnsPresent(cols, late[1..]);
    }
  }

  /** A second run of the same column additions changes nothing. */
  lemma EnsureColumnsIdempotent(cols: seq<Column>, late: seq<Column>)
    ensures EnsureColumns(EnsureColumns(cols, late), late) == EnsureColumns(cols, late)
  {
    EnsureColumnsPresent(EnsureColumns(cols, late), late);
  }

  /** Create the table if absent, then add the late columns. */
  function SetupTable(db: Database, table: string, base: seq<Column>, late: seq<Column>): (r: Database)
    ensures table in r.tables && r.topics == db.topics
    ensures r.tables.Keys == db.tables.Keys + {table}
    ensures forall k :: 0 <= k < |late| ==> HasColumn(r.tables[table], late[k].name)
    ensures table !in db.tables ==> StartsWithColumns(r.tables[table], base)
    ensures forall t :: t in db.tables ==> StartsWithColumns(r.tables[t], db.tables[t])
    ensures forall t :: t in db.tables && t != table ==> r.tables[t] == db.tables[t]
  {
    var d1 := CreateTableIfNotExists(db, table, base);
    d1.(tables := d1.tables[table := EnsureColumns(d1.tables[table], late)])
  }

  lemma SetupTableIdempotent(db: Database, table: string, base: seq<Column>, late: seq<Column>)
    ensures SetupTable(SetupTable(db, table, base, late), table, base, late) == SetupTable(db, table, base, late)
  {
    var d := SetupTable(db, table, base, late);
    EnsureColumnsIdempotent(CreateTableIfNotExists(db, table, base).tables[table], late);
    assert CreateTableIfNotExists(d, table, base) == d;
  }

  function MathLateColumns(): seq<Column> {
    [Column("numeric_answer", "TEXT"), Column("equation_answer", "TEXT")]
  }

  function GraphLateColumns(): seq<Column> {
    [Column("desmos_expressions", "TEXT"), Column("choices", "TEXT"), Column("correct_index", "INTEGER")]
  }

  /** The math script's start-up: its table, the two late columns, then its topic row. */
  function MathSetup(db: Database, topic: string, now: string): (r: Database)
  {
    var names := MathNames(topic);
    RecordTopic(SetupTable(db, names.0, MathColumns(), MathLateColumns()), names.1, now)
  }

  /**
   * The graph script's start-up: its table, its topic row, then the three
   * late columns. Recording the topic touches only the `topics` index, so it
   * commutes with the column additions.
   */
  function GraphSetup(db: Database, topic: string, now: string): (r: Database)
  {
    var names := GraphNames(topic);
    var d1 := CreateTableIfNotExists(db, names.0, GraphColumns());
    var d2 := RecordTopic(d1, names.1, now);
    d2.(tables := d2.tables[names.0 := EnsureColumns(d2.tables[names.0], GraphLateColumns())])
  }

  /** After start-up the topic's table and index row exist, and the late columns are present. */
  lemma SetupEstablishes(db: Database, topic: string, now: string)
    ensures var r := MathSetup(db, topic, now); var names := MathNames(topic);
      && names.0 in r.tables && names.1 in r.topics && r.topics[names.1].lastUpdated == now
      && HasColumn(r.tables[names.0], "numeric_answer") && HasColumn(r.tables[names.0], "equation_answer")
    ensures var r := GraphSetup(db, topic, now); var names := GraphNames(topic);
      && names.0 in r.tables && names.1 in r.topics && r.topics[names.1].lastUpdated == now
      && HasColumn(r.tables[names.0], "desmos_expressions") && HasColumn(r.tables[names.0], "choices")
      && HasColumn(r.tables[names.0], "correct_index")
  {
    var names := GraphNames(topic);
    var r := GraphSetup(db, topic, now);
    assert GraphSetup(db, topic, now) == RecordTopic(SetupTable(db, names.0, GraphColumns(), GraphLateColumns()), names.1, now);
    var late := GraphLateColumns();
    assert late[0].name == "desmos_expressions" && late[1].name == "choices" && late[2].name == "correct_index";
    var mlate := MathLateColumns();
    assert mlate[0].name == "numeric_answer" && mlate[1].name == "equation_answer";
  }

  /**
   * A table that start-up creates has exactly the `CREATE TABLE` columns:
   * each script's base list already holds its late columns, so the
   * `ensureColumnExists` calls add nothing.
   */
  lemma FreshTablesHaveBaseColumns(db: Database, topic: string, now: string)
    ensures MathNames(topic).0 !in db.tables ==> MathSetup(db, topic, now).tables[MathNames(topic).0] == MathColumns()
    ensures GraphNames(topic).0 !in db.tables ==> GraphSetup(db, topic, now).tables[GraphNames(topic).0] == GraphColumns()
  {
    BaseHoldsLateColumns();
    var names := GraphNames(topic);
    assert GraphSetup(db, topic, now) == RecordTopic(SetupTable(db, names.0, GraphColumns(), GraphLateColumns()), names.1, now);
  }

  lemma BaseHoldsLateColumns()
    ensures EnsureColumns(MathColumns(), MathLateColumns()) == MathColumns()
    ensures EnsureColumns(GraphColumns(), GraphLateColumns()) == GraphColumns()
  {
    var m := MathColumns();
    assert m[7].name == "numeric_answer" && m[8].name == "equation_answer";
    var ml := MathLateColumns();
    assert ml[0].name == "numeric_answer" && ml[1].name == "equation_answer";
    EnsureColumnsPresent(m, ml);
    var g := GraphColumns();
    assert g[7].name == "desmos_expressions" && g[8].name == "choices" && g[9].name == "correct_index";
    var gl := GraphLateColumns();
    assert gl[0].name == "desmos_expressions" && gl[1].name == "choices" && gl[2].name == "correct_index";
    EnsureColumnsPresent(g, gl);
  }

  /** Start-up never drops or reorders an existing table's columns. */
  lemma SetupAppendsOnly(db: Database, topic: string, now: string)
    ensures forall t :: t in db.tables ==>
      (t in MathSetup(db, topic, now).tables && StartsWithColumns(MathSetup(db, topic, now).tables[t], db.tables[t]))
    ensures forall t :: t in db.tables ==>
      (t in GraphSetup(db, topic, now).tables && StartsWithColumns(GraphSetup(db, topic, now).tables[t], db.tables[t]))
  {
    var names := GraphNames(topic);
    assert GraphSetup(db, topic, now) == RecordTopic(SetupTable(db, names.0, GraphColumns(), GraphLateColumns()), names.1, now);
  }

  /** Running start-up twice leaves the tables as one run left them; the first `created_at` stays. */
  lemma SetupIdempotent(db: Database, topic: string, now1: string, now2: string)
    ensures MathSetup(MathSetup(db, topic, now1), topic, now2).tables == MathSetup(db, topic, now1).tables
    ensures var entry := MathNames(topic).1;
      MathSetup(MathSetup(db, topic, now1), topic, now2).topics[entry].createdAt
        == MathSetup(db, topic, now1).topics[entry].createdAt
    ensures GraphSetup(GraphSetup(db, topic, now1), topic, now2).tables == GraphSetup(db, topic, now1).tables
  {
    var m := MathNames(topic);
    SetupTableIdempotent(db, m.0, MathColumns(), MathLateColumns());
    var g := GraphNames(topic);
    var once := GraphSetup(db, topic, now1);
    assert once == RecordTopic(SetupTable(db, g.0, GraphColumns(), GraphLateColumns()), g.1, now1);
    assert GraphSetup(once, topic, now2) == RecordTopic(SetupTable(once, g.0, GraphColumns(), GraphLateColumns()), g.1, now2);
    SetupTableIdempotent(db, g.0, GraphColumns(), GraphLateColumns());
  }

  /** A table created by start-up has no duplicate columns, and start-up adds none to an existing one. */
  lemma SetupNoDuplicateColumns(db: Database, topic: string, now: string)
    requires forall t :: t in db.tables ==> DistinctNames(db.tables[t])
    ensures forall t :: t in MathSetup(db, topic, now).tables ==> DistinctNames(MathSetup(db, topic, now).tables[t])
    ensures forall t :: t in GraphSetup(db, topic, now).tables ==> DistinctNames(GraphSetup(db, topic, now).tables[t])
  {
    var m := MathNames(topic);
    BaseColumnsDistinct();
    SetupTableDistinct(db, m.0, MathColumns(), MathLateColumns());
    var g := GraphNames(topic);
    SetupTableDistinct(db, g.0, GraphColumns(), GraphLateColumns());
    assert GraphSetup(db, topic, now) == RecordTopic(SetupTable(db, g.0, GraphColumns(), GraphLateColumns()), g.1, now);
  }

  function MathColumnNames(): seq<string> {
    ["id", "prompt", "model_solution", "verified", "verified_solution",
     "difficulty", "type", "numeric_answer", "equation_answer", "created_at"]
  }

  function GraphColumnNames(): seq<string> {
    ["id", "prompt", "model_solution", "difficulty", "type",
     "numeric_answer", "equation_answer", "desmos_expressions", "choices", "correct_index", "created_at"]
  }

  lemma ColumnNameLists()
    ensures |MathColumns()| == |MathColumnNames()|
    ensures forall i :: 0 <= i < |MathColumns()| ==> MathColumns()[i].name == MathColumnNames()[i]
    ensures |GraphColumns()| == |GraphColumnNames()|
    ensures forall i :: 0 <= i < |GraphColumns()| ==> GraphColumns()[i].name == GraphColumnNames()[i]
  {
    var m := MathColumns();
    var mn := MathColumnNames();
    assert forall i :: 0 <= i < |m| ==> m[i].name == mn[i];
    var g := GraphColumns();
    var gn := GraphColumnNames();
    assert forall i :: 0 <= i < |g| ==> g[i].name == gn[i];
  }

  lemma ColumnNamesDistinct()
    ensures forall i, j :: 0 <= i < j < |MathColumnNames()| ==> MathColumnNames()[i] != MathColumnNames()[j]
    ensures forall i, j :: 0 <= i < j < |GraphColumnNames()| ==> GraphColumnNames()[i] != GraphColumnNames()[j]
  {
    var mn := MathColumnNames();
    assert forall i, j :: 0 <= i < j < |mn| ==> mn[i] != mn[j];
    var gn := GraphColumnNames();
    assert forall i, j :: 0 <= i < j < |gn| ==> gn[i] != gn[j];
  }

  lemma BaseColumnsDistinct()
    ensures DistinctNames(MathColumns()) && DistinctNames(GraphColumns())
  {
    ColumnNameLists();
    ColumnNamesDistinct();
  }

  lemma SetupTableDistinct(db: Database, table: string, base: seq<Column>, late: seq<Column>)
    requires forall t :: t in db.tables ==> DistinctNames(db.tables[t])
    requires DistinctNames(base)
    ensures forall t :: t in SetupTable(db, table, base, late).tables ==> DistinctNames(SetupTable(db, table, base, late).tables[t])
  {
    var d1 := CreateTableIfNotExists(db, table, base);
    assert DistinctNames(d1.tables[table]);
  }
}

=== FILE: session.dfy ===
/**
 * Login sessions: a random token kept in the `sid` cookie, its bcrypt hash
 * stored with an expiry in seconds, and the lookups that find the session
 * (and its user) a request's cookie belongs to. bcrypt's `compare` is the
 * parameter `verify`, `hash` its `hash`; the clock is an input in
 * milliseconds.
 */
module Session {
  import opened Wrappers

  newtype byte = x: int | 0 <= x < 256

  const SecondsPerDay: int := 24 * 60 * 60

  /** `crypto.randomBytes`'s default length in `randomToken`. */
  const DefaultTokenBytes: nat := 32

  /** `0`-`9`, `a`-`f` */
  predicate IsHexChar(c: char) {
    ('0' <= c <= '9') || ('a' <= c <= 'f')
  }

  /** The lower-case digit for a nibble. */
  function HexDigit(n: nat): (c: char)
    requires n < 16
    ensures IsHexChar(c)
  {
    if n < 10 then ('0' as int + n) as char else ('a' as int + n - 10) as char
  }

  /** `buf.toString('hex')`: two lower-case digits per byte, high nibble first. */
  function Hex(bs: seq<byte>): (r: string)
    ensures |r| == 2 * |bs|
    ensures forall i :: 0 <= i < |r| ==> IsHexChar(r[i])
  {
    if |bs| == 0 then ""
    else [HexDigit(bs[0] as int / 16), HexDigit(bs[0] as int % 16)] + Hex(bs[1..])
  }

  /** The value of a hex digit; any other character counts as zero. */
  function HexValue(c: char): (r: nat)
    ensures r < 16
    ensures IsHexChar(c) ==> HexDigit(r) == c
  {
    if '0' <= c <= '9' then (c as int - '0' as int) as nat
    else if 'a' <= c <= 'f' then (c as int - 'a' as int + 10) as nat
    else 0
  }

  /** The inverse of `Hex`: each pair of digits back to its byte; a trailing odd digit is dropped. */
  function Unhex(s: string): (r: seq<byte>)
    ensures |r| == |s| / 2
  {
    if |s| < 2 then []
    else [(HexValue(s[0]) * 16 + HexValue(s[1])) as byte] + Unhex(s[2..])
  }

  lemma HexDigitValue(n: nat)
    requires n < 16
    ensures HexValue(HexDigit(n)) == n
  {
  }

  /** One byte's two digits decode back to the byte. */
  lemma HexPair(b: byte, rest: string)
    ensures Unhex([HexDigit(b as int / 16), HexDigit(b as int % 16)] + rest) == [b] + Unhex(rest)
  {
    var hi := b as int / 16;
    var lo := b as int % 16;
    HexDigitValue(hi);
    HexDigitValue(lo);
    var s := [HexDigit(hi), HexDigit(lo)] + rest;
    assert s[0] == HexDigit(hi) && s[1] == HexDigit(lo) && s[2..] == rest;
  }

  /** Decoding the token gives back the random bytes: no two byte strings share a token. */
  lemma {:induction false} UnhexHex(bs: seq<byte>)
    ensures Unhex(Hex(bs)) == bs
  {
    if |bs| > 0 {
      var rest := Hex(bs[1..]);
      assert Hex(bs) == [HexDigit(bs[0] as int / 16), HexDigit(bs[0] as int % 16)] + rest;
      HexPair(bs[0], rest);
      UnhexHex(bs[1..]);
      assert [bs[0]] + bs[1..] == bs;
    }
  }

  /** `randomToken(bytes)`, with the random bytes as the input. */
  function RandomToken(random: seq<byte>): (r: string)
    ensures |r| == 2 * |random|
    ensures |random| == DefaultTokenBytes ==> |r| == 64
    ensures forall i :: 0 <= i < |r| ==> IsHexChar(r[i])
  {
    Hex(random)
  }

  /** `nowSec()`: whole seconds, rounded down. */
  function NowSec(ms: int): (r: int)
    ensures r * 1000 <= ms < r * 1000 + 1000
  {
    ms / 1000
  }

  /** `plusDays(days)` */
  function PlusDays(ms: int, days: int): (r: int)
    ensures r - NowSec(ms) == days * SecondsPerDay
  {
    NowSec(ms) + days * SecondsPerDay
  }

  datatype SessionRow = SessionRow(id: string, userId: int, tokenHash: string, expiresAt: int)

  /** The `sid` cookie as set by `setSessionCookie`: its value and `maxAge` in seconds. */
  datatype Cookie = Cookie(value: string, maxAge: int)

  datatype Created = Created(row: SessionRow, cookie: Cookie, token: string, expiresAt: int)

  /** `remember ? 30 : 1` */
  function LifetimeDays(remember: bool): int {
    if remember then 30 else 1
  }

  /**
   * `createSession`: a fresh token whose hash is stored with an expiry
   * `days` from now, and a cookie holding the token that lives just as long.
   */
  function CreateSession(ms: int, userId: int, remember: bool, random: seq<byte>, uuid: string, hash: string -> string): (r: Created)
    ensures r.token == RandomToken(random) && r.cookie.value == r.token
    ensures r.row == SessionRow(uuid, userId, hash(r.token), r.expiresAt)
    ensures remember ==> r.cookie.maxAge == 30 * SecondsPerDay
    ensures !remember ==> r.cookie.maxAge == SecondsPerDay
    ensures r.expiresAt == NowSec(ms) + r.cookie.maxAge
  {
    var token := RandomToken(random);
    var days := LifetimeDays(remember);
    var expiresAt := PlusDays(ms, days);
    Created(SessionRow(uuid, userId, hash(token), expiresAt), Cookie(token, days * SecondsPerDay), token, expiresAt)
  }

  /** `if (!token)`: no cookie, or an empty one. */
  predicate NoToken(cookie: Option<string>) {
    cookie.None? || cookie.value == ""
  }

  /** The loop of `readSession`: the first unexpired session whose hash verifies the token. */
  function FirstLive(token: string, now: int, sessions: seq<SessionRow>, verify: (string, string) -> bool): (r: Option<nat>)
    ensures r.Some? ==>
      (&& r.value < |sessions|
       && sessions[r.value].expiresAt > now
       && verify(token, sessions[r.value].tokenHash))
    ensures r.Some? ==> forall k :: 0 <= k < r.value ==> sessions[k].expiresAt <= now || !verify(token, sessions[k].tokenHash)
    ensures r.None? ==> forall k :: 0 <= k < |sessions| ==> sessions[k].expiresAt <= now || !verify(token, sessions[k].tokenHash)
  {
    if |sessions| == 0 then None
    else if sessions[0].expiresAt > now && verify(token, sessions[0].tokenHash) then Some(0)
    else
      match FirstLive(token, now, sessions[1..], verify)
      case None => None
      case Some(k) => Some(k + 1)
  }

  /** `readSession` */
  function ReadSession(cookie: Option<string>, ms: int, sessions: seq<SessionRow>, verify: (string, string) -> bool): (r: Option<SessionRow>)
    ensures NoToken(cookie) ==> r.None?
    ensures r.Some? ==> r.value in sessions && r.value.expiresAt > NowSec(ms) && verify(cookie.value, r.value.tokenHash)
    // With a token, nothing is found only when no stored session is both unexpired and verified.
    ensures !NoToken(cookie) ==>
      (r.None? <==> forall k :: 0 <= k < |sessions| ==> sessions[k].expiresAt <= NowSec(ms) || !verify(cookie.value, sessions[k].tokenHash))
    // The session found is the first live one in query order.
    ensures r.Some? ==>
      exists k :: 0 <= k < |sessions| && sessions[k] == r.value
        && forall j :: 0 <= j < k ==> sessions[j].expiresAt <= NowSec(ms) || !verify(cookie.value, sessions[j].tokenHash)
  {
    if NoToken(cookie) then None
    else match FirstLive(cookie.value, NowSec(ms), sessions, verify)
      case None => None
      case Some(k) => Some(sessions[k])
  }

  /**
   * A session just created is found with its own cookie until it expires,
   * provided bcrypt verifies a token against its own hash.
   */
  lemma CreatedSessionIsFound(ms: int, userId: int, remember: bool, random: seq<byte>, uuid: string,
                              hash: string -> string, verify: (string, string) -> bool,
                              sessions: seq<SessionRow>, later: int)
    requires |random| > 0
    requires verify(RandomToken(random), hash(RandomToken(random)))
    requires NowSec(later) < CreateSession(ms, userId, remember, random, uuid, hash).expiresAt
    ensures
      var c := CreateSession(ms, userId, remember, random, uuid, hash);
      ReadSession(Some(c.cookie.value), later, sessions + [c.row], verify).Some?
  {
    var c := CreateSession(ms, userId, remember, random, uuid, hash);
    var all := sessions + [c.row];
    assert all[|sessions|] == c.row;
    assert |c.cookie.value| > 0;
    assert all[|sessions|].expiresAt > NowSec(later) && verify(c.cookie.value, all[|sessions|].tokenHash);
  }

  /** The columns `getCurrentUser` selects. */
  datatype User = User(id: int, email: string, username: string, name: Option<string>, avatar: Option<string>)

  function FindAccount(accounts: seq<User>, id: int): (r: Option<User>)
    ensures r.Some? ==> r.value in accounts && r.value.id == id
    ensures r.None? ==> forall k :: 0 <= k < |accounts| ==> accounts[k].id != id
  {
    if |accounts| == 0 then None
    else if accounts[0].id == id then Some(accounts[0])
    else FindAccount(accounts[1..], id)
  }

  /** `getCurrentUser`: the account of the session the cookie opens, if any. */
  function GetCurrentUser(cookie: Option<string>, ms: int, sessions: seq<SessionRow>, verify: (string, string) -> bool, accounts: seq<User>): (r: Option<User>)
    ensures ReadSession(cookie, ms, sessions, verify).None? ==> r.None?
    ensures r.Some? ==> r.value in accounts && r.value.id == ReadSession(cookie, ms, sessions, verify).value.userId
    ensures ReadSession(cookie, ms, sessions, verify).Some? && r.None? ==>
      forall k :: 0 <= k < |accounts| ==> accounts[k].id != ReadSession(cookie, ms, sessions, verify).value.userId
  {
    match ReadSession(cookie, ms, sessions, verify)
    case None => None
    case Some(s) => FindAccount(accounts, s.userId)
  }

  /** The loop of `destroySessionByToken`: the first session whose hash verifies, expired or not. */
  function FirstVerifying(token: string, sessions: seq<SessionRow>, verify: (string, string) -> bool): (r: Option<nat>)
    ensures r.Some? ==> r.value < |sessions| && verify(token, sessions[r.value].tokenHash)
    ensures r.Some? ==> forall k :: 0 <= k < r.value ==> !verify(token, sessions[k].tokenHash)
    ensures r.None? ==> forall k :: 0 <= k < |sessions| ==> !verify(token, sessions[k].tokenHash)
  {
    if |sessions| == 0 then None
    else if verify(token, sessions[0].tokenHash) then Some(0)
    else
      match FirstVerifying(token, sessions[1..], verify)
      case None => None
      case Some(k) => Some(k + 1)
  }

  /** `DELETE FROM sessions WHERE id = ?` */
  function DeleteById(sessions: seq<SessionRow>, id: string): (r: seq<SessionRow>)
    ensures forall s :: s in r <==> s in sessions && s.id != id
    ensures |r| <= |sessions|
  {
    if |sessions| == 0 then []
    else (if sessions[0].id == id then [] else [sessions[0]]) + DeleteById(sessions[1..], id)
  }

  /** The sessions and the cookie after `destroySessionByToken`. */
  datatype Destroyed = Destroyed(sessions: seq<SessionRow>, cookie: Option<string>)

  /**
   * `destroySessionByToken`: without a token nothing changes; otherwise the
   * first verifying session is deleted (if any) and the cookie is cleared.
   */
  function DestroySessionByToken(cookie: Option<string>, sessions: seq<SessionRow>, verify: (string, string) -> bool): (r: Destroyed)
    ensures NoToken(cookie) ==> r == Destroyed(sessions, cookie)
    ensures !NoToken(cookie) ==> r.cookie.None?
    ensures !NoToken(cookie) && FirstVerifying(cookie.value, sessions, verify).None? ==> r.sessions == sessions
    ensures forall s :: s in r.sessions ==> s in sessions
  {
    if NoToken(cookie) then Destroyed(sessions, cookie)
    else match FirstVerifying(cookie.value, sessions, verify)
      case None => Destroyed(sessions, None)
      case Some(k) => Destroyed(DeleteById(sessions, sessions[k].id), None)
  }

  predicate UniqueIds(sessions: seq<SessionRow>) {
    forall i, j :: 0 <= i < j < |sessions| ==> sessions[i].id != sessions[j].id
  }

  lemma UniqueTail(sessions: seq<SessionRow>)
    requires UniqueIds(sessions) && |sessions| > 0
    ensures UniqueIds(sessions[1..])
  {
    var tail := sessions[1..];
    assert forall i :: 0 <= i < |tail| ==> tail[i] == sessions[i + 1];
  }

  lemma {:induction false} DeleteUniqueId(sessions: seq<SessionRow>, k: nat)
    requires UniqueIds(sessions) && k < |sessions|
    ensures DeleteById(sessions, sessions[k].id) == sessions[..k] + sessions[k + 1..]
  {
    var id := sessions[k].id;
    var tail := sessions[1..];
    if k == 0 {
      assert forall j :: 0 <= j < |tail| ==> tail[j] == sessions[j + 1];
      DeleteAbsent(tail, id);
    } else {
      assert sessions[0].id != id;
      assert tail[k - 1] == sessions[k];
      UniqueTail(sessions);
      DeleteUniqueId(tail, k - 1);
      assert DeleteById(sessions, id) == [sessions[0]] + (tail[..k - 1] + tail[k..]);
      SpliceCons(sessions, k);
    }
  }

  /** Removing index `k > 0` commutes with taking the head off. */
  lemma SpliceCons<T>(xs: seq<T>, k: nat)
    requires 0 < k < |xs|
    ensures [xs[0]] + (xs[1..][..k - 1] + xs[1..][k..]) == xs[..k] + xs[k + 1..]
  {
    assert xs[1..][..k - 1] == xs[1..k];
    assert xs[1..][k..] == xs[k + 1..];
    assert [xs[0]] + xs[1..k] == xs[..k];
  }

  lemma {:induction false} DeleteAbsent(sessions: seq<SessionRow>, id: string)
    requires forall j :: 0 <= j < |sessions| ==> sessions[j].id != id
    ensures DeleteById(sessions, id) == sessions
  {
    if |sessions| > 0 {
      DeleteAbsent(sessions[1..], id);
    }
  }

  /**
   * Session ids are unique (`randomUUID`), so logging out removes exactly
   * the first session the token verifies against, expired or not, and
   * keeps every other session in order.
   */
  lemma DestroyRemovesAtMostOne(cookie: Option<string>, sessions: seq<SessionRow>, verify: (string, string) -> bool)
    requires UniqueIds(sessions)
    requires !NoToken(cookie)
    ensures
      var r := DestroySessionByToken(cookie, sessions, verify);
      match FirstVerifying(cookie.value, sessions, verify)
      case None => r.sessions == sessions
      case Some(k) => r.sessions == sessions[..k] + sessions[k + 1..]
  {
    match FirstVerifying(cookie.value, sessions, verify)
    case None =>
    case Some(k) => DeleteUniqueId(sessions, k);
  }

  /** Logging out can delete a session that `readSession` would not return: expiry is not checked. */
  lemma DestroyIgnoresExpiry(token: string, s: SessionRow, verify: (string, string) -> bool, ms: int)
    requires token != "" && verify(token, s.tokenHash) && s.expiresAt <= NowSec(ms)
    ensures ReadSession(Some(token), ms, [s], verify).None?
    ensures DestroySessionByToken(Some(token), [s], verify).sessions == []
  {
    assert [s][1..] == [];
  }
}

=== FILE: text.dfy ===
/**
 * String helpers that mirror the few JavaScript string operations the
 * pipeline relies on: `trim`, ASCII `toLowerCase`, `indexOf`, `lastIndexOf`,
 * `startsWith`, `endsWith`, `includes` and the UTF-16 `length`.
 */
module Text {
  import opened Wrappers

  /** ECMAScript WhiteSpace and LineTerminator code points: what `\s` matches and `trim` removes. */
  predicate IsSpace(c: char) {
    || c == '\t' || c == '\n' || c == '\U{000B}' || c == '\U{000C}' || c == '\r' || c == ' '
    || c == '\U{00A0}' || c == '\U{1680}' || ('\U{2000}' <= c <= '\U{200A}')
    || c == '\U{2028}' || c == '\U{2029}' || c == '\U{202F}' || c == '\U{205F}'
    || c == '\U{3000}' || c == '\U{FEFF}'
  }

  predicate IsDigit(c: char) {
    '0' <= c <= '9'
  }

  predicate IsAsciiLetter(c: char) {
    ('a' <= c <= 'z') || ('A' <= c <= 'Z')
  }

  /** `/[a-zA-Z]/.test(s)` */
  predicate HasAsciiLetter(s: string) {
    exists i :: 0 <= i < |s| && IsAsciiLetter(s[i])
  }

  function LowerChar(c: char): char {
    if 'A' <= c <= 'Z' then (c as int + 32) as char else c
  }

  /** `toLowerCase`, restricted to the ASCII range. */
  function ToLowerAscii(s: string): (r: string)
    ensures |r| == |s|
    ensures forall i :: 0 <= i < |s| ==> r[i] == LowerChar(s[i])
  {
    seq(|s|, i requires 0 <= i < |s| => LowerChar(s[i]))
  }

  /** `trimStart`: drops the leading whitespace and nothing else. */
  function TrimStart(s: string): (r: string)
    ensures |r| <= |s| && r == s[|s| - |r|..]
    ensures forall i :: 0 <= i < |s| - |r| ==> IsSpace(s[i])
    ensures |r| > 0 ==> !IsSpace(r[0])
  {
    if |s| > 0 && IsSpace(s[0]) then TrimStart(s[1..]) else s
  }

  /** `trimEnd`: drops the trailing whitespace and nothing else. */
  function TrimEnd(s: string): (r: string)
    ensures |r| <= |s| && r == s[..|r|]
    ensures forall i :: |r| <= i < |s| ==> IsSpace(s[i])
    ensures |r| > 0 ==> !IsSpace(r[|r| - 1])
  {
    if |s| > 0 && IsSpace(s[|s| - 1]) then TrimEnd(s[..|s| - 1]) else s
  }

  /** `trim`: the longest infix with no whitespace at either end. */
  function Trim(s: string): (r: string)
    ensures |r| > 0 ==> !IsSpace(r[0]) && !IsSpace(r[|r| - 1])
    ensures |s| - |TrimStart(s)| + |r| <= |s|
    ensures r == s[|s| - |TrimStart(s)|..|s| - |TrimStart(s)| + |r|]
    ensures forall i :: 0 <= i < |s| - |TrimStart(s)| ==> IsSpace(s[i])
    ensures forall i :: |s| - |TrimStart(s)| + |r| <= i < |s| ==> IsSpace(s[i])
  {
    TrimEnd(TrimStart(s))
  }

  /** A string with no whitespace at either end is its own trim. */
  lemma TrimFixed(s: string)
    requires |s| > 0 ==> !IsSpace(s[0]) && !IsSpace(s[|s| - 1])
    ensures Trim(s) == s
  {
  }

  /** The length JavaScript reports: UTF-16 code units, two for a code point above U+FFFF. */
  function JsLength(s: string): (n: nat)
    ensures |s| <= n <= 2 * |s|
  {
    if |s| == 0 then 0 else (if s[0] as int >= 0x1_0000 then 2 else 1) + JsLength(s[1..])
  }

  /** `s.indexOf(c)` for a single character: the first position of `c`. */
  function IndexOfChar(s: string, c: char): (r: Option<nat>)
    ensures r.Some? ==> r.value < |s| && s[r.value] == c && forall k :: 0 <= k < r.value ==> s[k] != c
    ensures r.None? ==> forall k :: 0 <= k < |s| ==> s[k] != c
  {
    if |s| == 0 then None
    else if s[0] == c then Some(0)
    else match IndexOfChar(s[1..], c)
      case None => None
      case Some(k) => Some(k + 1)
  }

  /** `s.lastIndexOf(c)` for a single character: the last position of `c`. */
  function LastIndexOfChar(s: string, c: char): (r: Option<nat>)
    ensures r.Some? ==> r.value < |s| && s[r.value] == c && forall k :: r.value < k < |s| ==> s[k] != c
    ensures r.None? ==> forall k :: 0 <= k < |s| ==> s[k] != c
  {
    if |s| == 0 then None
    else if s[|s| - 1] == c then Some(|s| - 1)
    else LastIndexOfChar(s[..|s| - 1], c)
  }

  /** `pat` occurs in `s` starting at position `i`. */
  predicate OccursAt(s: string, pat: string, i: nat) {
    i + |pat| <= |s| && s[i..i + |pat|] == pat
  }

  /** `s.indexOf(pat, from)`: the first occurrence of `pat` at or after `from`. */
  function IndexOfFrom(s: string, pat: string, from: nat): (r: Option<nat>)
    ensures r.Some? ==> from <= r.value && OccursAt(s, pat, r.value)
    ensures r.Some? ==> forall k :: from <= k < r.value ==> !OccursAt(s, pat, k)
    ensures r.None? ==> forall k :: from <= k ==> !OccursAt(s, pat, k)
    decreases |s| - from
  {
    if from + |pat| > |s| then None
    else if s[from..from + |pat|] == pat then Some(from)
    else IndexOfFrom(s, pat, from + 1)
  }

  predicate StartsWith(s: string, prefix: string) {
    |prefix| <= |s| && s[..|prefix|] == prefix
  }

  predicate EndsWith(s: string, suffix: string) {
    |suffix| <= |s| && s[|s| - |suffix|..] == suffix
  }

  /** `s.includes(pat)` */
  predicate Contains(s: string, pat: string) {
    IndexOfFrom(s, pat, 0).Some?
  }

  /** `s.replace(/^prefix/, '')`: one leading occurrence of `prefix` removed. */
  function StripPrefix(s: string, prefix: string): (r: string)
    ensures StartsWith(s, prefix) ==> prefix + r == s
    ensures !StartsWith(s, prefix) ==> r == s
  {
    if StartsWith(s, prefix) then s[|prefix|..] else s
  }

  /** The index of the first character at or after `i` that is not whitespace (`\s*`, greedy). */
  function SkipSpaces(s: string, i: nat): (r: nat)
    requires i <= |s|
    ensures i <= r <= |s|
    ensures forall k :: i <= k < r ==> IsSpace(s[k])
    ensures r < |s| ==> !IsSpace(s[r])
    decreases |s| - i
  {
    if i < |s| && IsSpace(s[i]) then SkipSpaces(s, i + 1) else i
  }

  /** The end of the maximal run of digits starting at `i` (`\d*`, greedy). */
  function DigitRun(s: string, i: nat): (r: nat)
    requires i <= |s|
    ensures i <= r <= |s|
    ensures forall k :: i <= k < r ==> IsDigit(s[k])
    ensures r < |s| ==> !IsDigit(s[r])
    decreases |s| - i
  {
    if i < |s| && IsDigit(s[i]) then DigitRun(s, i + 1) else i
  }
}

=== FILE: topics.dfy ===
/**
 * The topics listing: rows of the `topics` table merged with the discovered
 * `problems_*` tables, each topic matched to a table by a priority search
 * and given that table's row count.
 */
module Topics {
  import opened Wrappers
  import opened Text
  import opened Naming

  /** A row of `topics`; the synthetic rows carry no timestamps (`null`). */
  datatype TopicRow = TopicRow(name: string, createdAt: Option<string>, lastUpdated: Option<string>)

  /** One entry of the response. */
  datatype TopicCount = TopicCount(name: string, createdAt: Option<string>, lastUpdated: Option<string>, count: nat)

  /** The suffix after `problems_`, or the whole name when it lacks that prefix. */
  function Suffix(table: string): string {
    StripPrefix(table, TablePrefix)
  }

  function Synthetic(table: string): (r: TopicRow)
    ensures r.createdAt.None? && r.lastUpdated.None?
  {
    TopicRow(Suffix(table), None, None)
  }

  function Names(rows: seq<TopicRow>): (r: seq<string>)
    ensures |r| == |rows| && forall k :: 0 <= k < |rows| ==> r[k] == rows[k].name
  {
    seq(|rows|, k requires 0 <= k < |rows| => rows[k].name)
  }

  function Suffixes(tables: seq<string>): (r: seq<string>)
    ensures |r| == |tables| && forall k :: 0 <= k < |tables| ==> r[k] == Suffix(tables[k])
  {
    seq(|tables|, k requires 0 <= k < |tables| => Suffix(tables[k]))
  }

  lemma NamesAppend(a: seq<TopicRow>, b: seq<TopicRow>)
    ensures Names(a + b) == Names(a) + Names(b)
  {
    assert forall k :: 0 <= k < |a + b| ==> Names(a + b)[k] == (Names(a) + Names(b))[k];
  }

  lemma SuffixesCons(tables: seq<string>)
    requires |tables| > 0
    ensures Suffixes(tables) == [Suffix(tables[0])] + Suffixes(tables[1..])
  {
    assert forall k :: 0 <= k < |tables| ==> Suffixes(tables)[k] == ([Suffix(tables[0])] + Suffixes(tables[1..]))[k];
  }

  /** Whatever the tail covers, the whole list covers once the head is also covered. */
  lemma CoverCons(tables: seq<string>, known: seq<string>, names: seq<string>, rest: seq<string>)
    requires |tables| > 0
    requires Suffix(tables[0]) in known || Suffix(tables[0]) in names
    requires forall i :: 0 <= i < |tables| - 1 ==> Suffix(tables[1..][i]) in known || Suffix(tables[1..][i]) in rest
    ensures forall i :: 0 <= i < |tables| ==> Suffix(tables[i]) in known || Suffix(tables[i]) in names + rest
  {
    forall i | 1 <= i < |tables|
      ensures Suffix(tables[i]) in known || Suffix(tables[i]) in names + rest
    {
      assert tables[i] == tables[1..][i - 1];
    }
  }

  /**
   * The loop that appends a synthetic row for every discovered table whose
   * suffix is not in `known`. `known` is fixed before the loop, as the
   * source builds its set once.
   */
  function MissingRows(tables: seq<string>, known: seq<string>): (r: seq<TopicRow>)
    ensures |r| <= |tables|
    ensures forall k :: 0 <= k < |r| ==> r[k].name !in known && r[k].name in Suffixes(tables)
    ensures forall k :: 0 <= k < |r| ==> r[k].createdAt.None? && r[k].lastUpdated.None?
    ensures forall i :: 0 <= i < |tables| ==> Suffix(tables[i]) in known || Suffix(tables[i]) in Names(r)
  {
    if |tables| == 0 then []
    else
      var head := if Suffix(tables[0]) in known then [] else [Synthetic(tables[0])];
      var rest := MissingRows(tables[1..], known);
      SuffixesCons(tables);
      NamesAppend(head, rest);
      assert Suffix(tables[0]) !in known ==> Names(head) == [Suffix(tables[0])];
      CoverCons(tables, known, Names(head), Names(rest));
      head + rest
  }

  /**
   * The merge: with an empty `topics` table one synthetic row per discovered
   * table; otherwise the rows as read, followed by the missing suffixes.
   */
  function MergeTopics(topics: seq<TopicRow>, tables: seq<string>): (r: seq<TopicRow>)
    ensures |topics| <= |r| && r[..|topics|] == topics
    ensures |topics| == 0 ==> |r| == |tables| && forall i :: 0 <= i < |tables| ==> r[i] == Synthetic(tables[i])
    ensures forall k :: |topics| <= k < |r| ==> r[k].name !in Names(topics) && r[k].name in Suffixes(tables)
    ensures forall i :: 0 <= i < |tables| ==> Suffix(tables[i]) in Names(r)
  {
    if |topics| == 0 && |tables| > 0 then
      var r := seq(|tables|, i requires 0 <= i < |tables| => Synthetic(tables[i]));
      assert forall i :: 0 <= i < |tables| ==> Names(r)[i] == Suffix(tables[i]);
      r
    else if |tables| > 0 then
      var r := topics + MissingRows(tables, Names(topics));
      assert r[..|topics|] == topics;
      NamesAppend(topics, MissingRows(tables, Names(topics)));
      r
    else topics
  }

  /** With nothing known, the appending loop adds every table's suffix in order. */
  lemma {:induction false} MissingFromNothing(tables: seq<string>)
    ensures MissingRows(tables, []) == seq(|tables|, i requires 0 <= i < |tables| => Synthetic(tables[i]))
  {
    if |tables| > 0 {
      MissingFromNothing(tables[1..]);
    }
  }

  /** Both branches of the merge are the same rule: rows as read, then the suffixes not among their names. */
  lemma MergeIsUniform(topics: seq<TopicRow>, tables: seq<string>)
    ensures MergeTopics(topics, tables) == topics + MissingRows(tables, Names(topics))
  {
    if |topics| == 0 {
      assert Names(topics) == [];
      MissingFromNothing(tables);
    }
  }

  predicate DistinctStrings(xs: seq<string>) {
    forall i, j :: 0 <= i < j < |xs| ==> xs[i] != xs[j]
  }

  lemma DistinctCons(x: string, xs: seq<string>)
    requires x !in xs && DistinctStrings(xs)
    ensures DistinctStrings([x] + xs)
  {
    var all := [x] + xs;
    assert forall k :: 1 <= k < |all| ==> all[k] == xs[k - 1];
  }

  lemma DistinctHead(xs: seq<string>)
    requires |xs| > 0 && DistinctStrings(xs)
    ensures xs[0] !in xs[1..] && DistinctStrings(xs[1..])
  {
    var tail := xs[1..];
    assert forall k :: 0 <= k < |tail| ==> tail[k] == xs[k + 1];
  }

  /** A name from outside the pool the rows' names come from keeps the names distinct. */
  lemma NewNameDistinct(x: string, rows: seq<TopicRow>, pool: seq<string>)
    requires x !in pool && DistinctStrings(Names(rows))
    requires forall k :: 0 <= k < |rows| ==> rows[k].name in pool
    ensures DistinctStrings([x] + Names(rows))
  {
    DistinctCons(x, Names(rows));
  }

  lemma {:induction false} MissingRowsDistinct(tables: seq<string>, known: seq<string>)
    requires DistinctStrings(Suffixes(tables))
    ensures DistinctStrings(Names(MissingRows(tables, known)))
  {
    if |tables| > 0 {
      SuffixesCons(tables);
      var tail := Suffixes(tables[1..]);
      DistinctHead(Suffixes(tables));
      assert Suffixes(tables)[1..] == tail;
      MissingRowsDistinct(tables[1..], known);
      var rest := MissingRows(tables[1..], known);
      var head := if Suffix(tables[0]) in known then [] else [Synthetic(tables[0])];
      assert MissingRows(tables, known) == head + rest;
      NamesAppend(head, rest);
      if head != [] {
        assert Names(head) == [Suffix(tables[0])];
        NewNameDistinct(Suffix(tables[0]), rest, tail);
      }
    }
  }

  /**
   * Table names are unique and so are topic names (the primary key), so
   * distinct suffixes give a merged list without a repeated name.
   */
  lemma MergeNoDuplicates(topics: seq<TopicRow>, tables: seq<string>)
    requires DistinctStrings(Names(topics))
    requires DistinctStrings(Suffixes(tables))
    ensures DistinctStrings(Names(MergeTopics(topics, tables)))
  {
    MergeIsUniform(topics, tables);
    var extra := MissingRows(tables, Names(topics));
    MissingRowsDistinct(tables, Names(topics));
    NamesAppend(topics, extra);
  }

  /** `existingNames.find(p)` as an index: the first name satisfying `p`. */
  function FindFrom(names: seq<string>, p: string -> bool, from: nat): (r: Option<nat>)
    ensures r.Some? ==> from <= r.value < |names| && p(names[r.value])
    ensures r.Some? ==> forall k :: from <= k < r.value ==> !p(names[k])
    ensures r.None? ==> forall k :: from <= k < |names| ==> !p(names[k])
    decreases |names| - from
  {
    if from >= |names| then None
    else if p(names[from]) then Some(from)
    else FindFrom(names, p, from + 1)
  }

  /** The three table names a topic most likely means. */
  function Candidates(name: string): seq<string> {
    [TablePrefix + name, TablePrefix + "graph_" + name, TablePrefix + StripPrefix(name, "graph_")]
  }

  /** `!tableName`: no match, or the empty string. */
  predicate Falsy(names: seq<string>, t: Option<nat>)
    requires t.Some? ==> t.value < |names|
  {
    t.None? || names[t.value] == ""
  }

  /**
   * The table search, as an index into `existingNames`: a candidate name,
   * else a name ending in `_<topic>`, else one containing the topic; a
   * match on the empty string counts as none. The handler runs this search
   * twice on the same inputs; the second run yields the same index.
   */
  function Resolve(tables: seq<string>, name: string): (r: Option<nat>)
    ensures r.Some? ==> r.value < |tables| && tables[r.value] != ""
  {
    var t1 := FindFrom(tables, n => n in Candidates(name), 0);
    var t2 := if Falsy(tables, t1) then FindFrom(tables, n => EndsWith(n, "_" + name), 0) else t1;
    var t3 := if Falsy(tables, t2) then FindFrom(tables, n => Contains(n, name), 0) else t2;
    if Falsy(tables, t3) then None else t3
  }

  /** How good a table is for a topic: 0 candidate, 1 suffix match, 2 substring, 3 no match. */
  function Rank(table: string, name: string): nat {
    if table in Candidates(name) then 0
    else if EndsWith(table, "_" + name) then 1
    else if Contains(table, name) then 2
    else 3
  }

  /**
   * Independent description of the search over non-empty table names (what
   * SQLite lists): the first table of the best rank, and none exactly when
   * every table ranks 3.
   */
  lemma ResolveIsFirstBest(tables: seq<string>, name: string)
    requires forall k :: 0 <= k < |tables| ==> tables[k] != ""
    ensures Resolve(tables, name).None? <==> forall k :: 0 <= k < |tables| ==> Rank(tables[k], name) == 3
    ensures Resolve(tables, name).Some? ==>
      (var i := Resolve(tables, name).value;
       && Rank(tables[i], name) < 3
       && (forall k :: 0 <= k < |tables| ==> Rank(tables[i], name) <= Rank(tables[k], name))
       && (forall k :: 0 <= k < i ==> Rank(tables[i], name) < Rank(tables[k], name)))
  {
    var p1 := n => n in Candidates(name);
    var p2 := n => EndsWith(n, "_" + name);
    var p3 := n => Contains(n, name);
    var t1 := FindFrom(tables, p1, 0);
    var t2 := FindFrom(tables, p2, 0);
    var t3 := FindFrom(tables, p3, 0);
    if t1.None? && t2.None? {
      assert forall k :: 0 <= k < |tables| ==> !p1(tables[k]) && !p2(tables[k]);
    } else if t1.None? {
      assert forall k :: 0 <= k < |tables| ==> !p1(tables[k]);
    }
  }

  /**
   * A `graph_<s>` topic takes the math table `problems_<s>` when that is
   * listed before `problems_graph_<s>`: the third candidate strips `graph_`.
   */
  lemma GraphTopicMayTakeMathTable(s: string)
    ensures Resolve([TablePrefix + s, TablePrefix + "graph_" + s], "graph_" + s) == Some(0)
  {
    var tables := [TablePrefix + s, TablePrefix + "graph_" + s];
    assert StripPrefix("graph_" + s, "graph_") == s by {
      assert StartsWith("graph_" + s, "graph_");
      assert ("graph_" + s)[|"graph_"|..] == s;
    }
    assert tables[0] in Candidates("graph_" + s);
  }

  /** One response entry: the row's fields, and the resolved table's count, 0 without a table or when counting throws. */
  function Entry(t: TopicRow, tables: seq<string>, countOf: string -> Option<nat>): (r: TopicCount)
    ensures r.name == t.name && r.createdAt == t.createdAt && r.lastUpdated == t.lastUpdated
    ensures Resolve(tables, t.name).None? ==> r.count == 0
    ensures Resolve(tables, t.name).Some? ==> r.count == countOf(tables[Resolve(tables, t.name).value]).GetOr(0)
  {
    match Resolve(tables, t.name)
    case None => TopicCount(t.name, t.createdAt, t.lastUpdated, 0)
    case Some(i) => TopicCount(t.name, t.createdAt, t.lastUpdated, countOf(tables[i]).GetOr(0))
  }

  /** The handler's response: one entry per merged topic, in order. */
  function ListTopicCounts(topics: seq<TopicRow>, tables: seq<string>, countOf: string -> Option<nat>): (r: seq<TopicCount>)
    ensures |r| == |MergeTopics(topics, tables)|
    ensures forall k :: 0 <= k < |r| ==> r[k] == Entry(MergeTopics(topics, tables)[k], tables, countOf)
  {
    var merged := MergeTopics(topics, tables);
    seq(|merged|, k requires 0 <= k < |merged| => Entry(merged[k], tables, countOf))
  }

  /** Every stored topic appears with its timestamps, and every discovered table's suffix appears too. */
  lemma ListingCoversEverything(topics: seq<TopicRow>, tables: seq<string>, countOf: string -> Option<nat>)
    ensures forall k :: 0 <= k < |topics| ==>
      (var e := ListTopicCounts(topics, tables, countOf)[k];
       e.name == topics[k].name && e.createdAt == topics[k].createdAt && e.lastUpdated == topics[k].lastUpdated)
    ensures forall i :: 0 <= i < |tables| ==>
      exists k :: 0 <= k < |ListTopicCounts(topics, tables, countOf)| && ListTopicCounts(topics, tables, countOf)[k].name == Suffix(tables[i])
  {
    var merged := MergeTopics(topics, tables);
    var r := ListTopicCounts(topics, tables, countOf);
    forall k | 0 <= k < |topics|
      ensures r[k].name == topics[k].name && r[k].createdAt == topics[k].createdAt && r[k].lastUpdated == topics[k].lastUpdated
    {
      assert merged[k] == merged[..|topics|][k];
    }
    forall i | 0 <= i < |tables|
      ensures exists k :: 0 <= k < |r| && r[k].name == Suffix(tables[i])
    {
      var k :| 0 <= k < |merged| && Names(merged)[k] == Suffix(tables[i]);
      assert r[k].name == Suffix(tables[i]);
    }
  }
}

=== FILE: wrappers.dfy ===
/** Option type used for the source's `null`/`undefined` results. */
module Wrappers {

  /** `None` stands for JavaScript's `null` or `undefined`, `Some(v)` for a present value. */
  datatype Option<+T> = None | Some(value: T) {

    /** The value, or `default` when absent (JavaScript's `x ?? default`). */
    function GetOr(default: T): T {
      match this
      case Some(v) => v
      case None => default
    }
  }
}
